=== FILE: README.md ===
# A Dafny model of the agent comparison tool's runners

The agent comparison tool runs several coding agents on the same repository and prompt, several times
each. Every run happens in its own Docker container. Afterwards the tool collects metrics
for every run and summarises them per agent. There are two runners with the same shape:
the `act` runner and the older `agent_benchmark` runner. This project models their core
as pure Dafny functions, methods and lemmas:

- `Util` (util.dfy): the parts of Python's string library the core relies on.
  - `strip`, `lstrip`, `rstrip` over Python's whitespace set.
  - `str(n)` and `\d+` for natural numbers.
  - Leftmost `re.search`.
  - `len(set(...))` and `list(set(...))`.
- `Json` (json.dfy): JSON values as parsed by `json.loads`, plus `Result`/`Option` and the exceptions the core can raise.
- `Config` (config.dfy): the validators of the benchmark configuration.
  - The prompt source.
  - The settings bounds.
  - Non-empty, duplicate-free agent ids.
- `Activity` (activity.dfy): `parse_activity_line`.
  - The escape-sequence pattern is matched by hand.
  - The filter is followed by the activity channel of a streamed run.
- `Container` (container.dfy): `ContainerManager`.
  - Environment and mounts.
  - `ensure_image`.
  - The classification of a run's outcome.
  - `cleanup`.
- `Workspace` (workspace.dfy): `WorkspaceManager`.
- `Display` (display.dfy): the progress display's state and counters.
- `DiffStat` (diffstat.dfy): `parse_diff_stat`.
- `Plan` (plan.dfy): `collect_plan_metrics`.
- `TokenLog` (tokenlog.dfy): `extract_token_usage`.
- `BenchMetrics` (benchmetrics.dfy): `RunMetrics.to_dict` and `collect_run_metrics` of `agent_benchmark`.
- `Analysis` (analysis.dfy): `load_run_metrics` and `analyze_results`.
- `ActMetrics` (actmetrics.dfy): the session-export token sums, `load_container_metrics` and `collect_run_metrics` of `act`.
- `Expansion` (expansion.dfy): `_create_run_configs`.
- `FanIn` (fanin.dfy): `_run_sequential`, `_run_parallel` and the drain after an interrupt.
- `Collecting` (collect.dfy): `_collect_results`.
- `Experiment` (experiment.dfy): `_run_single`, the display set-up, the `finally` clause of `run`, and `cleanup`, for both runners.

Everything outside the process is an input of the model.

- **Docker** is given as its answers:
  - whether the image is found or built;
  - whether the container starts;
  - the chunks it streams;
  - whether it exits before the run's timeout, and how many chunks it has written when the timeout expires;
  - whether its output decodes chunk by chunk, and how reading the whole output at once ends;
  - what `wait` returns or raises once the container has exited.
- **The file system** is reduced to:
  - the set of paths that exist, and the paths a removal cannot delete;
  - the listings and file contents a function reads.
- **The thread pool** is given as:
  - the order in which runs complete;
  - an optional interrupt after some number of completions;
  - the set of runs that are done when the interrupt arrives.
- **The clock** is the duration a run reports.

A Python exception is a value of type `Exc`, and `str(e)` is `Describe(e)`.

The `act` runner imports its own `config`, `container` and `display` modules. Those
modules are not part of this model. Their `agent_benchmark` counterparts stand in for them.

`ContainerManager.run` can raise. Its call to `ensure_image`
(src/agent_benchmark/container.py:116) comes before the `try`, so a failed image build
propagates to the caller. `Container.Run` returns that exception as an `Err`. The result
collection of `act` can raise as well, because its metric collection sits outside any
`try` (see Findings).

## Model

| member | source | states |
|---|---|---|
| Activity.ParamRun | src/agent_benchmark/container.py:17 | the `[0-9;]*` part of the escape pattern takes the longest run of digits and semicolons at the start |
| Activity.ParamRunExact | src/agent_benchmark/container.py:17 | that run ends exactly at the first character that is neither a digit nor a semicolon |
| Activity.CsiLength | src/agent_benchmark/container.py:17 | a non-zero match length covers a complete `ESC [ [0-9;]* letter` sequence at the start of the text |
| Activity.CsiLengthOfCsi | src/agent_benchmark/container.py:17 | a complete escape sequence at the start of a line is matched whole, whatever follows it |
| Activity.StripAnsi | src/agent_benchmark/container.py:17-27 | removing the escape sequences never lengthens the line |
| Activity.StripAnsiCsi | src/agent_benchmark/container.py:17-27 | a leading escape sequence is deleted and the rest is processed as if it were alone |
| Activity.StripAnsiPlain | src/agent_benchmark/container.py:27 | text without escape characters passes through unchanged |
| Activity.StripAnsiKeeps | src/agent_benchmark/container.py:27 | a character other than ESC is kept in place |
| Activity.StripAnsiPieces | src/agent_benchmark/container.py:17-27 | for a line cut into escape sequences and escape-free text, the substitution yields exactly the text pieces in order |
| Activity.ParseActivityLine | src/agent_benchmark/container.py:18-30 | a forwarded line starts with one of the six tool prefixes, has no leading or trailing whitespace and is no longer than the raw line |
| Activity.ToolLineForwarded | src/agent_benchmark/container.py:27-29 | a line whose escape-free text is a stripped tool-prefixed line padded with whitespace is forwarded as exactly that line |
| Activity.OtherLineDropped | src/agent_benchmark/container.py:27-30 | a line whose cleaned text has none of the tool prefixes gives None |
| Activity.AllSpaceStrips | src/agent_benchmark/container.py:27 | `strip()` of an all-whitespace string is empty |
| Activity.EmptyLineIsNoActivity | tests/test_container.py:35-36 | the empty line gives None |
| Activity.OnlyEscapesIsNoActivity | tests/test_container.py:38-39 | a line made only of escape sequences gives None, for any number of them |
| Activity.OnlyCsiHasNoText | src/agent_benchmark/container.py:27 | a line cut only into escape sequences has no text left |
| Activity.StripColouredPair | src/agent_benchmark/container.py:27 | substituting away the escapes of `code text code text` leaves the two texts joined |
| Activity.StripColouredTriple | src/agent_benchmark/container.py:27 | the same for three coloured texts closed by a reset code |
| Activity.StripPaddedPair | src/agent_benchmark/container.py:27 | the same for a coloured pair with escape-free text before and after it, which is kept |
| Activity.TextForwarded | src/agent_benchmark/container.py:27-29 | a line whose escape-free form is a stripped tool-prefixed text padded with whitespace gives exactly that text |
| Activity.TextDropped | src/agent_benchmark/container.py:27-30 | a line whose escape-free form is a stripped text without a tool prefix gives None |
| Activity.GlyphPrefix | src/agent_benchmark/container.py:28 | a text whose first two characters are those of one of the six prefixes passes the `startswith` test |
| Activity.NotToolPrefix | src/agent_benchmark/container.py:28 | a text opening with an ASCII letter passes none of the `startswith` tests |
| Activity.ColouredPairForwarded | src/agent_benchmark/container.py:18-29 | a line of two coloured texts, the first opening with a tool prefix, is forwarded as the two texts joined |
| Activity.ColouredTripleForwarded | src/agent_benchmark/container.py:18-29 | the same for three coloured texts closed by a reset code |
| Activity.PaddedPairForwarded | src/agent_benchmark/container.py:18-29 | the same for a coloured pair padded with whitespace, which is dropped |
| Activity.ColouredPairDropped | src/agent_benchmark/container.py:18-30 | a line of two coloured texts whose text opens with a letter gives None |
| Activity.ColouredToolLine | tests/test_container.py:7-9 | `"\x1b[32m✱ Glob\x1b[0m found 3 files"` gives `"✱ Glob found 3 files"` |
| Activity.ColouredReadLine | tests/test_container.py:11-13 | `"\x1b[34m→ Read\x1b[0m src/main.py"` gives `"→ Read src/main.py"` |
| Activity.ColouredWriteLine | tests/test_container.py:15-17 | `"\x1b[34m← Write\x1b[0m src/output.py"` gives `"← Write src/output.py"` |
| Activity.ColourAfterGlyph | tests/test_container.py:49-51 | `"\x1b[0m• \x1b[0mCreate Speckit plan\x1b[90m General Agent\x1b[0m"` gives `"• Create Speckit plan General Agent"` |
| Activity.WhitespaceStripped | tests/test_container.py:45-47 | `"  \x1b[32m✱ Glob\x1b[0m results  \n"` gives `"✱ Glob results"` |
| Activity.ColouredLogLineDropped | tests/test_container.py:53-55 | `"\x1b[32mINFO\x1b[0m: Container started successfully"` gives None |
| Activity.ActivityEvents | src/agent_benchmark/container.py:153-160 | the callback receives at most one event per output chunk |
| Activity.ActivityEventsAreActivities | src/agent_benchmark/container.py:158-160 | every event the callback receives is a stripped, tool-prefixed line |
| Activity.ActivityEventsExact | src/agent_benchmark/container.py:155-160 | a line reaches the callback exactly when some chunk parses to it |
| Container.BuildEnv | src/agent_benchmark/container.py:118-131 | `RUN_ID` and `REPO_URL` are always set. `REPO_COMMIT`, `PROMPT_FILE`, `PROMPT_TEXT` and `OPENCODE_MODEL` are set exactly when their field is non-empty. `OPENCODE_EXTRA_ARGS` is set exactly when there are extra arguments, and holds them joined by spaces. No other key is set |
| Container.EnvRoundTrip | src/agent_benchmark/container.py:118-129 | reading the environment back recovers the run id, the repository and every optional field, with an empty field read as absent |
| Container.BuildVolumes | src/agent_benchmark/container.py:133-141 | the workspace is always mounted read-write at `/workspace`. The credentials file is mounted read-only exactly when it exists. Nothing else is mounted |
| Container.EnsureImage | src/agent_benchmark/container.py:91-108 | succeeds exactly when the image was known, is found or is built, and then marks it known. A failed build raises that failure |
| Container.EnsureImageIdempotent | src/agent_benchmark/container.py:93-94 | once the image is known, a later call changes nothing, whatever Docker would answer |
| Container.Fault | src/agent_benchmark/container.py:177-195 | a raising container call gives exit code 1 and the exception text as error. Its logs are the stderr of a `ContainerError` or `""`, and `""` for any other exception |
| Container.Finished | src/agent_benchmark/container.py:162-175 | a completed wait gives its `StatusCode`, defaulting to 1, with the output read as logs and no error |
| Container.EarlyWait | src/agent_benchmark/container.py:166 | a wait issued while the container may still run raises the timeout exactly when the container outlives the timeout, and otherwise ends as the wait after the exit does |
| Container.Delivered | src/agent_benchmark/container.py:153-160 | no callback receives nothing. A callback that never raises receives every activity in order. A raising one stops at its first call |
| Container.Run | src/agent_benchmark/container.py:110-202 | `run` raises only when the image can be neither found nor built, and then touches nothing. Otherwise the image is marked known, the run's container entry is gone and the rest of the registry is as before. The request carries the built environment and mounts, and the result keeps the run id and workspace |
| Container.RunKeepsOtherContainers | src/agent_benchmark/container.py:196-202 | every other run's container entry survives `run` unchanged |
| Container.RunClassification | src/agent_benchmark/container.py:153-195 | the error is set exactly when a container call raised, the wait it saw timed out or failed, the output could not be read, or a raising callback met an activity line; then the exit code is 1. With a callback the wait comes after the stream and cannot time out; without one it comes first. Without error the exit code is that wait's status code and the logs are the output it read: the streamed chunks joined, or the whole output read at once |
| Container.QuietSubscriberTransparent | src/agent_benchmark/container.py:153-195 | for a container that exits within the timeout and whose output decodes chunk by chunk, a callback that never raises gives the same result as no callback. For every container the registry ends up the same and `run` raises in both or in neither |
| Container.CallbackSkipsTimeout | src/agent_benchmark/container.py:155-166 | a container that outlives its timeout and then exits is a timeout failure without a callback, but with a callback that never raises the run returns its status code and whole output: the stream follows the container to its exit before `wait` is called |
| Container.SplitCharacterFailsStream | src/agent_benchmark/container.py:155-167 | output that decodes as a whole but not chunk by chunk fails the streamed run with the decoding error, while the same container without a callback succeeds with the whole output |
| Container.BrokenStreamFailsRun | src/agent_benchmark/container.py:153-195 | output that cannot be read chunk by chunk fails a streamed run with exit code 1 and the read's exception, after the activity lines before the failure have reached the callback, unless a raising callback met one of them first. Without a callback a timeout or a failed `wait` ends the run, and otherwise the whole output decides: its read error, or the status code with that output. The container entry is removed |
| Container.RaisingSubscriberFailsRun | src/agent_benchmark/container.py:153-195 | a raising callback turns any run whose output holds an activity line into an exit-code-1 failure carrying that exception |
| Container.HasActivity | src/agent_benchmark/container.py:158-160 | output with a tool-call line in any chunk has an activity to deliver |
| Container.RaisingOutcome | src/agent_benchmark/container.py:158-195 | with an activity to deliver, a raising callback's exception becomes the run's failure result |
| Container.DeadlineOutcome | src/agent_benchmark/container.py:155-166 | the corrected outcome, with the stream read only until the timeout: an overrunning container is a timeout failure unless a raising callback met an activity line written before the timeout, and a container that exits in time has its as-written outcome |
| Container.DeadlineTransparent | src/agent_benchmark/container.py:155-166 | with the timeout enforced, a callback that never raises leaves every started container's result as it is without a callback, in time or not |
| Container.Cleanup | src/agent_benchmark/container.py:301-308 | each registered container is handled exactly once, and the registry ends empty even when a removal fails |
| Workspace.Create | src/agent_benchmark/container.py:318-323 | returns `base/run_id` and registers it under the run id. Every other entry is kept |
| Workspace.CreateIdempotent | src/agent_benchmark/container.py:318-323 | creating the same workspace twice gives the same state and path as creating it once |
| Workspace.Get | src/agent_benchmark/container.py:325-327 | returns the registered path, or None exactly when the run is unregistered |
| Workspace.GetAfterCreate | src/agent_benchmark/container.py:318-327 | after `create`, `get` returns the created path, and every other run's answer is unchanged |
| Workspace.CopySource | src/agent_benchmark/container.py:329-333 | something is copied exactly when the run is registered and its directory exists, and the source is the registered path |
| Workspace.RemoveTree | src/agent_benchmark/container.py:338-339 | `rmtree(ignore_errors=True)` on an existing directory deletes it and every path below it, except paths it cannot delete, which stay silently. Paths outside it stay, and nothing happens when it does not exist |
| Workspace.Cleanup | src/agent_benchmark/container.py:335-340 | empties the registry. Every path outside the registered workspaces stays on disk, and a path at or below a registered workspace that existed stays only if the removal could not delete it |
| Workspace.CleanupComplete | src/agent_benchmark/container.py:335-340 | when no removal fails, exactly the paths outside every existing registered workspace remain, nested paths below a workspace included in what goes |
| Workspace.CleanupIdempotent | src/agent_benchmark/container.py:335-340 | a second cleanup deletes nothing and changes nothing |
| Workspace.CleanupNested | src/agent_benchmark/container.py:335-340 | removing workspace `b/a-1` takes `b/a-1/repo` with it and leaves `b/a-10` |
| Util.LStrip | src/agent_benchmark/container.py:27 | `lstrip()` never lengthens its text |
| Util.LStripSuffix | src/agent_benchmark/container.py:27 | `lstrip()` drops only whitespace, and what it keeps is a suffix that is empty or starts with a non-whitespace character |
| Util.RStrip | src/agent_benchmark/container.py:27 | `rstrip()` never lengthens its text |
| Util.RStripPrefix | src/agent_benchmark/container.py:27 | `rstrip()` drops only whitespace, and what it keeps is a prefix that is empty or ends with a non-whitespace character |
| Util.Strip | src/agent_benchmark/container.py:27 | `strip()` yields text with no whitespace at either end, no longer than its input |
| Util.StripPadded | src/agent_benchmark/metrics.py:100 | a stripped text padded with whitespace on both sides strips back to itself |
| Util.LStripPadded | src/agent_benchmark/metrics.py:100 | `lstrip()` removes exactly a whitespace lead before a visible character |
| Util.RStripPadded | src/agent_benchmark/metrics.py:100 | `rstrip()` removes exactly a whitespace tail after a visible character |
| Util.NatToString | src/act/runner.py:78 | `str(n)` is a non-empty run of decimal digits with no leading zero |
| Util.DigitsValueOfNatToString | src/agent_benchmark/metrics.py:110 | `int(str(n)) == n` |
| Util.NatToStringInjective | src/act/runner.py:77-78 | different run numbers print differently |
| Util.DigitRun | src/agent_benchmark/metrics.py:106 | `\d+` takes the longest run of digits at the start of the text |
| Util.DigitRunOfNumber | src/agent_benchmark/metrics.py:106-110 | a printed number followed by a non-digit is read back whole |
| Util.DigitRunOfDigits | src/agent_benchmark/metrics.py:106 | a digit string followed by a non-digit is consumed exactly |
| Util.FirstMatch | src/agent_benchmark/metrics.py:105-108 | a position found by `re.search` lies in the text and the pattern matches there |
| Util.FirstMatchLeftmost | src/agent_benchmark/metrics.py:105-108 | the position found is the leftmost match, and no position found means the pattern matches nowhere |
| Util.SetCardinality | src/agent_benchmark/config.py:75-77 | `len(set(ids)) == len(ids)` holds exactly when no id is repeated |
| Util.Dedupe | src/agent_benchmark/metrics.py:143 | `list(set(xs))` holds every element of `xs` exactly once and nothing else |
| Config.PromptErrors | src/agent_benchmark/config.py:29-35 | the prompt is accepted exactly when one of file and text is set. Both missing and both present are each reported with their own message |
| Config.SettingsErrors | src/agent_benchmark/config.py:38-43 | the settings are accepted exactly when `runs_per_agent` is in 1..10 and `timeout_minutes` in 1..180 |
| Config.AgentErrors | src/agent_benchmark/config.py:71-78 | the agent list is accepted exactly when it is non-empty and its ids are pairwise different. An empty list is reported before duplicates |
| Config.Validate | src/agent_benchmark/config.py:61-78 | a configuration passes exactly when its prompt, settings and agent list all pass. The agent check runs only when the fields passed |
| Config.ValidBounds | src/agent_benchmark/config.py:41-43 | a valid configuration gives each run a timeout of 60 to 10800 seconds and between one and ten runs per agent |
| Config.DefaultSettingsValid | src/agent_benchmark/config.py:41-43 | the default settings (3 runs, 10 minutes, parallel) pass validation |
| Display.Start | src/agent_benchmark/display.py:64-75 | `start` installs a fresh state with the given name and total, no runs, and a live view |
| Display.AddRun | src/agent_benchmark/display.py:77-85 | `add_run` raises `RuntimeError` before `start`. Otherwise it registers the run as PENDING with duration 0 and no error, and leaves every other run as it was |
| Display.UpdateRun | src/agent_benchmark/display.py:88-102 | `update_run` does nothing before `start` or for an unknown run. Otherwise it changes only that run's status, duration and error |
| Display.Stop | src/agent_benchmark/display.py:151-156 | `stop` ends the live view and keeps the state for the summary |
| Display.CounterBounds | src/agent_benchmark/display.py:43-51 | `successful_runs <= completed_runs <= len(runs)` |
| Display.SummaryPartition | src/agent_benchmark/display.py:166-171 | the summary's successful and failed runs are disjoint and number at most `len(runs)`. A TIMEOUT run is failed in the summary but not completed for the panel |
| Display.AddRunCounters | src/agent_benchmark/display.py:77-85 | registering a run makes it pending, so it counts as neither completed nor successful and no other run's counts change |
| Display.UpdateRunCounters | src/agent_benchmark/display.py:88-102 | after an update the run counts as completed exactly when it is COMPLETED or FAILED, and as successful exactly when it is COMPLETED. No other run's count changes |
| Expansion.RunId | src/act/runner.py:78 | a run id ends with `-` followed by the decimal run number |
| Expansion.TrailingDigitsAfterDash | src/act/runner.py:78 | in `<agent>-<n>` the trailing digit run is exactly the printed run number |
| Expansion.RunIdInjective | src/act/runner.py:78 | a run id determines its agent id and run number |
| Expansion.Entry | src/act/runner.py:78-92 | run `n` of an agent gets id `<agent>-<n>`, its workspace below the base directory, the run id in its container configuration and a timeout of `timeout_minutes * 60` seconds |
| Expansion.Block | src/act/runner.py:77-92 | one agent contributes runs 1..`runs_per_agent` in order |
| Expansion.ExpandLength | src/act/runner.py:76-92 | there are exactly `len(agents) * runs_per_agent` runs |
| Expansion.ExpandAt | src/act/runner.py:76-92 | run `k+1` of agent `a` is at position `a * runs_per_agent + k`, so the order is agent-major |
| Expansion.ExpandMembers | src/act/runner.py:76-92 | every run is some agent's run `n` with `1 <= n <= runs_per_agent` |
| Expansion.ExpandIdsDistinct | src/act/runner.py:76-78 | with pairwise different agent ids, the run ids are pairwise different |
| Expansion.RegisterOne | src/act/runner.py:79 | registering one more run keeps every earlier registration and adds the new one |
| Expansion.AddAgentRuns | src/act/runner.py:77-92 | the inner loop appends one agent's block of runs and registers each of their workspaces |
| Expansion.ExpandPaths | src/act/runner.py:79-90 | every run's workspace is its id below the base directory |
| Expansion.CreateRunConfigs | src/act/runner.py:69-94 | `_create_run_configs` returns the agent-major expansion, and each run's workspace is registered under its id at the path in its configuration. The agent-benchmark runner's `_create_run_configs` is the same loop |
| Expansion.ValidExpansion | src/agent_benchmark/runner.py:71-76 | for a valid configuration there are at most ten runs per agent, every timeout is 60 to 10800 seconds and no two runs share an id |
| FanIn.Settle | src/act/runner.py:171-188 | the entry for a run keeps its run id and agent id, whether the run returned or raised |
| FanIn.RunSequential | src/act/runner.py:165-188 | `_run_sequential` records one entry per run, in run order. A raising run becomes its failure entry. Only `Exception` is caught, so an interrupt during run `i` propagates with exactly the entries of the runs before it. The agent-benchmark runner's `_run_sequential` is the same loop |
| FanIn.SequentialFailure | src/act/runner.py:175-188 | a raising run is recorded with exit code 1, empty logs, its workspace and the exception text, and every later run is still recorded |
| FanIn.TakeCompleted | src/act/runner.py:110-129 | the first `k` completions yield `k` entries in completion order, each the returned result or the failure entry |
| FanIn.DrainScanExact | src/act/runner.py:142-163 | the drain adds exactly the runs that are done and were not collected before it started |
| FanIn.DrainScanSource | src/act/runner.py:144-163 | each entry the drain adds is the entry of a done run that was not collected |
| FanIn.DrainScanDistinct | src/act/runner.py:143-146 | with pairwise different run ids, the drain adds no id twice |
| FanIn.RunParallel | src/act/runner.py:96-135 | without an interrupt there is one entry per run, in completion order. With an interrupt after `k` completions, the first `k` entries are followed by the drain, and the interrupt is reported back |
| FanIn.ParallelComplete | src/act/runner.py:110-129 | without an interrupt every run is recorded, and with pairwise different run ids no id repeats |
| FanIn.TakenIds | src/act/runner.py:110-129 | the entries taken before an interrupt have no repeated id, and a run is among them exactly when it was among the first `k` completions |
| FanIn.InterruptedDistinct | src/act/runner.py:130-163 | after an interrupt and the drain, no run id appears twice |
| FanIn.DistinctConcat | src/act/runner.py:143-149 | appending entries with fresh ids to a duplicate-free list keeps it duplicate-free |
| FanIn.InterruptedMembers | src/act/runner.py:130-163 | after an interrupt every entry is the entry of one of the runs |
| FanIn.InterruptedExact | src/act/runner.py:130-163 | after an interrupt a run is recorded exactly when it completed before the interrupt or was done when it arrived |
| FanIn.RegistrySettle | src/agent_benchmark/runner.py:107-126 | the fallback raises `RuntimeError` exactly when the run raised and has no registered workspace |
| FanIn.RegistryFallbackUnreachable | src/agent_benchmark/runner.py:110-113 | every run from `_create_run_configs` has its workspace registered, so the fallback never raises and records what the other runner records |
| FanIn.RegistryTakeCompleted | src/agent_benchmark/runner.py:104-126 | results are taken in completion order. The loop stops with a `RuntimeError` exactly when a fallback finds no workspace, keeping the results taken before it |
| FanIn.DropScanExact | src/agent_benchmark/runner.py:134-144 | the variant's drain adds exactly the runs that are done, not yet collected and returned normally |
| FanIn.DropScanDistinct | src/agent_benchmark/runner.py:134-144 | with pairwise different run ids, the variant's drain adds no run id twice and none that was already collected |
| FanIn.DropDrainDistinct | src/agent_benchmark/runner.py:134-144 | after the variant's drain no run id appears twice |
| FanIn.DropDrainLosesFailure | src/agent_benchmark/runner.py:143-144 | a run that raised and is done but not yet taken gets no entry from the variant's drain, while the other runner's drain records its failure |
| DiffStat.LastLine | src/agent_benchmark/metrics.py:100-104 | `split("\n")[-1]` is never longer than the text |
| DiffStat.LastLineIsSuffix | src/agent_benchmark/metrics.py:100-104 | the last line is a newline-free suffix of the text, preceded by a newline unless it is the whole text |
| DiffStat.LastLineAfterNewline | src/agent_benchmark/metrics.py:104 | the last line of `x + "\n" + line` is `line` when `line` has no newline |
| DiffStat.Noun | src/agent_benchmark/metrics.py:106 | `files?`, `insertions?` and `deletions?` consume at most the text they are given |
| DiffStat.CountAt | src/agent_benchmark/metrics.py:106 | a count and its noun match within the text, and the captured group is all digits |
| DiffStat.FilesAt | src/agent_benchmark/metrics.py:106 | `(\d+) files? changed` matches within the text with an all-digit group |
| DiffStat.ClauseAt | src/agent_benchmark/metrics.py:106 | `, (\d+) insertions?(+)` and `, (\d+) deletions?(-)` match within the text with an all-digit group |
| DiffStat.ParseSummaryLine | src/agent_benchmark/metrics.py:105-113 | a line where the pattern matches nowhere gives all zeros |
| DiffStat.ParseDiffStat | src/agent_benchmark/metrics.py:96-114 | `parse_diff_stat` never gives a negative count |
| DiffStat.NounAt | src/agent_benchmark/metrics.py:106 | a printed singular or plural noun is matched whole |
| DiffStat.CountAtDigits | src/agent_benchmark/metrics.py:106 | digits followed by their noun are matched whole, and the group is those digits |
| DiffStat.ClauseAtDigits | src/agent_benchmark/metrics.py:106 | an optional clause `, <digits><noun>` is matched whole |
| DiffStat.NoInsertionBeforeDeletion | src/agent_benchmark/metrics.py:106 | a deletion clause, or nothing, is never taken for an insertion clause |
| DiffStat.ClauseRoundTrip | src/agent_benchmark/metrics.py:106-112 | the value read back from a printed clause is its count |
| DiffStat.FilesRoundTrip | src/agent_benchmark/metrics.py:106-110 | a printed files clause is matched whole and carries its count |
| DiffStat.SummaryMatchesAtOne | src/agent_benchmark/metrics.py:105-108 | in a summary line the leftmost match starts right after the leading space |
| DiffStat.ParseAtMatch | src/agent_benchmark/metrics.py:105-112 | the counts come from the leftmost match |
| DiffStat.ReadAfter | src/agent_benchmark/metrics.py:106-112 | the optional clauses are read from the text right after the files clause |
| DiffStat.SummaryFiles | src/agent_benchmark/metrics.py:105-110 | the files clause of a summary line is found and read whole |
| DiffStat.SummaryInsertions | src/agent_benchmark/metrics.py:106-111 | an insertion clause is read when present and found absent otherwise |
| DiffStat.SummaryDeletions | src/agent_benchmark/metrics.py:106-112 | a deletion clause is read when present and found absent otherwise |
| DiffStat.CountOfClause | src/agent_benchmark/metrics.py:111-112 | an optional group reads back as its count, and as 0 when it did not match |
| DiffStat.SummaryClauses | src/agent_benchmark/metrics.py:106-112 | the clauses after the files clause are read back as the printed counts |
| DiffStat.SummaryRoundTrip | src/agent_benchmark/metrics.py:105-112 | a summary line `N file(s) changed[, I insertion(s)(+)][, D deletion(s)(-)]` parses to (N, I, D), with 0 for an absent clause. This covers a deletions-only summary |
| DiffStat.LStripKeepsTail | src/agent_benchmark/metrics.py:100 | leading whitespace is stripped only up to the first visible character |
| DiffStat.StripOutput | src/agent_benchmark/metrics.py:100 | stripping output that ends in a line and trailing whitespace keeps that line and drops the whitespace |
| DiffStat.LastLineOfOutput | src/agent_benchmark/metrics.py:100-104 | the line before trailing whitespace is the last line of the stripped output |
| DiffStat.LastCharOfSummary | src/agent_benchmark/metrics.py:100 | a summary line ends with a visible character, so stripping leaves it whole |
| DiffStat.OneLineSummary | src/agent_benchmark/metrics.py:104 | a summary line has no newline |
| DiffStat.ParseDiffStatLastLine | src/agent_benchmark/metrics.py:96-114 | output of any stat lines followed by a summary line and trailing whitespace parses to the summary's counts, whatever the stat lines say |
| Plan.NewlinesConcat | src/agent_benchmark/metrics.py:134 | the newlines of two texts joined add up |
| Plan.LineCountJoin | src/agent_benchmark/metrics.py:134 | `len(split("\n"))` of two texts joined by a newline is the sum of their line counts |
| Plan.MatchesFromCounts | src/agent_benchmark/metrics.py:135-136 | `len(re.findall(^...))` in multi-line mode is the number of line starts where the pattern matches |
| Plan.MatchSetSplit | src/agent_benchmark/metrics.py:135-136 | the line starts counted from a position are that position, when it counts, and those after it |
| Plan.MatchesAtMostLines | src/agent_benchmark/metrics.py:135-136 | each line start counts once at most |
| Plan.HashRun | src/agent_benchmark/metrics.py:135 | `#+` takes the longest run of `#` at the start of the text |
| Plan.CountsWithinLines | src/agent_benchmark/metrics.py:134-136 | a file has no more headings and no more tasks than lines |
| Plan.NextTick | src/agent_benchmark/metrics.py:138 | the scan for a closing back-quote stops at a back-quote or at the end of the text |
| Plan.NextTickAt | src/agent_benchmark/metrics.py:138 | the scan stops at the first back-quote |
| Plan.NextTickSkipsNone | src/agent_benchmark/metrics.py:138 | the text skipped by the scan has no back-quote |
| Plan.LowerSuffix | src/agent_benchmark/metrics.py:138 | the `[a-z]+` extension run is no longer than the text |
| Plan.LowerSuffixLongest | src/agent_benchmark/metrics.py:138 | that run is all lower-case letters and cannot be extended to the left |
| Plan.IsRefSplit | src/agent_benchmark/metrics.py:138 | text between back-quotes is a reference exactly when it splits into a non-empty name, a dot and a lower-case extension |
| Plan.RefsAreRefs | src/agent_benchmark/metrics.py:138 | every reference found has that shape and contains no back-quote |
| Plan.QuotedRef | src/agent_benchmark/metrics.py:138 | a back-quoted reference is found, and the scan continues after its closing back-quote |
| Plan.RefsAtTick | src/agent_benchmark/metrics.py:138 | at a back-quote the scan reads up to the next one, and a reference there is found |
| Plan.NextTickOver | src/agent_benchmark/metrics.py:138 | the scan of a back-quoted name stops at its closing back-quote |
| Plan.NoTickNoRefs | src/agent_benchmark/metrics.py:138 | text without back-quotes references nothing |
| Plan.Named | src/agent_benchmark/metrics.py:125-126 | a literal glob pattern finds exactly the entries with that name |
| Plan.Markdown | src/agent_benchmark/metrics.py:125-126 | `*.md` finds exactly the entries whose name ends in `.md` |
| Plan.PlanFiles | src/agent_benchmark/metrics.py:121-126 | the files read are exactly the entries whose name is a plan name |
| Plan.PlanFilesOnce | src/agent_benchmark/metrics.py:121-126 | each plan file of a listing is read exactly once |
| Plan.CollectPlanMetrics | src/agent_benchmark/metrics.py:117-144 | the corrected collector, reading each plan file once: the counts are the sums over the plan files of the listing, the referenced names are those found in them, each once, and no plan file gives all zeros |
| Plan.CollectPlanMetricsAsWritten | src/agent_benchmark/metrics.py:117-144 | lines, headings and tasks are the sums over the files the four patterns find, in the order found; the referenced names are those found in them, each once; no file found gives all zeros |
| Plan.AccumulateConcat | src/agent_benchmark/metrics.py:131-139 | lines, headings, tasks and references over several files are the sums over each file |
| Plan.AccumulateWithinLines | src/agent_benchmark/metrics.py:131-141 | over all plan files there are no more headings and no more tasks than lines |
| Plan.PlanMdCountedTwice | src/agent_benchmark/metrics.py:121-126 | a lone `PLAN.md` of one heading line is counted as two lines and two headings by the patterns as written, and once by the corrected reading |
| Plan.AccumulateRefs | src/agent_benchmark/metrics.py:131-138 | a name is among the references collected exactly when some readable file read references it |
| Plan.SamePlanFiles | src/agent_benchmark/metrics.py:121-126 | the four patterns find exactly the plan files of the listing, if not equally often |
| Plan.AsWrittenSameRefs | src/agent_benchmark/metrics.py:121-143 | reading `PLAN.md` twice adds no referenced name: the collector as written and the corrected one report the same references |
| Plan.AccumulateFour | src/agent_benchmark/metrics.py:121-139 | the counts over the four pattern results read one after the other are the sums of their counts |
| Plan.MatchedOnce | src/agent_benchmark/metrics.py:121-126 | one entry is found by the four patterns as often as it is a plan file, and once more when it is `PLAN.md` |
| Plan.AsWrittenCounts | src/agent_benchmark/metrics.py:121-139 | each count of the collector as written is that of the corrected one plus that of `PLAN.md` alone |
| Plan.OneHeadingLine | src/agent_benchmark/metrics.py:134-135 | `"# x"` is one line with one heading |
| TokenLog.SepRun | src/agent_benchmark/metrics.py:152-154 | `[:\s]+` takes the longest run of colons and whitespace |
| TokenLog.CountAt | src/agent_benchmark/metrics.py:152-154 | a count read is a non-empty run of digits |
| TokenLog.AfterJoin | src/agent_benchmark/metrics.py:152-154 | a count read after `tokens?` is a non-empty run of digits |
| TokenLog.TokenAt | src/agent_benchmark/metrics.py:152-154 | a count read by a whole pattern is a non-empty run of digits |
| TokenLog.Find | src/agent_benchmark/metrics.py:158-160 | a count is found exactly when the log mentions one for the word somewhere |
| TokenLog.AddFound | src/agent_benchmark/metrics.py:157-160 | a match sets its key to the count read. No match leaves the key as it was, and no other key changes |
| TokenLog.ExtractTokenUsage | src/agent_benchmark/metrics.py:147-162 | the keys are among `input_tokens`, `output_tokens` and `total_tokens`, and each holds the count of the first case-insensitive match of its pattern |
| TokenLog.KeyPresentIffMentioned | src/agent_benchmark/metrics.py:157-160 | a key is present exactly when its pattern matches somewhere in the log |
| TokenLog.ExtractLookup | src/agent_benchmark/metrics.py:157-160 | the value under a key is the count found for its word |
| TokenLog.NothingMentioned | src/agent_benchmark/metrics.py:147-162 | a log without a match gives the empty map. This covers the empty log |
| TokenLog.CountAtNumber | src/agent_benchmark/metrics.py:152-154 | a printed count after `: ` is read back whole |
| TokenLog.AfterJoinTail | src/agent_benchmark/metrics.py:152-154 | after `tokens?` in any case, the rest is read for the count |
| TokenLog.AfterJoinNumber | src/agent_benchmark/metrics.py:152-154 | a count printed after `token(s): ` in any case is read back whole |
| TokenLog.TokenAtLine | src/agent_benchmark/metrics.py:152-158 | a line `<word>[_ ]tokens: <n>` in any mixture of case is matched and yields `n` |
| TokenLog.LeadingLineCounts | src/agent_benchmark/metrics.py:152-162 | a log that starts with a count line reports that count under the pattern's key |
| BenchMetrics.StrArr | src/agent_benchmark/metrics.py:60 | `files_referenced` is written as a JSON list holding the names in order |
| BenchMetrics.IntObj | src/agent_benchmark/metrics.py:62 | `token_usage` is written as a JSON object with the same keys and counts |
| BenchMetrics.ToDict | src/agent_benchmark/metrics.py:43-64 | `to_dict` emits exactly the nine keys. `git_diff` holds exactly its three counts and `plan` exactly its four fields, each the record's own value; the other values are copied verbatim, with `None` written as `null` |
| BenchMetrics.CollectGitMetrics | src/agent_benchmark/metrics.py:67-93 | `has_commits` holds exactly when git runs and `rev-parse HEAD` succeeds. The diff statistics are parsed only then and only when `diff --stat` succeeded, else they are all zero |
| BenchMetrics.LoadContainerMetrics | src/agent_benchmark/metrics.py:165-173 | a parsed metrics file is returned as parsed; a missing or unreadable one gives `{}`. The act runner's loader is the same function |
| BenchMetrics.CollectRunMetrics | src/agent_benchmark/metrics.py:176-203 | run id, agent id, exit code and error are passed through. The duration is the container's `duration_seconds`, or 0 when absent. The git and token parts come from their collectors, and the plan part from the collector as written with its four patterns. A metrics document that is not a dict raises `AttributeError` at `.get` |
| Analysis.AsStrList | src/agent_benchmark/analysis.py:111 | a list read back holds exactly the strings of the JSON list |
| Analysis.AsIntMap | src/agent_benchmark/analysis.py:113 | a dict of counts read back has exactly the JSON object's keys and values |
| Analysis.LoadRunMetrics | src/agent_benchmark/analysis.py:86-117 | a missing or unparsable file, or one that is not a dict, gives None. A loaded record has every required key, and its identity, exit code and duration are the file's |
| Analysis.LoadFields | src/agent_benchmark/analysis.py:96-115 | the fields of a loaded record are the document's |
| Analysis.StrListRoundTrip | src/agent_benchmark/analysis.py:111 | reading back a written list of names gives the same list |
| Analysis.IntMapRoundTrip | src/agent_benchmark/analysis.py:113 | reading back written token counts gives the same counts |
| Analysis.LoadGitDiffDict | src/agent_benchmark/analysis.py:102-106 | reading back the written `git_diff` dict gives the same statistics |
| Analysis.LoadPlanDict | src/agent_benchmark/analysis.py:107-112 | reading back the written `plan` dict gives the same plan metrics |
| Analysis.LoadFieldsOf | src/agent_benchmark/analysis.py:96-115 | a document holding the fields `to_dict` writes for a record loads as that record |
| Analysis.LoadToDict | src/agent_benchmark/analysis.py:96-115 | `load_run_metrics` of the document `to_dict` writes gives back the same record |
| Analysis.MissingKeyLoadsNothing | src/agent_benchmark/analysis.py:96-117 | a document missing any required key gives None rather than an exception |
| Analysis.OptionalKeysDefault | src/agent_benchmark/analysis.py:113-114 | without `token_usage` and `error` the record loads with `{}` and None |
| Analysis.Successful | src/agent_benchmark/analysis.py:153 | the successful runs are exactly those with exit code 0 |
| Analysis.Failed | src/agent_benchmark/analysis.py:154 | the failed runs are exactly those with a non-zero exit code |
| Analysis.SuccessfulFailedSplit | src/agent_benchmark/analysis.py:153-154 | every run is either successful or failed, so the two counts add up to the number of runs |
| Analysis.Durations | src/agent_benchmark/analysis.py:156 | one duration sample per successful run |
| Analysis.Summarise | src/agent_benchmark/analysis.py:152-173 | a summary counts all of the agent's runs, with `successful_runs + failed_runs == total_runs`. The averages are (sum, count) pairs over the successful runs only. `total_tokens` sums `total_tokens` over all runs, failed ones included, with a missing value counting 0 |
| Analysis.RunsOf | src/agent_benchmark/analysis.py:146-150 | an agent's runs are exactly the loaded runs carrying its id |
| Analysis.LoadAll | src/agent_benchmark/analysis.py:139-144 | at most one record per directory entry. Plain files, `.benchmark` and unloadable runs are skipped |
| Analysis.AgentsOfRuns | src/agent_benchmark/analysis.py:146-150 | the agents listed once each are exactly the agents of the loaded runs |
| Analysis.Summaries | src/agent_benchmark/analysis.py:152-173 | there is one summary per listed agent, summarising that agent's runs |
| Analysis.AnalyzeResults | src/agent_benchmark/analysis.py:120-175 | the name is the configured one when the saved configuration loads, else the directory's. Every summary key is some loaded run's agent and every such agent has a summary, listed once |
| Analysis.PerAgentSnoc | src/agent_benchmark/analysis.py:146-150 | adding one run to the loaded runs adds its weight to exactly its own agent's total |
| Analysis.TotalSnoc | src/agent_benchmark/analysis.py:159-162 | a sum over runs grows by the weight of the run added |
| Analysis.PerAgentTotal | src/agent_benchmark/analysis.py:146-173 | summing a weight per agent, over a list naming every agent once, sums it over all runs |
| Analysis.PerAgentEmpty | src/agent_benchmark/analysis.py:146-150 | no runs give every agent a total of 0 |
| Analysis.TotalOfOnes | src/agent_benchmark/analysis.py:166 | counting one per run gives the number of runs |
| Analysis.SummariesCoverAllRuns | src/agent_benchmark/analysis.py:146-173 | the agents' `total_runs` add up to the number of loaded runs, and their `total_tokens` to the tokens of all loaded runs |
| ActMetrics.TotalsMap | src/act/metrics.py:54-61 | the returned dict has exactly the six category keys, each holding its sum |
| ActMetrics.Addend | src/act/metrics.py:67-73 | only integers (and booleans, which are integers in Python) can be added to a sum. Anything else raises |
| ActMetrics.OrEmpty | src/act/metrics.py:64-71 | `x or {}` reads a falsy value as an empty dict and a dict as itself. A truthy non-dict raises at `.get` |
| ActMetrics.TokensOf | src/act/metrics.py:64 | a message that is not a dict raises at `.get` |
| ActMetrics.SumWith | src/act/metrics.py:63-73 | a loop that finishes had every step succeed |
| ActMetrics.SumMessages | src/act/metrics.py:63-73 | a loop over the messages that finishes saw only dicts |
| ActMetrics.Iterate | src/act/metrics.py:63 | a list is iterated item by item. Only a list or an empty value can be iterated without raising |
| ActMetrics.MessagesOf | src/act/metrics.py:50 | a document that is not a dict is the message list itself. A dict without `messages` gives an empty list |
| ActMetrics.ExtractSession | src/act/metrics.py:42-75 | a missing, unreadable or malformed file gives `{}`. A successful extraction has exactly the six category keys |
| ActMetrics.NamedCategory | src/act/metrics.py:54-61 | each category's key holds that category's sum |
| ActMetrics.SumWithAllOk | src/act/metrics.py:63-73 | a loop whose every step succeeds adds up the steps' contributions |
| ActMetrics.CategoryPlus | src/act/metrics.py:67-73 | categories add independently |
| ActMetrics.CategoryOfSum | src/act/metrics.py:63-73 | one category of a sum of per-message totals is the sum of that category per message |
| ActMetrics.AtConcat | src/act/metrics.py:64-72 | reading a nested path is reading its first part and then the rest |
| ActMetrics.CategoryOfByPath | src/act/metrics.py:64-73 | each category of a message is the count at its path: `info.tokens.total`, `input`, `output` and `reasoning`, and `info.tokens.cache.read` and `cache.write` |
| ActMetrics.CountRead | src/act/metrics.py:67-70 | `get(k, 0)` on a present count adds it, and on a missing one adds 0 |
| ActMetrics.BreakdownByPath | src/act/metrics.py:67-73 | a well-formed breakdown adds exactly its six counts, with missing ones counting 0 and a missing or empty `cache` counting 0 for both cache categories |
| ActMetrics.TokensAtPath | src/act/metrics.py:64-66 | a message has a breakdown exactly when `info` is a non-empty dict and `tokens` a non-empty dict inside it |
| ActMetrics.MessageByPath | src/act/metrics.py:63-73 | a well-formed message adds exactly the counts at its paths |
| ActMetrics.SumMessagesByPath | src/act/metrics.py:63-73 | over well-formed messages the loop yields the sum of the per-message counts |
| ActMetrics.SessionTotals | src/act/metrics.py:42-75 | a session of well-formed messages gives the six per-category sums |
| ActMetrics.SessionCategorySums | tests/test_metrics.py:29-68 | each of the six categories is the sum over the messages of that field, with `cache_read` and `cache_write` from `cache.read` and `cache.write` |
| ActMetrics.SkippedMessage | src/act/metrics.py:64-66 | a message without `info`, or with missing or empty `tokens`, contributes nothing |
| ActMetrics.EmptySessionIsZero | src/act/metrics.py:50-61 | no messages, or no `messages` key, give six zeros, which differs from the `{}` of an unreadable file |
| ActMetrics.ListSession | src/act/metrics.py:50 | a top-level list is used as the message list itself |
| ActMetrics.FullMessageCounts | tests/test_metrics.py:29-50 | a fully populated message is well formed and reads as its six counts |
| ActMetrics.SumOfTwo | src/act/metrics.py:63-73 | two messages sum in order |
| ActMetrics.TwoWellFormed | src/act/metrics.py:63-75 | a session of two well-formed messages gives their sum |
| ActMetrics.TwoMessages | tests/test_metrics.py:29-68 | a two-message export sums each category across both messages |
| ActMetrics.WrongShapeRaises | src/act/metrics.py:48-73 | valid JSON whose messages are not dicts, or whose `messages` is a number, raises instead of giving `{}` |
| ActMetrics.ExtractSessionGuarded | src/act/metrics.py:42-75 | every failure degrades to `{}`. Otherwise the result is the extraction's, with exactly the six keys |
| ActMetrics.WrongShapeDegrades | src/act/metrics.py:48-52 | with the guard, a session of the wrong shape gives `{}` |
| ActMetrics.ToDict | src/act/metrics.py:19-28 | `to_dict` emits exactly the six keys, with every value copied verbatim |
| ActMetrics.ToDictInjective | src/act/metrics.py:19-28 | two records with the same dict are the same record, so nothing is lost |
| ActMetrics.CollectRunMetrics | src/act/metrics.py:78-98 | run id, agent id, exit code and error are passed through. The duration is the container's `duration_seconds`, or 0 when absent, and the tokens are the session's. A non-dict metrics document or a wrong-shape session raises |
| ActMetrics.ListMetricsFileRaises | src/act/metrics.py:86-87 | a metrics file holding a JSON list makes the collection raise |
| ActMetrics.CollectRunMetricsGuarded | src/act/metrics.py:78-98 | with the guard, collection never raises, passes the identity through, agrees with the unguarded collection whenever that succeeds, and reads the wrong shapes as empty |
| Experiment.RunSingle | src/act/runner.py:190-210 | the container backend afterwards is the one the container run leaves; the run returns its result exactly when the container run returns one, and otherwise re-raises the container run's exception. The agent-benchmark runner's `_run_single` has the same shape |
| Experiment.RunSingleShowsOutcome | src/act/runner.py:192-209 | a registered run ends finished on the display: COMPLETED exactly when the container returned with exit code 0, FAILED otherwise; its error is the result's error or the exception's text, its duration is the measured one, and no other run's entry changes |
| Experiment.RaisingActivityFailsRun | src/agent_benchmark/runner.py:172-187 | when the activity callback raises on the first activity line of the output, the run returns the exit-code-1 result carrying the exception's text and is shown as FAILED |
| Experiment.MissingActivityFailsRun | src/agent_benchmark/runner.py:172-173 | as written, the callback calls a display method that does not exist, so any output holding one activity line yields the exit-code-1 attribute-error result, whatever the container did |
| Experiment.QuietActivityTransparent | src/agent_benchmark/container.py:153-195 | for a container that exits within the timeout and whose output decodes chunk by chunk, a callback that accepts every activity line leaves the run exactly as it is with no callback at all. For every container the registry agrees and the run returns in both or in neither |
| Experiment.OverrunShownCompleted | src/agent_benchmark/runner.py:172-176 | with the runner's callback accepting every activity, a container that outlives its timeout and exits with 0 is shown as COMPLETED, where without a callback it is the timeout's FAILED result |
| Experiment.ShowRuns | src/act/runner.py:45-51 | the display is started live with the experiment name and the number of configs as the total, holds exactly one entry per config's run id, and each of them is PENDING |
| Experiment.ActCollectRaises | src/act/runner.py:231-238 | as written, collecting the first result already raises the unexpected-keyword type error, and no metrics document is written |
| Experiment.ActCollectWritesAll | src/act/metrics.py:78-98 | with the call matching the collector's parameters, collection never raises and one metrics document is written per result's run id |
| Experiment.Sweep | src/act/runner.py:63-65 | after removing the workspaces and then the temporary directory, each with errors ignored, every path outside both stays, and a path inside either stays only if the removal could not delete it |
| Experiment.SweepComplete | src/act/runner.py:63-65 | when no removal fails and the temporary directory exists, exactly the paths outside it and outside every existing workspace remain |
| Experiment.ActFinally | src/act/runner.py:53-65 | if collection raises, the display, containers, workspaces and disk are left exactly as they were and that exception ends the run; otherwise the fan-in's ending stands, the display is stopped, no container and no workspace is registered, and the disk is swept of the workspaces and the temporary directory except what `rmtree` could not delete |
| Experiment.BenchFinally | src/agent_benchmark/runner.py:56-64 | the written documents are collection's; the backend, workspaces and disk are never touched; the display is stopped with its runs unchanged unless collection raised, in which case that exception ends the run |
| Experiment.BenchCleanup | src/agent_benchmark/runner.py:226-232 | no container and no workspace stays registered, the disk is swept of the workspaces and the temporary directory except what `rmtree` could not delete, and the display and image state are untouched |
| Experiment.ActCleanup | src/act/runner.py:247-249 | only the container registry is emptied; nothing else changes |
| Collecting.Collect | src/act/runner.py:212-239 | results are handled in order: every handled result's metrics were collected, collection ends with no exception exactly when all results were handled, and the exception it ends with is the first unhandled result's. The agent-benchmark runner's `_collect_results` is the same loop |
| Collecting.CollectRaisesAtFirst | src/act/runner.py:219-239 | collection raises exactly when some result's metrics raise, and then it stops at the first such result with all earlier ones collected |
| Collecting.CollectKeys | src/agent_benchmark/runner.py:196-216 | a metrics document is written for exactly the run ids of the handled results |
| Collecting.CollectFirstRaises | src/act/runner.py:219-239 | when the first result's metrics raise, nothing is written and that exception is raised |
| Collecting.CollectWrittenValue | src/agent_benchmark/runner.py:196-216 | the document under a handled result's run id is that result's metrics, unless a later handled result with the same run id overwrites it |
| Collecting.CollectAllOk | src/agent_benchmark/runner.py:196-216 | when no result's metrics raise, collection raises nothing and writes a document for exactly the results' run ids |
| Collecting.CollectAllValue | src/agent_benchmark/runner.py:196-216 | with pairwise different run ids and no raising collection, each result's document is that result's metrics |
| Collecting.CollectTotal | src/act/runner.py:219-239 | with pairwise different run ids, a collection that never raises writes exactly the collected value of each result under its run id |
| Collecting.CollectTotalKeys | src/act/runner.py:219-239 | a collection that never raises handles every result and writes one document per run id |

## Left out

- Docker SDK calls are not modelled. Image lookup and build, container start, log streaming, `wait` and `remove` are given as their possible answers.
- Threads and futures are not modelled. `ThreadPoolExecutor`, `as_completed` and the delivery of `KeyboardInterrupt` become a completion order, an optional interrupt point and a set of done runs. In sequential mode an interrupt is the index of the run it arrives during.
- `max_workers` and `executor.shutdown` are left out. They limit concurrency and cancel pending work, but they do not change which results are recorded.
- File-system I/O is not modelled:
  - `mkdir`, `mkdtemp`, `copytree`;
  - removing the copied `repo/.git`;
  - `save_metrics`;
  - `_save_config` with its TOML output.
- File paths are strings. The disk is reduced to which paths exist, with a path below a directory when it starts with the directory and `/`, and files to their parsed contents.
- JSON and TOML parsing is not modelled. A parsed document is a `Json.Value`, or nothing when the file is missing or malformed.
- Console output is not modelled: `print`, Rich's live panel (`_make_panel`, `_refresh`) and the text of `print_summary`. The display's state and the summary lists are modelled.
- Both command-line interfaces are not modelled. Neither are `run_analysis`, `run_ai_analysis` and the analysis system prompt: they only call Docker or an external model.
- Floating point is not modelled. Durations are integers or JSON values copied through. The wall clock is the `duration` parameter of `Experiment.RunSingle`.
- The `if not lines` branch of `parse_diff_stat` is not modelled separately. `split("\n")` never returns an empty list, so that branch cannot be taken.
- Util.DigitRun: `\d` is read as the ASCII digits only, while Python's `\d` also matches other Unicode decimal digits.
- TokenLog.ExtractTokenUsage: case-insensitive matching folds ASCII letters only, not the full Unicode case folding of `re.IGNORECASE`.
- Analysis.LoadRunMetrics: returns nothing for a document with a field of a JSON type other than the one `to_dict` writes, where Python loads it. `RunMetrics(...)` does not check types, so Python loads, for instance, `"exit_code": "0"` (a failed run in the summary), a `run_id`, `agent_id` or `has_commits` of any type, `git_diff` counts that are not integers, negative or non-integer `total_lines`, `sections` or `tasks`, `files_referenced` of any type, a `token_usage` that is not a dict of integers, and an `error` that is neither null nor a string. Missing files, malformed JSON, a document that is not an object and a missing required key give nothing in both.
- Analysis.AnalyzeResults: returns a summary for every agent where Python raises. A document that `load_run_metrics` loads but the model drops stays in Python's list, and `analyze_results` then fails on it. A successful run whose `duration_seconds`, `total_lines` or `sections` is not a number makes `sum` raise `TypeError` (src/agent_benchmark/analysis.py:156-158). Any run whose `token_usage` is not a dict makes `.get` raise `AttributeError`, and one whose `total_tokens` is not a number makes `sum` raise `TypeError` (analysis.py:159-162). The model leaves such a run out and summarises the rest.
- Container.Run: every started container is assumed to exit at some point. With a callback, `container.logs(stream=True, follow=True)` (src/agent_benchmark/container.py:155) blocks until the container exits. So a container that never exits makes `run` block forever, and with it the whole experiment, since both runners pass a callback. The model has no outcome for that case.
- Workspace.Create: a workspace path is the string `base + "/" + run_id`, not the `pathlib` join `base_dir / run_id` (src/agent_benchmark/container.py:320). Agent ids are plain strings that are only required to be distinct (src/agent_benchmark/config.py:49, 71-78), and `pathlib` treats some of them differently. An absolute id such as `/tmp/x` replaces the base directory, so its workspace is `/tmp/x-1`. `pathlib` drops `.` components and repeated slashes, so `./a` and `a` share the workspace `base/a-1` where the model gives two different strings.
- Expansion.Entry: the workspace path it records is that same concatenation, with the same difference for unusual agent ids.
- Expansion.ExpandPaths: states the workspace path as that concatenation, with the same difference for unusual agent ids.
- Analysis.Summarise: each average is a (sum, count) pair rather than the float `mean`, and an empty sample gives (0, 0) where the source writes 0.
- Container.Delivered: a raising callback is followed only up to its first call, because that exception ends the streaming loop.
- Collecting.CollectTotal: states the contents of each written document through the collector it is given. `ActMetrics.CollectRunMetricsGuarded` and `BenchMetrics.CollectRunMetrics` state what that collector computes.

## Findings

| source | as written | input that shows it | evidently intended | confidence | as-written member | corrected member |
|---|---|---|---|---|---|---|
| src/agent_benchmark/runner.py:143-144 | after an interrupt, the drain of the agent-benchmark runner swallows the exception of a done future, so a run that failed is never recorded | one run that has raised and is done, but not yet taken, when the interrupt arrives | a failed done run is recorded as its exit-code-1 failure result, as the other runner's drain does | high, not executed | FanIn.DropDrainLosesFailure | FanIn.InterruptedExact |
| src/act/runner.py:231-238 | `_collect_results` passes `logs=` to the act runner's `collect_run_metrics`, which has no such parameter. The first call raises `TypeError` inside `finally`, and the display stop, summary and cleanup are skipped | any experiment with at least one result | call the collector with the parameters it has; every result gets its metrics file and teardown runs | high, not executed | Experiment.ActCollectRaises | Experiment.ActCollectWritesAll |
| src/agent_benchmark/metrics.py:121-126 | `PLAN.md` is matched by both `*.md` and `PLAN.md`, so its lines, headings and tasks are counted twice (its references are deduplicated by `list(set(...))`) | a repository holding only `PLAN.md` with the text `# x` | each plan file counted once: one line, one heading | medium, not executed | Plan.PlanMdCountedTwice | Plan.PlanFilesOnce |
| src/agent_benchmark/runner.py:172-173 | the activity callback calls `update_activity`, which the progress display does not define. Every activity line raises `AttributeError` inside the container run, and that run becomes an exit-code-1 failure | container output with one chunk `✱ Glob` | activity lines are shown (or ignored) without failing the run | high, not executed | Experiment.MissingActivityFailsRun | Experiment.QuietActivityTransparent |
| src/agent_benchmark/container.py:155-162 | with an activity callback the log stream is followed until the container exits, and only then is `wait(timeout=...)` called, so the timeout never fires. Both runners always pass a callback, so the configured timeout is never enforced | a container that runs longer than `timeout_seconds` and then exits with 0 | a container that outlives its timeout fails with the timeout, with or without a callback | high, not executed | Container.CallbackSkipsTimeout | Container.DeadlineTransparent |
| src/act/metrics.py:56-72 | the loop over the messages sits outside the `try`, so a session export of valid JSON but the wrong shape raises instead of giving `{}` | the session file `[1]` | every failure to read token usage gives `{}` | medium, not executed | ActMetrics.WrongShapeRaises | ActMetrics.WrongShapeDegrades |
| src/act/metrics.py:86-87 | `container_metrics.get` is called on whatever the metrics file parsed to, so a file holding a JSON list raises `AttributeError` | the metrics file `[]` | a metrics file of the wrong shape reads as empty | medium, not executed | ActMetrics.ListMetricsFileRaises | ActMetrics.CollectRunMetricsGuarded |

=== FILE: activity.dfy ===
/** The activity-line filter of the execution backend: a captured output line
    is stripped of ANSI CSI escape sequences and surrounding whitespace, and is
    forwarded to the progress display only when it starts with one of the
    agent's tool-call glyphs. */
module Activity {
  import opened Util

  const Esc: char := '\U{1B}'

  /** The tool-call prefixes: arrow right, arrow left, heavy asterisk, dollar,
      gear and bullet, each followed by a space. */
  const ToolPrefixes: seq<string> := [
    "\U{2192} ", "\U{2190} ", "\U{2731} ", "$ ", "\U{2699} ", "\U{2022} "
  ]

  /** `any(s.startswith(p) for p in prefixes)`. Every prefix is two
      characters long, so this is a look at the first two characters. */
  predicate HasToolPrefix(s: string) {
    |s| >= 2 && s[..2] in ToolPrefixes
  }

  predicate NoEsc(s: string) {
    forall i :: 0 <= i < |s| ==> s[i] != Esc
  }

  /** A parameter character of a CSI sequence: a digit or a semicolon. */
  predicate IsParamChar(c: char) {
    IsDigit(c) || c == ';'
  }

  /** A complete CSI sequence `ESC [ [0-9;]* letter`. */
  predicate IsCsi(t: string) {
    && |t| >= 3
    && t[0] == Esc && t[1] == '['
    && (forall i :: 2 <= i < |t| - 1 ==> IsParamChar(t[i]))
    && IsAsciiLetter(t[|t| - 1])
  }

  /** The length of the run of parameter characters at the start of `s`. */
  function ParamRun(s: string): (k: nat)
    ensures k <= |s|
    ensures forall i :: 0 <= i < k ==> IsParamChar(s[i])
    ensures k == |s| || !IsParamChar(s[k])
    decreases |s|
  {
    if |s| > 0 && IsParamChar(s[0]) then 1 + ParamRun(s[1..]) else 0
  }

  /** The length of the CSI sequence the escape pattern matches at the start
      of `s`, or 0 when it matches nothing there. The parameter run is taken
      whole: a shorter one would leave a parameter character where the final
      letter must stand. */
  function CsiLength(s: string): (k: nat)
    ensures k == 0 || (k <= |s| && IsCsi(s[..k]))
  {
    if |s| >= 2 && s[0] == Esc && s[1] == '[' then
      var p := ParamRun(s[2..]);
      if 2 + p < |s| && IsAsciiLetter(s[2 + p]) then 3 + p else 0
    else 0
  }

  /** The parameter run ends exactly at the first non-parameter character. */
  lemma {:induction false} ParamRunExact(x: string, m: nat)
    requires m < |x| && !IsParamChar(x[m])
    requires forall i :: 0 <= i < m ==> IsParamChar(x[i])
    ensures ParamRun(x) == m
    decreases m
  {
    if m > 0 {
      ParamRunExact(x[1..], m - 1);
    }
  }

  /** A complete CSI sequence at the start of a string is matched whole. */
  lemma CsiLengthOfCsi(t: string, rest: string)
    requires IsCsi(t)
    ensures CsiLength(t + rest) == |t|
  {
    var s := t + rest;
    ParamRunExact(s[2..], |t| - 3);
  }

  /** `_ANSI_ESCAPE_RE.sub("", s)`: one left-to-right pass that deletes every
      non-overlapping CSI sequence; everything else is kept in order. */
  function StripAnsi(s: string): (r: string)
    ensures |r| <= |s|
    decreases |s|
  {
    if |s| == 0 then []
    else
      var k := CsiLength(s);
      if k > 0 then StripAnsi(s[k..]) else [s[0]] + StripAnsi(s[1..])
  }

  /** A leading CSI sequence disappears. */
  lemma StripAnsiCsi(t: string, rest: string)
    requires IsCsi(t)
    ensures StripAnsi(t + rest) == StripAnsi(rest)
  {
    CsiLengthOfCsi(t, rest);
    assert (t + rest)[|t|..] == rest;
  }

  /** Text without escape characters passes through unchanged. */
  lemma {:induction false} StripAnsiPlain(plain: string, rest: string)
    requires NoEsc(plain)
    ensures StripAnsi(plain + rest) == plain + StripAnsi(rest)
    decreases |plain|
  {
    if |plain| > 0 {
      var t := plain[1..];
      assert NoEsc(t);
      calc {
        StripAnsi(plain + rest);
        { assert plain + rest == [plain[0]] + (t + rest);
          StripAnsiKeeps(plain[0], t + rest); }
        [plain[0]] + StripAnsi(t + rest);
        { StripAnsiPlain(t, rest); }
        [plain[0]] + (t + StripAnsi(rest));
        { assert plain == [plain[0]] + t; }
        plain + StripAnsi(rest);
      }
    } else {
      assert plain + rest == rest;
    }
  }

  /** A character other than the escape character is kept. */
  lemma StripAnsiKeeps(c: char, rest: string)
    requires c != Esc
    ensures StripAnsi([c] + rest) == [c] + StripAnsi(rest)
  {
    var s := [c] + rest;
    assert CsiLength(s) == 0;
    assert s[1..] == rest;
  }

  /** A line cut into pieces, each one CSI sequence or a run of text
      without escape characters. */
  predicate IsPiece(p: string) {
    IsCsi(p) || NoEsc(p)
  }

  /** The text pieces of a cut line, in order. */
  function TextOf(ps: seq<string>): string
    decreases |ps|
  {
    if |ps| == 0 then ""
    else if IsCsi(ps[0]) then TextOf(ps[1..])
    else ps[0] + TextOf(ps[1..])
  }

  /** Escape stripping keeps exactly the text pieces of a line. */
  lemma {:induction false} StripAnsiPieces(ps: seq<string>)
    requires ValidCut(ps)
    ensures StripAnsi(Concat(ps)) == TextOf(ps)
    decreases |ps|
  {
    if |ps| > 0 {
      StripAnsiPieces(ps[1..]);
      if IsCsi(ps[0]) {
        StripAnsiCsi(ps[0], Concat(ps[1..]));
      } else {
        StripAnsiPlain(ps[0], Concat(ps[1..]));
      }
    }
  }

  /** What the filter lets through: a stripped line with a tool prefix. */
  predicate IsActivity(s: string) {
    HasToolPrefix(s) && Stripped(s)
  }

  /** `parse_activity_line`: the cleaned line when it is a tool-call line,
      nothing otherwise. */
  function ParseActivityLine(raw: string): (r: Option<string>)
    ensures r.Some? ==> HasToolPrefix(r.value) && Stripped(r.value)
    ensures r.Some? ==> 2 <= |r.value| <= |raw|
  {
    var cleaned := Strip(StripAnsi(raw));
    if HasToolPrefix(cleaned) then
      Some(cleaned)
    else None
  }

  /** A line whose text, once the escapes are gone, is a stripped tool-call
      line padded with whitespace is forwarded as that text. */
  lemma ToolLineForwarded(ps: seq<string>, lead: string, text: string, trail: string)
    requires ValidCut(ps)
    requires TextOf(ps) == lead + text + trail
    requires AllSpace(lead) && AllSpace(trail)
    requires HasToolPrefix(text) && Stripped(text)
    ensures ParseActivityLine(Concat(ps)) == Some(text)
  {
    StripAnsiPieces(ps);
    StripPadded(lead, text, trail);
  }

  /** A line whose text, once the escapes are gone and the whitespace is
      stripped, lacks every tool prefix is dropped. */
  lemma OtherLineDropped(ps: seq<string>, lead: string, text: string, trail: string)
    requires ValidCut(ps)
    requires TextOf(ps) == lead + text + trail
    requires AllSpace(lead) && AllSpace(trail)
    requires Stripped(text) && !HasToolPrefix(text)
    ensures ParseActivityLine(Concat(ps)) == None
  {
    StripAnsiPieces(ps);
    var cleaned := Strip(StripAnsi(Concat(ps)));
    if |text| > 0 {
      StripPadded(lead, text, trail);
    } else {
      AllSpaceStrips(lead + text + trail);
    }
    assert cleaned == text;
  }

  lemma AllSpaceStrips(s: string)
    requires AllSpace(s)
    ensures Strip(s) == ""
  {
    LStripSuffix(s);
  }

  /** The empty line is not an activity. */
  lemma EmptyLineIsNoActivity()
    ensures ParseActivityLine("") == None
  {
    OtherLineDropped([], "", "", "");
  }

  /** A line consisting only of escape sequences is not an activity. */
  lemma OnlyEscapesIsNoActivity(ts: seq<string>)
    requires forall i :: 0 <= i < |ts| ==> IsCsi(ts[i])
    ensures ParseActivityLine(Concat(ts)) == None
  {
    OnlyCsiHasNoText(ts);
    OtherLineDropped(ts, "", "", "");
  }

  lemma {:induction false} OnlyCsiHasNoText(ts: seq<string>)
    requires forall i :: 0 <= i < |ts| ==> IsCsi(ts[i])
    ensures TextOf(ts) == ""
    decreases |ts|
  {
    if |ts| > 0 {
      OnlyCsiHasNoText(ts[1..]);
    }
  }

  /** A cut of a line into pieces. */
  predicate ValidCut(ps: seq<string>) {
    forall i :: 0 <= i < |ps| ==> IsPiece(ps[i])
  }

  /** Escape stripping of a line of two coloured runs of text: the colour
      codes go, the text stays in order. */
  lemma StripColouredPair(c1: string, t1: string, c2: string, t2: string)
    requires IsCsi(c1) && NoEsc(t1) && IsCsi(c2) && NoEsc(t2)
    ensures StripAnsi(c1 + t1 + c2 + t2) == t1 + t2
  {
    StripAnsiPlain(t2, "");
    AppendEmpty(t2);
    StripAnsiCsi(c2, t2);
    StripAnsiPlain(t1, c2 + t2);
    StripAnsiCsi(c1, t1 + (c2 + t2));
    Assoc4(c1, t1, c2, t2);
  }

  /** Escape stripping of a line of three coloured runs of text closed by a
      reset code. */
  lemma StripColouredTriple(c1: string, t1: string, c2: string, t2: string, c3: string, t3: string, c4: string)
    requires IsCsi(c1) && NoEsc(t1) && IsCsi(c2) && NoEsc(t2) && IsCsi(c3) && NoEsc(t3) && IsCsi(c4)
    ensures StripAnsi(c1 + t1 + c2 + t2 + c3 + t3 + c4) == t1 + t2 + t3
  {
    StripAnsiCsi(c4, "");
    AppendEmpty(c4);
    StripAnsiPlain(t3, c4);
    StripAnsiCsi(c3, t3 + c4);
    Assoc3(c3, t3, c4);
    StripColouredPair(c1, t1, c2, t2);
    var r := c3 + t3 + c4;
    StripAnsiPlain(t2, r);
    StripAnsiCsi(c2, t2 + r);
    StripAnsiPlain(t1, c2 + (t2 + r));
    StripAnsiCsi(c1, t1 + (c2 + (t2 + r)));
    Assoc7(c1, t1, c2, t2, c3, t3, c4);
    Assoc3(t1, t2, t3);
  }

  /** Escape stripping of a coloured pair padded with text on both sides. */
  lemma StripPaddedPair(t0: string, c1: string, t1: string, c2: string, t2: string, t3: string)
    requires NoEsc(t0) && IsCsi(c1) && NoEsc(t1) && IsCsi(c2) && NoEsc(t2) && NoEsc(t3)
    ensures StripAnsi(t0 + c1 + t1 + c2 + t2 + t3) == t0 + (t1 + t2) + t3
  {
    assert NoEsc(t2 + t3);
    StripColouredPair(c1, t1, c2, t2 + t3);
    StripAnsiPlain(t0, c1 + t1 + c2 + (t2 + t3));
    Assoc6(t0, c1, t1, c2, t2, t3);
    Assoc3(t0, t1 + t2, t3);
    Assoc3(t1, t2, t3);
  }

  lemma AppendEmpty(a: string)
    ensures a + "" == a
  {
  }

  lemma Assoc3(a: string, b: string, c: string)
    ensures a + b + c == a + (b + c)
  {
  }

  lemma Assoc4(a: string, b: string, c: string, d: string)
    ensures a + b + c + d == a + (b + (c + d))
  {
  }

  lemma Assoc6(a: string, b: string, c: string, d: string, e: string, f: string)
    ensures a + b + c + d + e + f == a + (b + c + d + (e + f))
  {
  }

  lemma Assoc7(a: string, b: string, c: string, d: string, e: string, f: string, g: string)
    ensures a + b + c + d + e + f + g == a + (b + (c + (d + (e + f + g))))
  {
  }

  /** A text opening with the two characters of a tool prefix has it. */
  lemma GlyphPrefix(s: string, k: nat)
    requires k < |ToolPrefixes| && |s| >= 2
    requires s[0] == ToolPrefixes[k][0] && s[1] == ToolPrefixes[k][1]
    ensures HasToolPrefix(s)
  {
    assert |ToolPrefixes[k]| == 2;
    assert s[..2] == ToolPrefixes[k];
  }

  /** A line whose escape-free text is a stripped tool-call line padded with
      whitespace is forwarded as that text. */
  lemma TextForwarded(raw: string, lead: string, text: string, trail: string)
    requires StripAnsi(raw) == lead + text + trail
    requires AllSpace(lead) && AllSpace(trail)
    requires HasToolPrefix(text) && Stripped(text)
    ensures ParseActivityLine(raw) == Some(text)
  {
    StripPadded(lead, text, trail);
  }

  /** A line whose escape-free text is stripped and lacks every tool prefix
      is dropped. */
  lemma TextDropped(raw: string, text: string)
    requires StripAnsi(raw) == text
    requires Stripped(text) && !HasToolPrefix(text)
    ensures ParseActivityLine(raw) == None
  {
    if |text| > 0 {
      StripPadded("", text, "");
      assert "" + text + "" == text;
    }
  }

  /** Two non-empty runs of text without whitespace at their outer ends make
      a stripped text. */
  lemma StrippedJoin(x: string, y: string)
    requires |x| > 0 && |y| > 0 && !IsSpace(x[0]) && !IsSpace(y[|y| - 1])
    ensures Stripped(x + y)
  {
    assert (x + y)[0] == x[0] && (x + y)[|x + y| - 1] == y[|y| - 1];
  }

  /** A text whose first character opens no tool prefix has none. */
  lemma NotToolPrefix(s: string)
    requires |s| >= 2 && IsAsciiLetter(s[0])
    ensures !HasToolPrefix(s)
  {
    forall k | 0 <= k < |ToolPrefixes|
      ensures ToolPrefixes[k] != s[..2]
    {
      assert !IsAsciiLetter(ToolPrefixes[k][0]);
    }
  }


  /** A line of two coloured runs whose first run opens with a tool prefix
      is forwarded as the two runs joined, without the colour codes. */
  lemma ColouredPairForwarded(c1: string, t1: string, c2: string, t2: string, k: nat)
    requires IsCsi(c1) && NoEsc(t1) && IsCsi(c2) && NoEsc(t2)
    requires k < |ToolPrefixes| && |t1| >= 2 && t1[0] == ToolPrefixes[k][0] && t1[1] == ToolPrefixes[k][1]
    requires !IsSpace(t1[0]) && |t2| > 0 && !IsSpace(t2[|t2| - 1])
    ensures ParseActivityLine(c1 + t1 + c2 + t2) == Some(t1 + t2)
  {
    StripColouredPair(c1, t1, c2, t2);
    StrippedJoin(t1, t2);
    GlyphPrefix(t1 + t2, k);
    TextForwarded(c1 + t1 + c2 + t2, "", t1 + t2, "");
  }

  /** The same for three coloured runs closed by a reset code. */
  lemma ColouredTripleForwarded(c1: string, t1: string, c2: string, t2: string, c3: string, t3: string, c4: string, k: nat)
    requires IsCsi(c1) && NoEsc(t1) && IsCsi(c2) && NoEsc(t2) && IsCsi(c3) && NoEsc(t3) && IsCsi(c4)
    requires k < |ToolPrefixes| && |t1| >= 2 && t1[0] == ToolPrefixes[k][0] && t1[1] == ToolPrefixes[k][1]
    requires !IsSpace(t1[0]) && |t3| > 0 && !IsSpace(t3[|t3| - 1])
    ensures ParseActivityLine(c1 + t1 + c2 + t2 + c3 + t3 + c4) == Some(t1 + t2 + t3)
  {
    StripColouredTriple(c1, t1, c2, t2, c3, t3, c4);
    StrippedJoin(t1 + t2, t3);
    GlyphPrefix(t1 + t2 + t3, k);
    TextForwarded(c1 + t1 + c2 + t2 + c3 + t3 + c4, "", t1 + t2 + t3, "");
  }

  /** A coloured tool line padded with whitespace on both sides is forwarded
      without the padding. */
  lemma PaddedPairForwarded(t0: string, c1: string, t1: string, c2: string, t2: string, t3: string, k: nat)
    requires NoEsc(t0) && IsCsi(c1) && NoEsc(t1) && IsCsi(c2) && NoEsc(t2) && NoEsc(t3)
    requires AllSpace(t0) && AllSpace(t3)
    requires k < |ToolPrefixes| && |t1| >= 2 && t1[0] == ToolPrefixes[k][0] && t1[1] == ToolPrefixes[k][1]
    requires !IsSpace(t1[0]) && |t2| > 0 && !IsSpace(t2[|t2| - 1])
    ensures ParseActivityLine(t0 + c1 + t1 + c2 + t2 + t3) == Some(t1 + t2)
  {
    StripPaddedPair(t0, c1, t1, c2, t2, t3);
    StrippedJoin(t1, t2);
    GlyphPrefix(t1 + t2, k);
    TextForwarded(t0 + c1 + t1 + c2 + t2 + t3, t0, t1 + t2, t3);
  }

  /** A line of two coloured runs whose text opens with a letter is dropped. */
  lemma ColouredPairDropped(c1: string, t1: string, c2: string, t2: string)
    requires IsCsi(c1) && NoEsc(t1) && IsCsi(c2) && NoEsc(t2)
    requires |t1| >= 2 && IsAsciiLetter(t1[0]) && |t2| > 0 && !IsSpace(t2[|t2| - 1])
    ensures ParseActivityLine(c1 + t1 + c2 + t2) == None
  {
    StripColouredPair(c1, t1, c2, t2);
    StrippedJoin(t1, t2);
    NotToolPrefix(t1 + t2);
    TextDropped(c1 + t1 + c2 + t2, t1 + t2);
  }

  // The lines the repository's own tests pin down, each written as the
  // concatenation of its pieces. Each lemma checks the pieces and then
  // applies one of the general lemmas above.

  /** A coloured tool line keeps its text without the colour codes. */
  lemma ColouredToolLine()
    ensures ParseActivityLine("\U{1B}[32m" + "\U{2731} Glob" + "\U{1B}[0m" + " found 3 files")
         == Some("\U{2731} Glob" + " found 3 files")
  {
    var c1, t1, c2, t2 := "\U{1B}[32m", "\U{2731} Glob", "\U{1B}[0m", " found 3 files";
    assert IsCsi(c1) && IsCsi(c2) && NoEsc(t1) && NoEsc(t2);
    assert t1[0] == ToolPrefixes[2][0] && t1[1] == ToolPrefixes[2][1];
    ColouredPairForwarded(c1, t1, c2, t2, 2);
  }

  /** A coloured read line keeps its text without the colour codes. */
  lemma ColouredReadLine()
    ensures ParseActivityLine("\U{1B}[34m" + "\U{2192} Read" + "\U{1B}[0m" + " src/main.py")
         == Some("\U{2192} Read" + " src/main.py")
  {
    var c1, t1, c2, t2 := "\U{1B}[34m", "\U{2192} Read", "\U{1B}[0m", " src/main.py";
    assert IsCsi(c1) && IsCsi(c2) && NoEsc(t1) && NoEsc(t2);
    assert t1[0] == ToolPrefixes[0][0] && t1[1] == ToolPrefixes[0][1];
    ColouredPairForwarded(c1, t1, c2, t2, 0);
  }

  /** A coloured write line keeps its text without the colour codes. */
  lemma ColouredWriteLine()
    ensures ParseActivityLine("\U{1B}[34m" + "\U{2190} Write" + "\U{1B}[0m" + " src/output.py")
         == Some("\U{2190} Write" + " src/output.py")
  {
    var c1, t1, c2, t2 := "\U{1B}[34m", "\U{2190} Write", "\U{1B}[0m", " src/output.py";
    assert IsCsi(c1) && IsCsi(c2) && NoEsc(t1) && NoEsc(t2);
    assert t1[0] == ToolPrefixes[1][0] && t1[1] == ToolPrefixes[1][1];
    ColouredPairForwarded(c1, t1, c2, t2, 1);
  }

  /** Colour codes between the glyph and the text do not hide the glyph. */
  lemma ColourAfterGlyph()
    ensures ParseActivityLine("\U{1B}[0m" + "\U{2022} " + "\U{1B}[0m" + "Create Speckit plan" + "\U{1B}[90m" + " General Agent" + "\U{1B}[0m")
         == Some("\U{2022} " + "Create Speckit plan" + " General Agent")
  {
    var c1, t1, c2, t2, c3, t3, c4 := "\U{1B}[0m", "\U{2022} ", "\U{1B}[0m", "Create Speckit plan", "\U{1B}[90m", " General Agent", "\U{1B}[0m";
    assert IsCsi(c1) && IsCsi(c2) && IsCsi(c3) && IsCsi(c4);
    assert NoEsc(t1) && NoEsc(t2) && NoEsc(t3);
    assert t1[0] == ToolPrefixes[5][0] && t1[1] == ToolPrefixes[5][1];
    ColouredTripleForwarded(c1, t1, c2, t2, c3, t3, c4, 5);
  }

  /** Surrounding whitespace, a trailing newline included, is stripped. */
  lemma WhitespaceStripped()
    ensures ParseActivityLine("  " + "\U{1B}[32m" + "\U{2731} Glob" + "\U{1B}[0m" + " results" + "  \n")
         == Some("\U{2731} Glob" + " results")
  {
    var t0, c1, t1, c2, t2, t3 := "  ", "\U{1B}[32m", "\U{2731} Glob", "\U{1B}[0m", " results", "  \n";
    assert IsCsi(c1) && IsCsi(c2) && NoEsc(t0) && NoEsc(t1) && NoEsc(t2) && NoEsc(t3);
    assert AllSpace(t0) && AllSpace(t3);
    assert t1[0] == ToolPrefixes[2][0] && t1[1] == ToolPrefixes[2][1];
    PaddedPairForwarded(t0, c1, t1, c2, t2, t3, 2);
  }

  /** A coloured log line is not an activity. */
  lemma ColouredLogLineDropped()
    ensures ParseActivityLine("\U{1B}[32m" + "INFO" + "\U{1B}[0m" + ": Container started successfully") == None
  {
    var c1, t1, c2, t2 := "\U{1B}[32m", "INFO", "\U{1B}[0m", ": Container started successfully";
    assert IsCsi(c1) && IsCsi(c2) && NoEsc(t1) && NoEsc(t2);
    ColouredPairDropped(c1, t1, c2, t2);
  }

  /** The activity channel: the forwarded form of every chunk that is a
      tool-call line, in output order; other chunks are dropped from it. */
  function ActivityEvents(chunks: seq<string>): (events: seq<string>)
    ensures |events| <= |chunks|
    decreases |chunks|
  {
    if |chunks| == 0 then []
    else
      var rest := ActivityEvents(chunks[1..]);
      var p := ParseActivityLine(chunks[0]);
      if p.Some? then [p.value] + rest else rest
  }

  lemma {:induction false} ActivityEventsAreActivities(chunks: seq<string>)
    ensures forall e :: e in ActivityEvents(chunks) ==> IsActivity(e)
    decreases |chunks|
  {
    if |chunks| > 0 {
      var rest := ActivityEvents(chunks[1..]);
      ActivityEventsAreActivities(chunks[1..]);
      var p := ParseActivityLine(chunks[0]);
      if p.Some? {
        assert ActivityEvents(chunks) == [p.value] + rest;
      } else {
        assert ActivityEvents(chunks) == rest;
      }
    }
  }

  /** Every chunk that is a tool-call line reaches the channel, and nothing
      else does. */
  lemma {:induction false} ActivityEventsExact(chunks: seq<string>, a: string)
    ensures a in ActivityEvents(chunks) <==> exists i :: 0 <= i < |chunks| && ParseActivityLine(chunks[i]) == Some(a)
    decreases |chunks|
  {
    if |chunks| > 0 {
      ActivityEventsExact(chunks[1..], a);
      if exists i :: 0 <= i < |chunks| && ParseActivityLine(chunks[i]) == Some(a) {
        var i :| 0 <= i < |chunks| && ParseActivityLine(chunks[i]) == Some(a);
        if i > 0 {
          assert chunks[1..][i - 1] == chunks[i];
        }
      }
      if exists j :: 0 <= j < |chunks| - 1 && ParseActivityLine(chunks[1..][j]) == Some(a) {
        var j :| 0 <= j < |chunks| - 1 && ParseActivityLine(chunks[1..][j]) == Some(a);
        assert chunks[j + 1] == chunks[1..][j];
      }
    }
  }
}

=== FILE: actmetrics.dfy ===
/** The metrics record of the `act` runner: the container's own metrics file
    and the token counts summed over an OpenCode session export. */
module ActMetrics {
  import opened Util
  import opened Json
  import BenchMetrics

  // ---------------------------------------------------------------------------
  // Token totals of a session

  /** The six categories, as running sums. */
  datatype Totals = Totals(total: int, input: int, output: int, reasoning: int, cacheRead: int, cacheWrite: int)

  const Zero: Totals := Totals(0, 0, 0, 0, 0, 0)

  function Plus(a: Totals, b: Totals): Totals {
    Totals(a.total + b.total, a.input + b.input, a.output + b.output,
      a.reasoning + b.reasoning, a.cacheRead + b.cacheRead, a.cacheWrite + b.cacheWrite)
  }

  const Categories: set<string> := {"total", "input", "output", "reasoning", "cache_read", "cache_write"}

  /** The returned dict: the six categories and nothing else. */
  function TotalsMap(t: Totals): (m: map<string, int>)
    ensures m.Keys == Categories
    ensures m["total"] == t.total && m["input"] == t.input && m["output"] == t.output
    ensures m["reasoning"] == t.reasoning && m["cache_read"] == t.cacheRead && m["cache_write"] == t.cacheWrite
  {
    map["total" := t.total, "input" := t.input, "output" := t.output,
      "reasoning" := t.reasoning, "cache_read" := t.cacheRead, "cache_write" := t.cacheWrite]
  }

  /** The error of calling `.get` on a value that is not a dict. */
  function NoGet(v: Value): Exc {
    AttributeError("'" + TypeName(v) + "' object has no attribute 'get'")
  }

  /** A value added to an `int` running sum: integers and booleans add,
      anything else raises. */
  function Addend(v: Value): (r: Result<int>)
    ensures r.Ok? <==> v.Int? || v.Bool?
    ensures v.Int? ==> r == Ok(v.i)
  {
    match v
    case Int(i) => Ok(i)
    case Bool(b) => Ok(if b then 1 else 0)
    case _ => Err(TypeError("unsupported operand type(s) for +=: 'int' and '" + TypeName(v) + "'"))
  }

  /** `(x or {})` about to be read with `.get`: a falsy value reads as an
      empty dict, a truthy one must be a dict. */
  function OrEmpty(v: Value): (r: Result<map<string, Value>>)
    ensures !Truthy(v) ==> r == Ok(map[])
    ensures Truthy(v) && v.Obj? ==> r == Ok(v.fields)
    ensures Truthy(v) && !v.Obj? ==> r.Err?
  {
    if !Truthy(v) then Ok(map[]) else if v.Obj? then Ok(v.fields) else Err(NoGet(v))
  }

  /** The token breakdown a message carries: nothing when `info` or `tokens`
      is missing or falsy. */
  function TokensOf(msg: Value): (r: Result<Option<map<string, Value>>>)
    ensures !msg.Obj? ==> r.Err?
  {
    if !msg.Obj? then Err(NoGet(msg))
    else match OrEmpty(Get(msg.fields, "info", Null))
      case Err(e) => Err(e)
      case Ok(info) =>
        var tokens := Get(info, "tokens", Null);
        if !Truthy(tokens) then Ok(None)
        else if !tokens.Obj? then Err(NoGet(tokens))
        else Ok(Some(tokens.fields))
  }

  /** One breakdown's contribution to the six sums, read in the order the
      sums are updated. */
  function Breakdown(tokens: map<string, Value>): Result<Totals> {
    var t := Addend(Get(tokens, "total", Int(0)));
    var i := Addend(Get(tokens, "input", Int(0)));
    var o := Addend(Get(tokens, "output", Int(0)));
    var r := Addend(Get(tokens, "reasoning", Int(0)));
    var cache := OrEmpty(Get(tokens, "cache", Null));
    if t.Err? then Err(t.error)
    else if i.Err? then Err(i.error)
    else if o.Err? then Err(o.error)
    else if r.Err? then Err(r.error)
    else if cache.Err? then Err(cache.error)
    else
      var cr := Addend(Get(cache.value, "read", Int(0)));
      var cw := Addend(Get(cache.value, "write", Int(0)));
      if cr.Err? then Err(cr.error)
      else if cw.Err? then Err(cw.error)
      else Ok(Totals(t.value, i.value, o.value, r.value, cr.value, cw.value))
  }

  function MessageTotals(msg: Value): Result<Totals> {
    match TokensOf(msg)
    case Err(e) => Err(e)
    case Ok(None) => Ok(Zero)
    case Ok(Some(tokens)) => Breakdown(tokens)
  }

  /** A loop adding up a contribution per item, ended by the first item
      whose contribution raises. */
  function SumWith(items: seq<Value>, f: Value -> Result<Totals>): (r: Result<Totals>)
    ensures r.Ok? ==> forall i :: 0 <= i < |items| ==> f(items[i]).Ok?
  {
    if |items| == 0 then Ok(Zero)
    else match SumWith(items[..|items| - 1], f)
      case Err(e) => Err(e)
      case Ok(t) =>
        match f(items[|items| - 1])
        case Err(e) => Err(e)
        case Ok(u) => Ok(Plus(t, u))
  }

  /** The loop over the messages. */
  function SumMessages(msgs: seq<Value>): (r: Result<Totals>)
    ensures r.Ok? ==> forall i :: 0 <= i < |msgs| ==> msgs[i].Obj?
  {
    var r := SumWith(msgs, MessageTotals);
    assert r.Ok? ==> forall i :: 0 <= i < |msgs| ==> MessageTotals(msgs[i]).Ok?;
    r
  }

  /** `for msg in messages`. A list gives its items; an empty dict or string
      gives nothing; the items of a non-empty dict or string are strings,
      and the first one's `.get` raises; any other value is not iterable. */
  function Iterate(v: Value): (r: Result<seq<Value>>)
    ensures v.Arr? ==> r == Ok(v.items)
    ensures r.Ok? ==> v.Arr? || !Truthy(v)
  {
    match v
    case Arr(items) => Ok(items)
    case Obj(fields) => if |fields| == 0 then Ok([]) else Err(NoGet(Str("")))
    case Str(s) => if |s| == 0 then Ok([]) else Err(NoGet(Str("")))
    case _ => Err(TypeError("'" + TypeName(v) + "' object is not iterable"))
  }

  /** The message list of a session: its `messages` (an empty list when
      absent) when it is a dict, else the document itself. */
  function MessagesOf(session: Value): (v: Value)
    ensures !session.Obj? ==> v == session
    ensures session.Obj? && "messages" !in session.fields ==> v == Arr([])
  {
    if session.Obj? then Get(session.fields, "messages", Arr([])) else session
  }

  /** `extract_token_usage_from_session`, given the session file as parsed,
      or nothing when it is missing, unreadable or not JSON. */
  function ExtractSession(file: Option<Value>): (r: Result<map<string, int>>)
    ensures file.None? ==> r == Ok(map[])
    ensures file.Some? && r.Ok? ==> r.value.Keys == Categories
  {
    if file.None? then Ok(map[])
    else match Iterate(MessagesOf(file.value))
      case Err(e) => Err(e)
      case Ok(msgs) =>
        match SumMessages(msgs)
        case Err(e) => Err(e)
        case Ok(t) => Ok(TotalsMap(t))
  }

  // ---------------------------------------------------------------------------
  // The sums, stated by path

  /** The six categories. */
  datatype Cat = Total | Input | Output | Reasoning | CacheRead | CacheWrite

  /** The category's key in the returned dict. */
  function Name(c: Cat): string {
    match c
    case Total => "total"
    case Input => "input"
    case Output => "output"
    case Reasoning => "reasoning"
    case CacheRead => "cache_read"
    case CacheWrite => "cache_write"
  }

  /** One category of a set of sums. */
  function Category(t: Totals, c: Cat): int {
    match c
    case Total => t.total
    case Input => t.input
    case Output => t.output
    case Reasoning => t.reasoning
    case CacheRead => t.cacheRead
    case CacheWrite => t.cacheWrite
  }

  lemma NamedCategory(t: Totals, c: Cat)
    ensures Name(c) in TotalsMap(t) && TotalsMap(t)[Name(c)] == Category(t, c)
  {
  }

  /** Where a category's count sits inside the breakdown of a message. */
  function TokensPath(c: Cat): seq<string> {
    match c
    case Total => ["total"]
    case Input => ["input"]
    case Output => ["output"]
    case Reasoning => ["reasoning"]
    case CacheRead => ["cache", "read"]
    case CacheWrite => ["cache", "write"]
  }

  /** Where a category's count sits in a message. */
  function PathOf(c: Cat): seq<string> {
    ["info", "tokens"] + TokensPath(c)
  }

  /** The value at a path of dict keys, if every step is a dict holding the
      key. */
  function At(v: Value, path: seq<string>): Option<Value>
    decreases |path|
  {
    if |path| == 0 then Some(v)
    else if v.Obj? && path[0] in v.fields then At(v.fields[path[0]], path[1..])
    else None
  }

  /** A count as read at a path: missing counts 0. */
  function Number(v: Option<Value>): int {
    match v
    case Some(Int(i)) => i
    case Some(Bool(b)) => if b then 1 else 0
    case _ => 0
  }

  /** The sum of a per-item count. */
  function SumCount(items: seq<Value>, h: Value -> int): int {
    if |items| == 0 then 0 else SumCount(items[..|items| - 1], h) + h(items[|items| - 1])
  }

  /** The count of one category of a message, read at its path. */
  function CountAt(c: Cat): Value -> int {
    m => Number(At(m, PathOf(c)))
  }

  /** Absent, null or a dict. */
  predicate DictOrNone(f: map<string, Value>, k: string) {
    k !in f || f[k].Null? || f[k].Obj?
  }

  /** Absent or a number. */
  predicate CountOrNone(f: map<string, Value>, k: string) {
    k !in f || f[k].Int? || f[k].Bool?
  }

  predicate WellFormedCache(c: Value) {
    c.Obj? ==> CountOrNone(c.fields, "read") && CountOrNone(c.fields, "write")
  }

  predicate WellFormedTokens(t: Value) {
    t.Obj? ==>
      && CountOrNone(t.fields, "total") && CountOrNone(t.fields, "input")
      && CountOrNone(t.fields, "output") && CountOrNone(t.fields, "reasoning")
      && DictOrNone(t.fields, "cache")
      && ("cache" in t.fields ==> WellFormedCache(t.fields["cache"]))
  }

  predicate WellFormedInfo(info: Value) {
    info.Obj? ==> DictOrNone(info.fields, "tokens") && ("tokens" in info.fields ==> WellFormedTokens(info.fields["tokens"]))
  }

  /** A message of the export's shape: a dict whose `info`, `tokens` and
      `cache`, where present, are dicts (or null) and whose counts are
      numbers. */
  predicate WellFormed(msg: Value) {
    msg.Obj? && DictOrNone(msg.fields, "info") && ("info" in msg.fields ==> WellFormedInfo(msg.fields["info"]))
  }

  /** The six counts of a breakdown read at their paths. */
  function ReadTokens(tokens: Value): Totals {
    Totals(Number(At(tokens, TokensPath(Total))), Number(At(tokens, TokensPath(Input))),
      Number(At(tokens, TokensPath(Output))), Number(At(tokens, TokensPath(Reasoning))),
      Number(At(tokens, TokensPath(CacheRead))), Number(At(tokens, TokensPath(CacheWrite))))
  }

  /** The breakdown of a message, when it has one that is a dict. */
  function TokensValue(msg: Value): Option<Value> {
    match At(msg, ["info", "tokens"])
    case Some(t) => if t.Obj? then Some(t) else None
    case None => None
  }

  /** The six counts of a message read at their paths. */
  function ByPath(msg: Value): Totals {
    match TokensValue(msg)
    case Some(t) => ReadTokens(t)
    case None => Zero
  }

  /** The sum of per-item totals. */
  function SumOf(items: seq<Value>, g: Value -> Totals): Totals {
    if |items| == 0 then Zero else Plus(SumOf(items[..|items| - 1], g), g(items[|items| - 1]))
  }

  /** A loop whose every step succeeds adds up the steps' values. */
  lemma {:induction false} SumWithAllOk(items: seq<Value>, f: Value -> Result<Totals>, g: Value -> Totals)
    requires forall i :: 0 <= i < |items| ==> f(items[i]) == Ok(g(items[i]))
    ensures SumWith(items, f) == Ok(SumOf(items, g))
    decreases |items|
  {
    if |items| > 0 {
      SumWithAllOk(items[..|items| - 1], f, g);
    }
  }

  lemma CategoryPlus(a: Totals, b: Totals, c: Cat)
    ensures Category(Plus(a, b), c) == Category(a, c) + Category(b, c)
  {
  }

  /** Reading one category of a sum of per-item totals sums that category
      of the items. */
  lemma {:induction false} CategoryOfSum(items: seq<Value>, c: Cat, g: Value -> Totals, h: Value -> int)
    requires forall i :: 0 <= i < |items| ==> Category(g(items[i]), c) == h(items[i])
    ensures Category(SumOf(items, g), c) == SumCount(items, h)
    decreases |items|
  {
    if |items| > 0 {
      var init := items[..|items| - 1];
      assert forall i :: 0 <= i < |init| ==> init[i] == items[i];
      CategoryOfSum(init, c, g, h);
      CategoryPlus(SumOf(init, g), g(items[|items| - 1]), c);
    }
  }

  lemma AtConcat(v: Value, p: seq<string>, q: seq<string>)
    ensures At(v, p + q) == (match At(v, p) case Some(w) => At(w, q) case None => None)
    decreases |p|
  {
    if |p| == 0 {
      assert p + q == q;
    } else {
      assert (p + q)[0] == p[0] && (p + q)[1..] == p[1..] + q;
      if v.Obj? && p[0] in v.fields {
        AtConcat(v.fields[p[0]], p[1..], q);
      }
    }
  }

  lemma CategoryOfByPath(msg: Value, c: Cat)
    ensures Category(ByPath(msg), c) == CountAt(c)(msg)
  {
    AtConcat(msg, ["info", "tokens"], TokensPath(c));
    match TokensValue(msg)
    case Some(t) =>
    case None =>
      match At(msg, ["info", "tokens"])
      case None =>
      case Some(t) => assert !t.Obj?;
        assert |TokensPath(c)| > 0;
  }

  lemma CountRead(f: map<string, Value>, k: string)
    requires CountOrNone(f, k)
    ensures Addend(Get(f, k, Int(0))) == Ok(Number(if k in f then Some(f[k]) else None))
  {
  }

  lemma BreakdownByPath(tokens: Value)
    requires tokens.Obj? && WellFormedTokens(tokens)
    ensures Breakdown(tokens.fields) == Ok(ReadTokens(tokens))
  {
    var f := tokens.fields;
    CountRead(f, "total");
    CountRead(f, "input");
    CountRead(f, "output");
    CountRead(f, "reasoning");
    var cache := Get(f, "cache", Null);
    if cache.Obj? {
      CountRead(cache.fields, "read");
      CountRead(cache.fields, "write");
      assert At(tokens, ["cache", "read"]) == At(cache, ["read"]) by {
        assert ["cache", "read"][1..] == ["read"];
      }
      assert At(tokens, ["cache", "write"]) == At(cache, ["write"]) by {
        assert ["cache", "write"][1..] == ["write"];
      }
    } else {
      assert At(tokens, ["cache", "read"]).None?;
      assert At(tokens, ["cache", "write"]).None?;
    }
  }

  lemma TokensAtPath(msg: Value)
    requires msg.Obj?
    ensures TokensValue(msg).Some? <==>
      "info" in msg.fields && msg.fields["info"].Obj? && "tokens" in msg.fields["info"].fields
        && msg.fields["info"].fields["tokens"].Obj?
    ensures TokensValue(msg).Some? ==> TokensValue(msg).value == msg.fields["info"].fields["tokens"]
  {
    assert ["info", "tokens"][1..] == ["tokens"];
  }

  /** A well-formed message adds exactly the counts at its paths. */
  lemma MessageByPath(msg: Value)
    requires WellFormed(msg)
    ensures MessageTotals(msg) == Ok(ByPath(msg))
  {
    TokensAtPath(msg);
    match TokensValue(msg)
    case Some(tokens) =>
      if Truthy(tokens) {
        assert TokensOf(msg) == Ok(Some(tokens.fields));
        BreakdownByPath(tokens);
      } else {
        assert tokens.fields == map[];
        assert TokensOf(msg) == Ok(None);
        assert ReadTokens(tokens) == Zero;
      }
    case None =>
      assert TokensOf(msg) == Ok(None);
  }

  /** Over well-formed messages, each category is the sum over the messages
      of the count at that category's path, 0 where missing. */
  lemma SumMessagesByPath(msgs: seq<Value>)
    requires forall i :: 0 <= i < |msgs| ==> WellFormed(msgs[i])
    ensures SumMessages(msgs) == Ok(SumOf(msgs, ByPath))
  {
    forall i | 0 <= i < |msgs|
      ensures MessageTotals(msgs[i]) == Ok(ByPath(msgs[i]))
    {
      MessageByPath(msgs[i]);
    }
    SumWithAllOk(msgs, MessageTotals, ByPath);
  }

  lemma SessionTotals(session: Value, msgs: seq<Value>)
    requires MessagesOf(session) == Arr(msgs)
    requires forall i :: 0 <= i < |msgs| ==> WellFormed(msgs[i])
    ensures ExtractSession(Some(session)) == Ok(TotalsMap(SumOf(msgs, ByPath)))
  {
    SumMessagesByPath(msgs);
  }

  /** The session's dict holds, for every category, the sum of that
      category over its messages. */
  lemma SessionCategorySums(session: Value, msgs: seq<Value>, c: Cat)
    requires MessagesOf(session) == Arr(msgs)
    requires forall i :: 0 <= i < |msgs| ==> WellFormed(msgs[i])
    ensures ExtractSession(Some(session)).Ok?
    ensures ExtractSession(Some(session)).value[Name(c)] == SumCount(msgs, CountAt(c))
  {
    SumMessagesByPath(msgs);
    forall i | 0 <= i < |msgs|
      ensures Category(ByPath(msgs[i]), c) == CountAt(c)(msgs[i])
    {
      CategoryOfByPath(msgs[i], c);
    }
    CategoryOfSum(msgs, c, ByPath, CountAt(c));
    var t := SumOf(msgs, ByPath);
    assert ExtractSession(Some(session)) == Ok(TotalsMap(t));
    NamedCategory(t, c);
  }

  /** A message without a breakdown leaves every sum as it was. */
  lemma SkippedMessage(msgs: seq<Value>, msg: Value)
    requires TokensOf(msg) == Ok(None)
    ensures SumMessages(msgs + [msg]) == SumMessages(msgs)
  {
    assert (msgs + [msg])[..|msgs|] == msgs;
  }

  /** No messages, or no `messages` at all, give six zeros, which is not the
      empty dict of an unreadable file. */
  lemma EmptySessionIsZero(fields: map<string, Value>)
    requires "messages" !in fields || fields["messages"] == Arr([])
    ensures ExtractSession(Some(Obj(fields))) == Ok(TotalsMap(Zero))
    ensures ExtractSession(Some(Obj(fields))) != ExtractSession(None)
  {
    assert "total" in TotalsMap(Zero);
  }

  /** A top-level list is the message list itself. */
  lemma ListSession(msgs: seq<Value>)
    ensures ExtractSession(Some(Arr(msgs))) == ExtractSession(Some(Obj(map["messages" := Arr(msgs)])))
  {
  }

  /** One fully populated message. */
  function FullMessage(total: int, input: int, output: int, reasoning: int, read: int, write: int): Value {
    Obj(map["info" := Obj(map["tokens" := Obj(map[
      "total" := Int(total), "input" := Int(input), "output" := Int(output), "reasoning" := Int(reasoning),
      "cache" := Obj(map["read" := Int(read), "write" := Int(write)])])])])
  }

  lemma FullMessageCounts(total: int, input: int, output: int, reasoning: int, read: int, write: int)
    ensures var m := FullMessage(total, input, output, reasoning, read, write);
      WellFormed(m) && ByPath(m) == Totals(total, input, output, reasoning, read, write)
  {
    var m := FullMessage(total, input, output, reasoning, read, write);
    var tokens := m.fields["info"].fields["tokens"];
    TokensAtPath(m);
    assert TokensValue(m) == Some(tokens);
    var cache := tokens.fields["cache"];
    assert At(tokens, ["cache", "read"]) == At(cache, ["read"]) by {
      assert ["cache", "read"][1..] == ["read"];
    }
    assert At(tokens, ["cache", "write"]) == At(cache, ["write"]) by {
      assert ["cache", "write"][1..] == ["write"];
    }
  }

  lemma SumOfTwo(a: Value, b: Value, g: Value -> Totals)
    ensures SumOf([a, b], g) == Plus(Plus(Zero, g(a)), g(b))
  {
    assert [a, b][..1] == [a];
    assert [a][..0] == [];
    assert SumOf([a, b], g) == Plus(SumOf([a], g), g(b));
    assert SumOf([a], g) == Plus(SumOf([], g), g(a));
  }

  lemma TwoWellFormed(session: Value, m1: Value, m2: Value)
    requires MessagesOf(session) == Arr([m1, m2])
    requires WellFormed(m1) && WellFormed(m2)
    ensures ExtractSession(Some(session)) == Ok(TotalsMap(Plus(Plus(Zero, ByPath(m1)), ByPath(m2))))
  {
    var msgs := [m1, m2];
    assert ExtractSession(Some(session)) == Ok(TotalsMap(SumOf(msgs, ByPath))) by {
      assert forall i :: 0 <= i < |msgs| ==> WellFormed(msgs[i]);
      SessionTotals(session, msgs);
    }
    SumOfTwo(m1, m2, ByPath);
  }

  /** A session export with two fully populated messages sums them category
      by category. */
  lemma TwoMessages()
    ensures ExtractSession(Some(Obj(map["info" := EmptyObj, "messages" := Arr([
        FullMessage(100, 10, 50, 0, 30, 10), FullMessage(200, 20, 100, 5, 60, 15)])])))
      == Ok(TotalsMap(Totals(300, 30, 150, 5, 90, 25)))
  {
    var m1 := FullMessage(100, 10, 50, 0, 30, 10);
    var m2 := FullMessage(200, 20, 100, 5, 60, 15);
    var session := Obj(map["info" := EmptyObj, "messages" := Arr([m1, m2])]);
    assert WellFormed(m1) && ByPath(m1) == Totals(100, 10, 50, 0, 30, 10) by {
      FullMessageCounts(100, 10, 50, 0, 30, 10);
    }
    assert WellFormed(m2) && ByPath(m2) == Totals(200, 20, 100, 5, 60, 15) by {
      FullMessageCounts(200, 20, 100, 5, 60, 15);
    }
    assert MessagesOf(session) == Arr([m1, m2]);
    TwoWellFormed(session, m1, m2);
  }

  // ---------------------------------------------------------------------------
  // A session file of the wrong shape

  /** A session of valid JSON whose messages are not dicts raises instead of
      degrading to an empty dict. */
  lemma WrongShapeRaises()
    ensures ExtractSession(Some(Arr([Int(1)]))).Err?
    ensures ExtractSession(Some(Obj(map["messages" := Int(3)]))).Err?
  {
    assert [Int(1)][..0] == [];
  }

  /** Session extraction that degrades every failure to an empty dict, as
      it does for an unreadable file. */
  function ExtractSessionGuarded(file: Option<Value>): (r: map<string, int>)
    ensures ExtractSession(file).Ok? ==> r == ExtractSession(file).value
    ensures ExtractSession(file).Err? ==> r == map[]
    ensures r == map[] || r.Keys == Categories
  {
    match ExtractSession(file)
    case Ok(m) => m
    case Err(_) => map[]
  }

  lemma WrongShapeDegrades()
    ensures ExtractSessionGuarded(Some(Arr([Int(1)]))) == map[]
  {
    WrongShapeRaises();
  }

  // ---------------------------------------------------------------------------
  // The run record

  datatype RunMetrics = RunMetrics(
    runId: string,
    agentId: string,
    exitCode: int,
    duration: Value,
    tokenUsage: map<string, int>,
    error: Option<string>)

  const MetricsKeys: set<string> := {"run_id", "agent_id", "exit_code", "duration_seconds", "token_usage", "error"}

  /** `to_dict`: exactly the six keys, every value copied. */
  function ToDict(m: RunMetrics): (v: Value)
    ensures v.Obj? && v.fields.Keys == MetricsKeys
    ensures v.fields["run_id"] == Str(m.runId) && v.fields["agent_id"] == Str(m.agentId)
    ensures v.fields["exit_code"] == Int(m.exitCode) && v.fields["duration_seconds"] == m.duration
    ensures v.fields["token_usage"] == BenchMetrics.IntObj(m.tokenUsage)
    ensures v.fields["error"] == (if m.error.Some? then Str(m.error.value) else Null)
  {
    Obj(map[
      "run_id" := Str(m.runId),
      "agent_id" := Str(m.agentId),
      "exit_code" := Int(m.exitCode),
      "duration_seconds" := m.duration,
      "token_usage" := BenchMetrics.IntObj(m.tokenUsage),
      "error" := BenchMetrics.OptStr(m.error)])
  }

  /** Nothing is lost: two records with the same dict are the same record. */
  lemma ToDictInjective(a: RunMetrics, b: RunMetrics)
    requires ToDict(a) == ToDict(b)
    ensures a == b
  {
    var da, db := ToDict(a).fields, ToDict(b).fields;
    assert da["token_usage"] == db["token_usage"];
    assert a.tokenUsage.Keys == b.tokenUsage.Keys;
    forall k | k in a.tokenUsage
      ensures a.tokenUsage[k] == b.tokenUsage[k]
    {
      assert BenchMetrics.IntObj(a.tokenUsage).fields[k] == Int(a.tokenUsage[k]);
    }
    assert a.tokenUsage == b.tokenUsage;
    assert da["error"] == db["error"];
  }

  /** `collect_run_metrics`, given the container's metrics file and the
      session export. The identity, exit code and error are passed through;
      the duration is the container's `duration_seconds`, 0 when absent.
      A metrics document that is not a dict has no `get`, and a session
      export of the wrong shape raises; either ends the call. */
  function CollectRunMetrics(runId: string, agentId: string, metricsFile: BenchMetrics.MetricsFile,
    session: Option<Value>, exitCode: int, error: Option<string>): (r: Result<RunMetrics>)
    ensures r.Ok? <==> BenchMetrics.LoadContainerMetrics(metricsFile).Obj? && ExtractSession(session).Ok?
    ensures r.Ok? ==>
      && r.value.runId == runId && r.value.agentId == agentId
      && r.value.exitCode == exitCode && r.value.error == error
      && r.value.duration == Get(BenchMetrics.LoadContainerMetrics(metricsFile).fields, "duration_seconds", Int(0))
      && r.value.tokenUsage == ExtractSession(session).value
  {
    var cm := BenchMetrics.LoadContainerMetrics(metricsFile);
    if !cm.Obj? then Err(NoGet(cm))
    else
      var duration := Get(cm.fields, "duration_seconds", Int(0));
      match ExtractSession(session)
      case Err(e) => Err(e)
      case Ok(tokens) => Ok(RunMetrics(runId, agentId, exitCode, duration, tokens, error))
  }

  /** A metrics file holding a JSON list makes the collection raise. */
  lemma ListMetricsFileRaises(runId: string, agentId: string, exitCode: int, error: Option<string>)
    ensures CollectRunMetrics(runId, agentId, BenchMetrics.Parsed(Arr([])), None, exitCode, error).Err?
  {
  }

  /** Collection that reads a metrics document of the wrong shape as empty
      and a session of the wrong shape as no token data. */
  function CollectRunMetricsGuarded(runId: string, agentId: string, metricsFile: BenchMetrics.MetricsFile,
    session: Option<Value>, exitCode: int, error: Option<string>): (m: RunMetrics)
    ensures m.runId == runId && m.agentId == agentId && m.exitCode == exitCode && m.error == error
    ensures m.tokenUsage == ExtractSessionGuarded(session)
    ensures var cm := BenchMetrics.LoadContainerMetrics(metricsFile);
      m.duration == (if cm.Obj? then Get(cm.fields, "duration_seconds", Int(0)) else Int(0))
    ensures var r := CollectRunMetrics(runId, agentId, metricsFile, session, exitCode, error);
      r.Ok? ==> m == r.value
  {
    var cm := BenchMetrics.LoadContainerMetrics(metricsFile);
    var duration := if cm.Obj? then Get(cm.fields, "duration_seconds", Int(0)) else Int(0);
    RunMetrics(runId, agentId, exitCode, duration, ExtractSessionGuarded(session), error)
  }
}

=== FILE: analysis.dfy ===
/** Reading the saved metrics of an experiment back and summarising them per
    agent. */
module Analysis {
  import opened Util
  import opened Json
  import DiffStat
  import Plan
  import opened BenchMetrics

  // ---------------------------------------------------------------------------
  // Loading one run's metrics

  function AsStr(v: Value): Option<string> {
    if v.Str? then Some(v.s) else None
  }

  function AsInt(v: Value): Option<int> {
    if v.Int? then Some(v.i) else None
  }

  function AsNat(v: Value): Option<nat> {
    if v.Int? && v.i >= 0 then Some(v.i) else None
  }

  function AsBool(v: Value): Option<bool> {
    if v.Bool? then Some(v.b) else None
  }

  function StrOf(v: Value): string {
    if v.Str? then v.s else ""
  }

  function IntOf(v: Value): int {
    if v.Int? then v.i else 0
  }

  /** A list of strings. */
  function AsStrList(v: Value): (r: Option<seq<string>>)
    ensures r.Some? ==> v.Arr? && |r.value| == |v.items|
    ensures r.Some? ==> forall i :: 0 <= i < |v.items| ==> v.items[i] == Str(r.value[i])
  {
    if v.Arr? && forall i :: 0 <= i < |v.items| ==> v.items[i].Str? then
      Some(seq(|v.items|, i requires 0 <= i < |v.items| => StrOf(v.items[i])))
    else None
  }

  /** A dict of integers. */
  function AsIntMap(v: Value): (r: Option<map<string, int>>)
    ensures r.Some? ==> v.Obj? && r.value.Keys == v.fields.Keys
    ensures r.Some? ==> forall k :: k in v.fields ==> v.fields[k] == Int(r.value[k])
  {
    if v.Obj? && forall k :: k in v.fields ==> v.fields[k].Int? then
      Some(map k | k in v.fields :: IntOf(v.fields[k]))
    else None
  }

  /** `data.get("error")`. */
  function AsOptStr(v: Value): Option<Option<string>> {
    match v
    case Null => Some(None)
    case Str(s) => Some(Some(s))
    case _ => None
  }

  /** `d[key]` on a value that must be a dict holding the key. */
  function Field(v: Value, key: string): Option<Value> {
    if v.Obj? && key in v.fields then Some(v.fields[key]) else None
  }

  function LoadGitDiff(v: Value): Option<DiffStat.GitDiffStats> {
    var f := Field(v, "files_changed");
    var i := Field(v, "insertions");
    var d := Field(v, "deletions");
    if f.None? || i.None? || d.None? then None
    else
      var f', i', d' := AsInt(f.value), AsInt(i.value), AsInt(d.value);
      if f'.None? || i'.None? || d'.None? then None
      else Some(DiffStat.GitDiffStats(f'.value, i'.value, d'.value))
  }

  function LoadPlan(v: Value): Option<Plan.PlanMetrics> {
    var l := Field(v, "total_lines");
    var s := Field(v, "sections");
    var t := Field(v, "tasks");
    var r := Field(v, "files_referenced");
    if l.None? || s.None? || t.None? || r.None? then None
    else
      var l', s', t', r' := AsNat(l.value), AsNat(s.value), AsNat(t.value), AsStrList(r.value);
      if l'.None? || s'.None? || t'.None? || r'.None? then None
      else Some(Plan.PlanMetrics(l'.value, s'.value, t'.value, r'.value))
  }

  const RequiredKeys: set<string> :=
    {"run_id", "agent_id", "exit_code", "duration_seconds", "has_commits", "git_diff", "plan"}

  /** `load_run_metrics` on a document that has been read and parsed (or
      nothing, when the file is missing or unreadable): the record when every
      required key is present with a value of the type written, else
      nothing. `token_usage` and `error` may be missing. */
  function LoadRunMetrics(file: Option<Value>): (r: Option<RunMetrics>)
    ensures file.None? || !file.value.Obj? ==> r.None?
    ensures r.Some? ==> RequiredKeys <= file.value.fields.Keys
    ensures r.Some? ==>
      && Str(r.value.runId) == file.value.fields["run_id"]
      && Str(r.value.agentId) == file.value.fields["agent_id"]
      && Int(r.value.exitCode) == file.value.fields["exit_code"]
      && r.value.duration == file.value.fields["duration_seconds"]
  {
    if file.None? || !file.value.Obj? then None
    else if !(RequiredKeys <= file.value.fields.Keys) then None
    else LoadFields(file.value.fields)
  }

  function LoadFields(d: map<string, Value>): (r: Option<RunMetrics>)
    requires RequiredKeys <= d.Keys
    ensures r.Some? ==>
      && Str(r.value.runId) == d["run_id"]
      && Str(r.value.agentId) == d["agent_id"]
      && Int(r.value.exitCode) == d["exit_code"]
      && r.value.duration == d["duration_seconds"]
  {
    var runId, agentId, exitCode := AsStr(d["run_id"]), AsStr(d["agent_id"]), AsInt(d["exit_code"]);
    var commits, git, plan := AsBool(d["has_commits"]), LoadGitDiff(d["git_diff"]), LoadPlan(d["plan"]);
    var tokens := AsIntMap(Get(d, "token_usage", EmptyObj));
    var error := AsOptStr(Get(d, "error", Null));
    if runId.None? || agentId.None? || exitCode.None? || commits.None? || git.None? || plan.None? || tokens.None? || error.None? then None
    else Some(RunMetrics(runId.value, agentId.value, exitCode.value, d["duration_seconds"], commits.value,
      git.value, plan.value, tokens.value, error.value))
  }

  lemma StrListRoundTrip(xs: seq<string>)
    ensures AsStrList(StrArr(xs)) == Some(xs)
  {
    var v := StrArr(xs);
    assert forall i :: 0 <= i < |v.items| ==> v.items[i].Str?;
    var ys := seq(|v.items|, i requires 0 <= i < |v.items| => StrOf(v.items[i]));
    assert ys == xs;
  }

  lemma IntMapRoundTrip(m: map<string, int>)
    ensures AsIntMap(IntObj(m)) == Some(m)
  {
    var v := IntObj(m);
    var m' := map k | k in v.fields :: IntOf(v.fields[k]);
    assert m' == m;
  }

  lemma LoadGitDiffDict(g: DiffStat.GitDiffStats)
    ensures LoadGitDiff(GitDiffDict(g)) == Some(g)
  {
  }

  lemma LoadPlanDict(p: Plan.PlanMetrics)
    ensures LoadPlan(PlanDict(p)) == Some(p)
  {
    StrListRoundTrip(p.filesReferenced);
  }

  /** A document holding the fields `to_dict` writes for `m`, with the
      optional ones read as `m` has them, loads as `m`. */
  lemma LoadFieldsOf(d: map<string, Value>, m: RunMetrics)
    requires RequiredKeys <= d.Keys
    requires d["run_id"] == Str(m.runId) && d["agent_id"] == Str(m.agentId)
    requires d["exit_code"] == Int(m.exitCode) && d["duration_seconds"] == m.duration
    requires d["has_commits"] == Bool(m.hasCommits)
    requires d["git_diff"] == GitDiffDict(m.gitDiff) && d["plan"] == PlanDict(m.plan)
    requires AsIntMap(Get(d, "token_usage", EmptyObj)) == Some(m.tokenUsage)
    requires AsOptStr(Get(d, "error", Null)) == Some(m.error)
    ensures LoadFields(d) == Some(m)
  {
    LoadGitDiffDict(m.gitDiff);
    LoadPlanDict(m.plan);
  }

  /** Loading what `to_dict` wrote gives back the same record. */
  lemma LoadToDict(m: RunMetrics)
    ensures LoadRunMetrics(Some(ToDict(m))) == Some(m)
  {
    var d := ToDict(m).fields;
    IntMapRoundTrip(m.tokenUsage);
    LoadFieldsOf(d, m);
  }

  /** A document missing a required key loads as nothing. */
  lemma MissingKeyLoadsNothing(fields: map<string, Value>, key: string)
    requires key in RequiredKeys && key !in fields
    ensures LoadRunMetrics(Some(Obj(fields))).None?
  {
  }

  /** Without `token_usage` and `error` the record has no token counts and
      no error. */
  lemma OptionalKeysDefault(m: RunMetrics)
    ensures LoadRunMetrics(Some(Obj(ToDict(m).fields - {"token_usage", "error"}))) == Some(m.(tokenUsage := map[], error := None))
  {
    var d := ToDict(m).fields;
    var d' := d - {"token_usage", "error"};
    assert AsIntMap(EmptyObj) == Some(map[]);
    LoadFieldsOf(d', m.(tokenUsage := map[], error := None));
  }

  // ---------------------------------------------------------------------------
  // Per-agent summaries

  /** A sum and the number of its terms, for an average: the average is
      `sum / count`, and 0 when there are no terms. */
  datatype Mean = Mean(sum: int, count: nat)

  /** `AgentSummary`. The durations of the successful runs are kept as the
      samples of their average. */
  datatype AgentSummary = AgentSummary(
    agentId: string,
    totalRuns: nat,
    successfulRuns: nat,
    failedRuns: nat,
    durationSamples: seq<Value>,
    planLines: Mean,
    planSections: Mean,
    totalTokens: int)

  function Successful(rs: seq<RunMetrics>): (r: seq<RunMetrics>)
    ensures forall m :: m in r <==> m in rs && m.exitCode == 0
  {
    if |rs| == 0 then []
    else Successful(rs[..|rs| - 1]) + (if rs[|rs| - 1].exitCode == 0 then [rs[|rs| - 1]] else [])
  }

  function Failed(rs: seq<RunMetrics>): (r: seq<RunMetrics>)
    ensures forall m :: m in r <==> m in rs && m.exitCode != 0
  {
    if |rs| == 0 then []
    else Failed(rs[..|rs| - 1]) + (if rs[|rs| - 1].exitCode != 0 then [rs[|rs| - 1]] else [])
  }

  /** Every run is either successful or failed. */
  lemma {:induction false} SuccessfulFailedSplit(rs: seq<RunMetrics>)
    ensures |Successful(rs)| + |Failed(rs)| == |rs|
    decreases |rs|
  {
    if |rs| > 0 {
      SuccessfulFailedSplit(rs[..|rs| - 1]);
    }
  }

  /** The sum of a weight over runs. */
  function Total(rs: seq<RunMetrics>, w: RunMetrics -> int): int {
    if |rs| == 0 then 0 else Total(rs[..|rs| - 1], w) + w(rs[|rs| - 1])
  }

  function Durations(rs: seq<RunMetrics>): (r: seq<Value>)
    ensures |r| == |rs|
  {
    if |rs| == 0 then [] else Durations(rs[..|rs| - 1]) + [rs[|rs| - 1].duration]
  }

  /** `r.token_usage.get("total_tokens", 0)`. */
  function TokensOf(m: RunMetrics): int {
    if "total_tokens" in m.tokenUsage then m.tokenUsage["total_tokens"] else 0
  }

  function Summarise(agentId: string, runs: seq<RunMetrics>): (s: AgentSummary)
    ensures s.agentId == agentId && s.totalRuns == |runs|
    ensures s.successfulRuns == |Successful(runs)| && s.failedRuns == |Failed(runs)|
    ensures s.successfulRuns + s.failedRuns == s.totalRuns
    ensures s.durationSamples == Durations(Successful(runs))
    ensures s.planLines == Mean(Total(Successful(runs), (m: RunMetrics) => m.plan.totalLines), s.successfulRuns)
    ensures s.planSections == Mean(Total(Successful(runs), (m: RunMetrics) => m.plan.sections), s.successfulRuns)
    ensures s.totalTokens == Total(runs, TokensOf)
  {
    SuccessfulFailedSplit(runs);
    var ok := Successful(runs);
    AgentSummary(agentId, |runs|, |ok|, |Failed(runs)|, Durations(ok),
      Mean(Total(ok, (m: RunMetrics) => m.plan.totalLines), |ok|),
      Mean(Total(ok, (m: RunMetrics) => m.plan.sections), |ok|),
      Total(runs, TokensOf))
  }

  /** The runs of one agent, in loading order. */
  function RunsOf(ms: seq<RunMetrics>, agentId: string): (r: seq<RunMetrics>)
    ensures forall m :: m in r <==> m in ms && m.agentId == agentId
  {
    if |ms| == 0 then []
    else RunsOf(ms[..|ms| - 1], agentId) + (if ms[|ms| - 1].agentId == agentId then [ms[|ms| - 1]] else [])
  }

  function AgentIdsOf(ms: seq<RunMetrics>): (r: seq<string>)
    ensures |r| == |ms| && forall i :: 0 <= i < |ms| ==> r[i] == ms[i].agentId
  {
    if |ms| == 0 then [] else AgentIdsOf(ms[..|ms| - 1]) + [ms[|ms| - 1].agentId]
  }

  /** One entry of a results directory: its name, whether it is a directory,
      and its `metrics.json` as read and parsed, if at all. */
  datatype RunDir = RunDir(name: string, isDir: bool, metricsFile: Option<Value>)

  /** The metrics loaded from the run directories, in listing order; the
      `.benchmark` directory, plain files and unloadable runs are skipped. */
  function LoadAll(dirs: seq<RunDir>): (ms: seq<RunMetrics>)
    ensures |ms| <= |dirs|
  {
    if |dirs| == 0 then []
    else
      var d := dirs[|dirs| - 1];
      var m := if d.isDir && d.name != ".benchmark" then LoadRunMetrics(d.metricsFile) else None;
      LoadAll(dirs[..|dirs| - 1]) + (if m.Some? then [m.value] else [])
  }

  datatype ExperimentAnalysis = ExperimentAnalysis(
    experimentName: string,
    allMetrics: seq<RunMetrics>,
    agents: seq<string>,
    summaries: map<string, AgentSummary>)

  /** The agents named once each are exactly the agents of the runs. */
  lemma AgentsOfRuns(ms: seq<RunMetrics>)
    ensures forall id :: id in ToSet(Dedupe(AgentIdsOf(ms))) <==> exists m :: m in ms && m.agentId == id
  {
    var ids := AgentIdsOf(ms);
    var agents := Dedupe(ids);
    forall id | id in ToSet(agents)
      ensures exists m :: m in ms && m.agentId == id
    {
      var i :| 0 <= i < |agents| && agents[i] == id;
      var j :| 0 <= j < |ms| && ids[j] == id;
      assert ms[j] in ms;
    }
    forall id | exists m :: m in ms && m.agentId == id
      ensures id in ToSet(agents)
    {
      var m :| m in ms && m.agentId == id;
      var j :| 0 <= j < |ms| && ms[j] == m;
      assert ids[j] == id;
    }
  }

  function Summaries(ms: seq<RunMetrics>, agents: seq<string>): (r: map<string, AgentSummary>)
    ensures r.Keys == ToSet(agents)
    ensures forall id :: id in r ==> r[id] == Summarise(id, RunsOf(ms, id))
  {
    map id | id in ToSet(agents) :: Summarise(id, RunsOf(ms, id))
  }

  /** `analyze_results`. The experiment's name is the configured one when
      the saved configuration loads, else the directory's name. */
  function AnalyzeResults(dirName: string, configName: Option<string>, dirs: seq<RunDir>): (a: ExperimentAnalysis)
    ensures a.experimentName == configName.GetOr(dirName)
    ensures a.allMetrics == LoadAll(dirs)
    ensures Distinct(a.agents) && ToSet(a.agents) == a.summaries.Keys
    ensures forall id :: id in a.summaries <==> exists m :: m in a.allMetrics && m.agentId == id
    ensures forall id :: id in a.summaries ==> a.summaries[id] == Summarise(id, RunsOf(a.allMetrics, id))
  {
    var ms := LoadAll(dirs);
    var agents := Dedupe(AgentIdsOf(ms));
    AgentsOfRuns(ms);
    var summaries := Summaries(ms, agents);
    ExperimentAnalysis(configName.GetOr(dirName), ms, agents, summaries)
  }

  // ---------------------------------------------------------------------------
  // The summaries account for every loaded run once

  /** The sum of the per-agent totals over a list of agents. */
  function PerAgent(ms: seq<RunMetrics>, agents: seq<string>, w: RunMetrics -> int): int {
    if |agents| == 0 then 0 else Total(RunsOf(ms, agents[0]), w) + PerAgent(ms, agents[1..], w)
  }

  lemma {:induction false} PerAgentSnoc(ms: seq<RunMetrics>, m: RunMetrics, agents: seq<string>, w: RunMetrics -> int)
    requires Distinct(agents)
    ensures PerAgent(ms + [m], agents, w) == PerAgent(ms, agents, w) + (if m.agentId in agents then w(m) else 0)
    decreases |agents|
  {
    if |agents| > 0 {
      assert (ms + [m])[..|ms|] == ms;
      assert Distinct(agents[1..]);
      PerAgentSnoc(ms, m, agents[1..], w);
      assert m.agentId in agents <==> m.agentId == agents[0] || m.agentId in agents[1..] by {
        assert agents == [agents[0]] + agents[1..];
      }
      var a := agents[0];
      TotalSnoc(RunsOf(ms, a), m, w);
      if m.agentId == a {
        assert RunsOf(ms + [m], a) == RunsOf(ms, a) + [m];
        assert m.agentId !in agents[1..] by {
          forall i | 0 <= i < |agents[1..]|
            ensures agents[1..][i] != agents[0]
          {
            assert agents[1..][i] == agents[i + 1];
          }
        }
      } else {
        assert RunsOf(ms + [m], a) == RunsOf(ms, a);
      }
    }
  }

  lemma TotalSnoc(rs: seq<RunMetrics>, m: RunMetrics, w: RunMetrics -> int)
    ensures Total(rs + [m], w) == Total(rs, w) + w(m)
  {
    assert (rs + [m])[..|rs|] == rs;
  }

  /** Summing a weight per agent, over a list naming every agent once, sums
      it over all runs. */
  lemma {:induction false} PerAgentTotal(ms: seq<RunMetrics>, agents: seq<string>, w: RunMetrics -> int)
    requires Distinct(agents)
    requires forall i :: 0 <= i < |ms| ==> ms[i].agentId in agents
    ensures PerAgent(ms, agents, w) == Total(ms, w)
    decreases |ms|
  {
    if |ms| == 0 {
      PerAgentEmpty(agents, w);
    } else {
      var init := ms[..|ms| - 1];
      var m := ms[|ms| - 1];
      PerAgentTotal(init, agents, w);
      assert init + [m] == ms;
      PerAgentSnoc(init, m, agents, w);
    }
  }

  lemma {:induction false} PerAgentEmpty(agents: seq<string>, w: RunMetrics -> int)
    ensures PerAgent([], agents, w) == 0
    decreases |agents|
  {
    if |agents| > 0 {
      PerAgentEmpty(agents[1..], w);
    }
  }

  lemma {:induction false} TotalOfOnes(rs: seq<RunMetrics>)
    ensures Total(rs, (m: RunMetrics) => 1) == |rs|
    decreases |rs|
  {
    if |rs| > 0 {
      TotalOfOnes(rs[..|rs| - 1]);
    }
  }

  /** The agents' run counts add up to the number of loaded runs, and their
      token totals to the tokens of all loaded runs. */
  lemma SummariesCoverAllRuns(dirName: string, configName: Option<string>, dirs: seq<RunDir>)
    ensures var a := AnalyzeResults(dirName, configName, dirs);
      && PerAgent(a.allMetrics, a.agents, (m: RunMetrics) => 1) == |a.allMetrics|
      && PerAgent(a.allMetrics, a.agents, TokensOf) == Total(a.allMetrics, TokensOf)
  {
    var a := AnalyzeResults(dirName, configName, dirs);
    var ms := a.allMetrics;
    assert forall i :: 0 <= i < |ms| ==> ms[i].agentId in a.agents by {
      forall i | 0 <= i < |ms|
        ensures ms[i].agentId in a.agents
      {
        assert AgentIdsOf(ms)[i] == ms[i].agentId;
      }
    }
    PerAgentTotal(ms, a.agents, (m: RunMetrics) => 1);
    TotalOfOnes(ms);
    PerAgentTotal(ms, a.agents, TokensOf);
  }
}

=== FILE: benchmetrics.dfy ===
/** The metrics record of one benchmark run, its JSON form, and how it is
    put together from what the run left behind: the container's own metrics
    file, the repository's git state, the plan files and the log. */
module BenchMetrics {
  import opened Util
  import opened Json
  import DiffStat
  import Plan
  import TokenLog

  /** `RunMetrics`. The duration is whatever the container reported, kept
      as the JSON value it was read as. */
  datatype RunMetrics = RunMetrics(
    runId: string,
    agentId: string,
    exitCode: int,
    duration: Value,
    hasCommits: bool,
    gitDiff: DiffStat.GitDiffStats,
    plan: Plan.PlanMetrics,
    tokenUsage: map<string, int>,
    error: Option<string>)

  const MetricsKeys: set<string> :=
    {"run_id", "agent_id", "exit_code", "duration_seconds", "has_commits", "git_diff", "plan", "token_usage", "error"}
  const GitDiffKeys: set<string> := {"files_changed", "insertions", "deletions"}
  const PlanKeys: set<string> := {"total_lines", "sections", "tasks", "files_referenced"}

  function StrArr(xs: seq<string>): (v: Value)
    ensures v.Arr? && |v.items| == |xs|
    ensures forall i :: 0 <= i < |xs| ==> v.items[i] == Str(xs[i])
  {
    Arr(seq(|xs|, i requires 0 <= i < |xs| => Str(xs[i])))
  }

  function IntObj(m: map<string, int>): (v: Value)
    ensures v.Obj? && v.fields.Keys == m.Keys
    ensures forall k :: k in m ==> v.fields[k] == Int(m[k])
  {
    Obj(map k | k in m :: Int(m[k]))
  }

  function OptStr(s: Option<string>): Value {
    match s
    case None => Null
    case Some(t) => Str(t)
  }

  function GitDiffDict(g: DiffStat.GitDiffStats): Value {
    Obj(map["files_changed" := Int(g.filesChanged), "insertions" := Int(g.insertions), "deletions" := Int(g.deletions)])
  }

  function PlanDict(p: Plan.PlanMetrics): Value {
    Obj(map[
      "total_lines" := Int(p.totalLines),
      "sections" := Int(p.sections),
      "tasks" := Int(p.tasks),
      "files_referenced" := StrArr(p.filesReferenced)])
  }

  /** `to_dict`: exactly the nine keys, the nested records with exactly
      their own keys, every value copied. */
  function ToDict(m: RunMetrics): (v: Value)
    ensures v.Obj? && v.fields.Keys == MetricsKeys
    ensures v.fields["run_id"] == Str(m.runId) && v.fields["agent_id"] == Str(m.agentId)
    ensures v.fields["exit_code"] == Int(m.exitCode) && v.fields["duration_seconds"] == m.duration
    ensures v.fields["has_commits"] == Bool(m.hasCommits)
    ensures v.fields["git_diff"].Obj? && v.fields["git_diff"].fields.Keys == GitDiffKeys
    ensures var g := v.fields["git_diff"].fields;
      && g["files_changed"] == Int(m.gitDiff.filesChanged)
      && g["insertions"] == Int(m.gitDiff.insertions)
      && g["deletions"] == Int(m.gitDiff.deletions)
    ensures v.fields["plan"].Obj? && v.fields["plan"].fields.Keys == PlanKeys
    ensures var p := v.fields["plan"].fields;
      && p["total_lines"] == Int(m.plan.totalLines)
      && p["sections"] == Int(m.plan.sections)
      && p["tasks"] == Int(m.plan.tasks)
      && p["files_referenced"] == StrArr(m.plan.filesReferenced)
    ensures v.fields["token_usage"] == IntObj(m.tokenUsage)
    ensures v.fields["error"] == (if m.error.Some? then Str(m.error.value) else Null)
  {
    Obj(map[
      "run_id" := Str(m.runId),
      "agent_id" := Str(m.agentId),
      "exit_code" := Int(m.exitCode),
      "duration_seconds" := m.duration,
      "has_commits" := Bool(m.hasCommits),
      "git_diff" := GitDiffDict(m.gitDiff),
      "plan" := PlanDict(m.plan),
      "token_usage" := IntObj(m.tokenUsage),
      "error" := OptStr(m.error)])
  }

  // ---------------------------------------------------------------------------
  // Collecting the metrics of a run

  /** What git answers in the repository: nothing at all when git cannot be
      started there; otherwise whether `rev-parse HEAD` succeeded and the
      output of `diff --stat HEAD~1` when that succeeded. */
  datatype GitProbe = GitUnavailable | GitAnswers(headOk: bool, diffStat: Option<string>)

  /** `collect_git_metrics`: whether the repository has commits, and the
      statistics of its last commit, read only when it has. */
  function CollectGitMetrics(probe: GitProbe): (r: (bool, DiffStat.GitDiffStats))
    ensures r.0 <==> probe.GitAnswers? && probe.headOk
    ensures !r.0 || probe.diffStat.None? ==> r.1 == DiffStat.NoStats
    ensures r.0 && probe.diffStat.Some? ==> r.1 == DiffStat.ParseDiffStat(probe.diffStat.value)
  {
    match probe
    case GitUnavailable => (false, DiffStat.NoStats)
    case GitAnswers(headOk, diff) =>
      if !headOk then (false, DiffStat.NoStats)
      else if diff.None? then (true, DiffStat.NoStats)
      else (true, DiffStat.ParseDiffStat(diff.value))
  }

  /** The container's metrics file: absent, present but unreadable or not
      JSON, or parsed. */
  datatype MetricsFile = NoFile | Unreadable | Parsed(value: Value)

  /** `load_container_metrics`: the parsed document, or an empty dict. */
  function LoadContainerMetrics(f: MetricsFile): (v: Value)
    ensures f.Parsed? ==> v == f.value
    ensures !f.Parsed? ==> v == EmptyObj
  {
    if f.Parsed? then f.value else EmptyObj
  }

  /** What a finished run left in its workspace. */
  datatype RunTraces = RunTraces(metricsFile: MetricsFile, git: GitProbe, repoListing: seq<Plan.Entry>)

  /** `collect_run_metrics`. The identity, exit code and error are passed
      through; the duration is the container's `duration_seconds`, 0 when
      absent; the plan counts come from the four-pattern collector. A metrics
      document that is not a dict has no `get`, and the call raises. */
  function CollectRunMetrics(runId: string, agentId: string, traces: RunTraces, logs: string, exitCode: int, error: Option<string>): (r: Result<RunMetrics>)
    ensures r.Err? <==> !LoadContainerMetrics(traces.metricsFile).Obj?
    ensures r.Err? ==> r.error.AttributeError?
    ensures r.Ok? ==>
      && r.value.runId == runId && r.value.agentId == agentId
      && r.value.exitCode == exitCode && r.value.error == error
      && r.value.duration == Get(LoadContainerMetrics(traces.metricsFile).fields, "duration_seconds", Int(0))
      && (r.value.hasCommits, r.value.gitDiff) == CollectGitMetrics(traces.git)
      && r.value.plan == Plan.CollectPlanMetricsAsWritten(traces.repoListing)
      && r.value.tokenUsage == TokenLog.ExtractTokenUsage(logs)
  {
    var cm := LoadContainerMetrics(traces.metricsFile);
    if !cm.Obj? then Err(AttributeError("'" + TypeName(cm) + "' object has no attribute 'get'"))
    else
      var duration := Get(cm.fields, "duration_seconds", Int(0));
      var git := CollectGitMetrics(traces.git);
      Ok(RunMetrics(runId, agentId, exitCode, duration, git.0, git.1,
        Plan.CollectPlanMetricsAsWritten(traces.repoListing), TokenLog.ExtractTokenUsage(logs), error))
  }
}

=== FILE: collect.dfy ===
/** `_collect_results` of both runners, over what collecting one result's
    metrics yields: the results are handled in order, each writes its
    metrics file, and the first collection that raises stops the loop. */
module Collecting {
  import opened Util
  import opened Json
  import FanIn

  /** The run ids of the first `n` results. */
  function IdsUpTo(results: seq<FanIn.Collected>, n: nat): set<string>
    requires n <= |results|
  {
    set i | 0 <= i < n :: results[i].runId
  }

  /** What `_collect_results` leaves behind: the metrics documents written,
      by run id; how many results were handled; and the exception that
      stopped it, if any. */
  datatype Collection<V> = Collection(written: map<string, V>, handled: nat, error: Option<Exc>)

  /** `_collect_results` over the first `n` results, given what collecting
      one result's metrics yields: results are handled in order and the
      metrics file of each is written, until one collection raises; the files
      written so far stay. */
  function Collect<V>(results: seq<FanIn.Collected>, metricsOf: FanIn.Collected -> Result<V>, n: nat): (c: Collection<V>)
    requires n <= |results|
    ensures c.handled <= n
    ensures forall p :: 0 <= p < c.handled ==> metricsOf(results[p]).Ok?
    ensures c.error.None? <==> c.handled == n
    ensures c.error.Some? ==> metricsOf(results[c.handled]) == Err(c.error.value)
    decreases n
  {
    if n == 0 then Collection(map[], 0, None)
    else
      var prev := Collect(results, metricsOf, n - 1);
      if prev.error.Some? then prev
      else
        var x := results[n - 1];
        match metricsOf(x)
        case Err(e) => Collection(prev.written, n - 1, Some(e))
        case Ok(v) => Collection(prev.written[x.runId := v], n, None)
  }

  /** A collection raises exactly when some result's metrics raise, and then
      the first such result stops it. */
  lemma CollectRaisesAtFirst<V>(results: seq<FanIn.Collected>, metricsOf: FanIn.Collected -> Result<V>)
    ensures var c := Collect(results, metricsOf, |results|);
      && (c.error.None? <==> forall i :: 0 <= i < |results| ==> metricsOf(results[i]).Ok?)
      && (c.error.Some? ==>
            (&& c.handled < |results| && metricsOf(results[c.handled]).Err?
             && forall p :: 0 <= p < c.handled ==> metricsOf(results[p]).Ok?))
  {
  }

  /** A file is written for exactly the handled results. */
  lemma {:induction false} CollectKeys<V>(results: seq<FanIn.Collected>, metricsOf: FanIn.Collected -> Result<V>, n: nat)
    requires n <= |results|
    ensures Collect(results, metricsOf, n).written.Keys == IdsUpTo(results, Collect(results, metricsOf, n).handled)
    decreases n
  {
    if n > 0 {
      CollectKeys(results, metricsOf, n - 1);
      var prev := Collect(results, metricsOf, n - 1);
      var x := results[n - 1];
      if prev.error.None? && metricsOf(x).Ok? {
        assert IdsUpTo(results, n) == IdsUpTo(results, n - 1) + {x.runId};
      }
    }
  }

  /** When the first result's metrics raise, nothing is written and that
      exception is raised. */
  lemma {:induction false} CollectFirstRaises<V>(results: seq<FanIn.Collected>, metricsOf: FanIn.Collected -> Result<V>, n: nat)
    requires 0 < n <= |results| && metricsOf(results[0]).Err?
    ensures Collect(results, metricsOf, n) == Collection(map[], 0, Some(metricsOf(results[0]).error))
    decreases n
  {
    if n > 1 {
      CollectFirstRaises(results, metricsOf, n - 1);
    }
  }

  /** No result after the `p`-th among the first `h` has its run id. */
  predicate LastOfId(results: seq<FanIn.Collected>, p: nat, h: nat)
    requires p < h <= |results|
  {
    forall q :: p < q < h ==> results[q].runId != results[p].runId
  }

  /** The document written for a handled result is that result's metrics,
      unless a later handled result has the same run id and overwrites it. */
  lemma {:induction false} CollectWrittenValue<V>(results: seq<FanIn.Collected>, metricsOf: FanIn.Collected -> Result<V>, n: nat, p: nat)
    requires n <= |results|
    requires p < Collect(results, metricsOf, n).handled
    requires LastOfId(results, p, Collect(results, metricsOf, n).handled)
    ensures var w := Collect(results, metricsOf, n).written;
      results[p].runId in w && w[results[p].runId] == metricsOf(results[p]).value
    decreases n
  {
    var prev := Collect(results, metricsOf, n - 1);
    var c := Collect(results, metricsOf, n);
    var x := results[n - 1];
    if prev.error.Some? {
      assert c == prev;
      CollectWrittenValue(results, metricsOf, n - 1, p);
    } else if metricsOf(x).Err? {
      assert c == Collection(prev.written, n - 1, Some(metricsOf(x).error));
      CollectWrittenValue(results, metricsOf, n - 1, p);
    } else {
      assert c == Collection(prev.written[x.runId := metricsOf(x).value], n, None);
      if p < n - 1 {
        assert results[n - 1].runId != results[p].runId;
        assert LastOfId(results, p, n - 1);
        CollectWrittenValue(results, metricsOf, n - 1, p);
      }
    }
  }

  lemma IdsUpToAll(results: seq<FanIn.Collected>)
    ensures IdsUpTo(results, |results|) == FanIn.ResultIds(results)
  {
    forall id | id in FanIn.ResultIds(results)
      ensures id in IdsUpTo(results, |results|)
    {
      var x :| x in results && x.runId == id;
      var i :| 0 <= i < |results| && results[i] == x;
    }
  }

  lemma DistinctLast(results: seq<FanIn.Collected>, p: nat)
    requires Distinct(FanIn.RunIdsOf(results)) && p < |results|
    ensures LastOfId(results, p, |results|)
  {
    forall q | p < q < |results|
      ensures results[q].runId != results[p].runId
    {
      assert FanIn.RunIdsOf(results)[p] != FanIn.RunIdsOf(results)[q];
    }
  }

  /** With no collection raising, nothing is raised and every result gets
      its metrics file. */
  lemma CollectAllOk<V>(results: seq<FanIn.Collected>, metricsOf: FanIn.Collected -> Result<V>)
    requires forall i :: 0 <= i < |results| ==> metricsOf(results[i]).Ok?
    ensures var c := Collect(results, metricsOf, |results|);
      && c.error.None?
      && c.written.Keys == FanIn.ResultIds(results)
  {
    CollectRaisesAtFirst(results, metricsOf);
    CollectKeys(results, metricsOf, |results|);
    IdsUpToAll(results);
  }

  /** With pairwise different run ids and no collection raising, each
      result's metrics file holds that result's metrics. */
  lemma CollectAllValue<V>(results: seq<FanIn.Collected>, metricsOf: FanIn.Collected -> Result<V>, i: nat)
    requires Distinct(FanIn.RunIdsOf(results))
    requires forall i :: 0 <= i < |results| ==> metricsOf(results[i]).Ok?
    requires i < |results|
    ensures var w := Collect(results, metricsOf, |results|).written;
      results[i].runId in w && w[results[i].runId] == metricsOf(results[i]).value
  {
    CollectRaisesAtFirst(results, metricsOf);
    DistinctLast(results, i);
    CollectWrittenValue(results, metricsOf, |results|, i);
  }

  /** A collection that never raises: every result's metrics are `f` of it. */
  function Total<V>(f: FanIn.Collected -> V): FanIn.Collected -> Result<V> {
    x => Ok(f(x))
  }

  /** With pairwise different run ids, a collection that never raises
      writes `f` of each result into that result's metrics file. */
  lemma CollectTotal<V>(results: seq<FanIn.Collected>, f: FanIn.Collected -> V, i: nat)
    requires Distinct(FanIn.RunIdsOf(results)) && i < |results|
    ensures var w := Collect(results, Total(f), |results|).written;
      results[i].runId in w && w[results[i].runId] == f(results[i])
  {
    var m := Total(f);
    assert forall k :: 0 <= k < |results| ==> m(results[k]) == Ok(f(results[k]));
    CollectAllValue(results, m, i);
  }

  /** A collection that never raises handles every result and writes a file
      for each. */
  lemma CollectTotalKeys<V>(results: seq<FanIn.Collected>, f: FanIn.Collected -> V)
    ensures var c := Collect(results, Total(f), |results|);
      c.error.None? && c.written.Keys == FanIn.ResultIds(results)
  {
    var m := Total(f);
    assert forall k :: 0 <= k < |results| ==> m(results[k]) == Ok(f(results[k]));
    CollectAllOk(results, m);
  }
}

=== FILE: config.dfy ===
/** The experiment configuration and its validators. The runner relies on
    what validation guarantees: a single prompt source, bounded settings, and
    a non-empty list of agents with pairwise different ids. */
module Config {
  import opened Util

  datatype ExperimentConfig = ExperimentConfig(name: string, description: string)

  datatype TargetConfig = TargetConfig(repo: string, commit: Option<string>)

  /** Where the prompt comes from: a file path or inline text. */
  datatype PromptConfig = PromptConfig(file: Option<string>, text: Option<string>)

  datatype SettingsConfig = SettingsConfig(runsPerAgent: int, parallel: bool, timeoutMinutes: int)

  datatype AgentConfig = AgentConfig(id: string, model: Option<string>, extraArgs: seq<string>)

  datatype AnalysisConfig = AnalysisConfig(model: string, prompt: string)

  datatype BenchmarkConfig = BenchmarkConfig(
    experiment: ExperimentConfig,
    target: TargetConfig,
    prompt: PromptConfig,
    settings: SettingsConfig,
    agents: seq<AgentConfig>,
    analysis: Option<AnalysisConfig>)

  const MinRunsPerAgent: int := 1
  const MaxRunsPerAgent: int := 10
  const DefaultRunsPerAgent: int := 3
  const MinTimeoutMinutes: int := 1
  const MaxTimeoutMinutes: int := 180
  const DefaultTimeoutMinutes: int := 10

  /** The settings used when the file has no `[settings]` table. */
  const DefaultSettings: SettingsConfig := SettingsConfig(DefaultRunsPerAgent, true, DefaultTimeoutMinutes)
  const DefaultAnalysis: AnalysisConfig := AnalysisConfig("anthropic/claude-opus-4-5", "")

  const NoPromptError: string := "Either 'file' or 'text' must be provided"
  const TwoPromptsError: string := "Only one of 'file' or 'text' should be provided"
  const NoAgentsError: string := "At least one agent must be configured"
  const DuplicateAgentsError: string := "Agent IDs must be unique"
  /** The two range errors stand in for the messages pydantic writes for a
      `Field(ge=…, le=…)` bound; only which field failed is modelled. */
  const RunsPerAgentRangeError: string := "runs_per_agent must lie in 1..10"
  const TimeoutRangeError: string := "timeout_minutes must lie in 1..180"

  predicate ExactlyOnePrompt(p: PromptConfig) {
    p.file.Some? != p.text.Some?
  }

  predicate SettingsInRange(s: SettingsConfig) {
    && MinRunsPerAgent <= s.runsPerAgent <= MaxRunsPerAgent
    && MinTimeoutMinutes <= s.timeoutMinutes <= MaxTimeoutMinutes
  }

  function AgentIds(agents: seq<AgentConfig>): (ids: seq<string>)
    ensures |ids| == |agents|
    ensures forall i :: 0 <= i < |agents| ==> ids[i] == agents[i].id
  {
    seq(|agents|, i requires 0 <= i < |agents| => agents[i].id)
  }

  /** What a configuration that passed validation satisfies. */
  predicate Valid(c: BenchmarkConfig) {
    && ExactlyOnePrompt(c.prompt)
    && SettingsInRange(c.settings)
    && |c.agents| > 0
    && Distinct(AgentIds(c.agents))
  }

  /** The prompt validator: missing both sources is reported before having both. */
  function PromptErrors(p: PromptConfig): (errs: seq<string>)
    ensures errs == [] <==> ExactlyOnePrompt(p)
    ensures p.file.None? && p.text.None? ==> errs == [NoPromptError]
    ensures p.file.Some? && p.text.Some? ==> errs == [TwoPromptsError]
  {
    if p.file.None? && p.text.None? then [NoPromptError]
    else if p.file.Some? && p.text.Some? then [TwoPromptsError]
    else []
  }

  /** The field constraints on the settings; each violated bound is reported. */
  function SettingsErrors(s: SettingsConfig): (errs: seq<string>)
    ensures errs == [] <==> SettingsInRange(s)
    ensures |errs| <= 2
  {
    (if MinRunsPerAgent <= s.runsPerAgent <= MaxRunsPerAgent then [] else [RunsPerAgentRangeError])
    + (if MinTimeoutMinutes <= s.timeoutMinutes <= MaxTimeoutMinutes then [] else [TimeoutRangeError])
  }

  /** The agent-list validator. Duplicates are detected the way the source does
      it, by comparing the number of distinct ids with the number of agents. */
  function AgentErrors(agents: seq<AgentConfig>): (errs: seq<string>)
    ensures errs == [] <==> |agents| > 0 && Distinct(AgentIds(agents))
    ensures |agents| == 0 ==> errs == [NoAgentsError]
    ensures |agents| > 0 && !Distinct(AgentIds(agents)) ==> errs == [DuplicateAgentsError]
  {
    var ids := AgentIds(agents);
    SetCardinality(ids);
    if |agents| == 0 then [NoAgentsError]
    else if |ToSet(ids)| != |ids| then [DuplicateAgentsError]
    else []
  }

  /** Validation of a whole configuration. The nested models are validated
      first; the agent check runs only on a configuration whose fields passed. */
  function Validate(c: BenchmarkConfig): (errs: seq<string>)
    ensures errs == [] <==> Valid(c)
    ensures ExactlyOnePrompt(c.prompt) && SettingsInRange(c.settings) ==> errs == AgentErrors(c.agents)
  {
    var fieldErrors := PromptErrors(c.prompt) + SettingsErrors(c.settings);
    if fieldErrors != [] then fieldErrors else AgentErrors(c.agents)
  }

  /** What the runner may assume of a valid configuration: every run gets a
      timeout between one minute and three hours, and each agent contributes
      between one and ten runs. */
  lemma ValidBounds(c: BenchmarkConfig)
    requires Valid(c)
    ensures 60 <= c.settings.timeoutMinutes * 60 <= 10800
    ensures |c.agents| <= |c.agents| * c.settings.runsPerAgent <= MaxRunsPerAgent * |c.agents|
  {
    var a := |c.agents|;
    var r := c.settings.runsPerAgent;
    assert a * r <= a * 10 by {
      assert a * (10 - r) >= 0;
    }
    assert a * r >= a * 1 by {
      assert a * (r - 1) >= 0;
    }
  }

  /** The defaults pass the settings validator. */
  lemma DefaultSettingsValid()
    ensures SettingsErrors(DefaultSettings) == []
    ensures DefaultSettings.parallel
  {
  }
}

=== FILE: container.dfy ===
/** The container manager of the execution backend: how a run configuration
    becomes a container request, how the outcome of the container is turned
    into a run result, and the registry of live containers.

    Docker is not modelled. Its answers are inputs: whether the image is
    there or can be built, whether the container starts, the output chunks it
    produces and how waiting for it ends. */
module Container {
  import opened Util
  import opened Activity

  const ImageName: string := "agent-benchmark-opencode"
  const MemLimit: string := "4g"
  const WorkspaceBind: string := "/workspace"
  /** Where the agent's credentials live, below the user's home directory. */
  const AuthFile: string := "/.local/share/opencode/auth.json"
  const AuthBind: string := "/root/.local/share/opencode/auth.json"

  /** What one container run needs. Paths are strings. */
  datatype ContainerConfig = ContainerConfig(
    runId: string,
    repoUrl: string,
    repoCommit: Option<string>,
    promptFile: Option<string>,
    promptText: Option<string>,
    model: Option<string>,
    extraArgs: seq<string>,
    timeoutSeconds: int,
    workspacePath: string)

  /** What one container run produced. */
  datatype ContainerResult = ContainerResult(
    runId: string,
    exitCode: int,
    logs: string,
    workspacePath: string,
    error: Option<string>)

  /** A bind mount: the path inside the container and its mode. */
  datatype Mount = Mount(bind: string, mode: string)

  /** The request handed to Docker to start a detached container. */
  datatype Request = Request(
    image: string,
    env: map<string, string>,
    volumes: map<string, Mount>,
    memLimit: string)

  // ---------------------------------------------------------------------------
  // The container request

  /** Python truthiness of a `str | None` field: present and non-empty. */
  predicate Given(o: Option<string>) {
    o.Some? && |o.value| > 0
  }

  /** The variables the entrypoint of the image reads. */
  const EnvKeys: set<string> := {
    "RUN_ID", "REPO_URL", "REPO_COMMIT", "PROMPT_FILE", "PROMPT_TEXT",
    "OPENCODE_MODEL", "OPENCODE_EXTRA_ARGS"
  }

  /** Sets `key` when the optional field is given. */
  function SetIfGiven(env: map<string, string>, key: string, o: Option<string>): map<string, string> {
    if Given(o) then env[key := o.value] else env
  }

  /** The environment of the container: the run id and repository always,
      every optional field only when it is given, the extra arguments joined
      by spaces only when there are some. */
  function BuildEnv(c: ContainerConfig): (env: map<string, string>)
    ensures "RUN_ID" in env && env["RUN_ID"] == c.runId
    ensures "REPO_URL" in env && env["REPO_URL"] == c.repoUrl
    ensures "REPO_COMMIT" in env <==> Given(c.repoCommit)
    ensures "PROMPT_FILE" in env <==> Given(c.promptFile)
    ensures "PROMPT_TEXT" in env <==> Given(c.promptText)
    ensures "OPENCODE_MODEL" in env <==> Given(c.model)
    ensures "OPENCODE_EXTRA_ARGS" in env <==> |c.extraArgs| > 0
    ensures |c.extraArgs| > 0 ==> env["OPENCODE_EXTRA_ARGS"] == Join(" ", c.extraArgs)
    ensures env.Keys <= EnvKeys
  {
    var base := map["RUN_ID" := c.runId, "REPO_URL" := c.repoUrl];
    var withCommit := SetIfGiven(base, "REPO_COMMIT", c.repoCommit);
    var withFile := SetIfGiven(withCommit, "PROMPT_FILE", c.promptFile);
    var withText := SetIfGiven(withFile, "PROMPT_TEXT", c.promptText);
    var withModel := SetIfGiven(withText, "OPENCODE_MODEL", c.model);
    if |c.extraArgs| > 0 then withModel["OPENCODE_EXTRA_ARGS" := Join(" ", c.extraArgs)] else withModel
  }

  /** How the entrypoint reads an optional variable back. */
  function ReadVar(env: map<string, string>, key: string): Option<string> {
    if key in env then Some(env[key]) else None
  }

  /** An optional field as the entrypoint can see it: an empty string is as
      good as no value. */
  function Normalize(o: Option<string>): Option<string> {
    if Given(o) then o else None
  }

  /** The entrypoint recovers every field of the configuration from the
      environment, up to empty strings standing for absent values. */
  lemma EnvRoundTrip(c: ContainerConfig)
    ensures ReadVar(BuildEnv(c), "RUN_ID") == Some(c.runId)
    ensures ReadVar(BuildEnv(c), "REPO_URL") == Some(c.repoUrl)
    ensures ReadVar(BuildEnv(c), "REPO_COMMIT") == Normalize(c.repoCommit)
    ensures ReadVar(BuildEnv(c), "PROMPT_FILE") == Normalize(c.promptFile)
    ensures ReadVar(BuildEnv(c), "PROMPT_TEXT") == Normalize(c.promptText)
    ensures ReadVar(BuildEnv(c), "OPENCODE_MODEL") == Normalize(c.model)
  {
    var env := BuildEnv(c);
    var base := map["RUN_ID" := c.runId, "REPO_URL" := c.repoUrl];
    var e1 := SetIfGiven(base, "REPO_COMMIT", c.repoCommit);
    var e2 := SetIfGiven(e1, "PROMPT_FILE", c.promptFile);
    var e3 := SetIfGiven(e2, "PROMPT_TEXT", c.promptText);
    var e4 := SetIfGiven(e3, "OPENCODE_MODEL", c.model);
    assert e4.Keys <= env.Keys && forall k :: k in e4 ==> env[k] == e4[k];
  }

  /** The credentials file for a home directory. */
  function AuthPath(home: string): string {
    home + AuthFile
  }

  /** The bind mounts: the workspace read-write, and the credentials file
      read-only when it exists. Both are keyed by host path, so the second
      entry would replace the first if the two paths coincided. */
  function BuildVolumes(workspace: string, home: string, authExists: bool): (vols: map<string, Mount>)
    ensures workspace in vols
    ensures !authExists ==> vols == map[workspace := Mount(WorkspaceBind, "rw")]
    ensures authExists ==> AuthPath(home) in vols && vols[AuthPath(home)] == Mount(AuthBind, "ro")
    ensures authExists && workspace != AuthPath(home) ==> vols[workspace] == Mount(WorkspaceBind, "rw")
    ensures vols.Keys <= {workspace, AuthPath(home)}
  {
    var vols := map[workspace := Mount(WorkspaceBind, "rw")];
    if authExists then vols[AuthPath(home) := Mount(AuthBind, "ro")] else vols
  }

  /** The request `run` sends for a configuration. */
  function BuildRequest(c: ContainerConfig, home: string, authExists: bool): Request {
    Request(ImageName, BuildEnv(c), BuildVolumes(c.workspacePath, home, authExists), MemLimit)
  }

  // ---------------------------------------------------------------------------
  // The backend state and Docker's answers

  /** The manager's state: whether the image is known to exist, and the live
      containers by run id (a container is identified by a number). */
  datatype Backend = Backend(imageBuilt: bool, containers: map<string, nat>)

  const InitialBackend: Backend := Backend(false, map[])

  /** How looking up the image ends when it is not yet known to exist: it is
      present, it is missing and the build succeeds, or one of the calls raises. */
  datatype ImageStep = ImagePresent | ImageBuilt | ImageFails(e: Exc)

  /** How waiting for a container that has exited ends: with the wait
      response's status code (absent when the response has no `StatusCode`),
      or by raising (a lost connection). */
  datatype WaitStep = Exited(statusCode: Option<int>) | WaitFails(e: Exc)

  /** How long the container runs against the run's timeout: it exits in
      time, or it is still running when the timeout expires, having written
      its first `written` chunks by then, and a wait pending at that moment
      raises the timeout `e`. */
  datatype Deadline = InTime | Overruns(written: nat, e: Exc)

  /** How starting the container ends: it raises; or it starts under a
      handle and every chunk of its output decodes, so the whole output read
      at once is their concatenation; or it starts, and reading its output
      chunk by chunk raises after the decoded chunks `before` (the log stream
      breaks, or a chunk is not UTF-8 on its own), while reading the whole
      output at once ends as `whole` (a character split across two chunks
      decodes there). `wait` is how a wait ends once the container has exited:
      every started container is taken to exit at some point. */
  datatype Launch =
    | LaunchFails(e: Exc)
    | Started(handle: nat, chunks: seq<string>, deadline: Deadline, wait: WaitStep)
    | StreamFails(handle: nat, before: seq<string>, e: Exc, whole: Result<string>, deadline: Deadline, wait: WaitStep)

  /** The activity callback: none, or one that accepts every call, or one
      that raises on every call. */
  datatype Subscriber = NoSubscriber | Subscriber(raises: Option<Exc>)

  predicate Raising(sub: Subscriber) {
    sub.Subscriber? && sub.raises.Some?
  }

  /** `ensure_image`: a no-op once the image is known; otherwise the lookup
      or the build either marks it known or raises, leaving the state as it was. */
  function EnsureImage(b: Backend, step: ImageStep): (r: Result<Backend>)
    ensures r.Ok? <==> b.imageBuilt || !step.ImageFails?
    ensures r.Ok? ==> r.value == b.(imageBuilt := true)
    ensures r.Err? ==> r.error == step.e
  {
    if b.imageBuilt then Ok(b)
    else match step
      case ImageFails(e) => Err(e)
      case _ => Ok(b.(imageBuilt := true))
  }

  /** Once the image is known, no later call does anything. */
  lemma EnsureImageIdempotent(b: Backend, step: ImageStep, later: ImageStep)
    requires EnsureImage(b, step).Ok?
    ensures EnsureImage(EnsureImage(b, step).value, later) == EnsureImage(b, step)
  {
  }

  // ---------------------------------------------------------------------------
  // Classification of the outcome

  /** The result for a run whose container call raised: exit code 1, the
      exception's text as the error, and as logs the container's stderr when
      Docker reported a failed container, nothing otherwise. */
  function Fault(c: ContainerConfig, e: Exc): (r: ContainerResult)
    ensures r.runId == c.runId && r.workspacePath == c.workspacePath
    ensures r.exitCode == 1 && r.error == Some(Describe(e))
    ensures e.ContainerError? ==> r.logs == e.stderr.GetOr("")
    ensures !e.ContainerError? ==> r.logs == ""
  {
    var logs := if e.ContainerError? then e.stderr.GetOr("") else "";
    ContainerResult(c.runId, 1, logs, c.workspacePath, Some(Describe(e)))
  }

  /** The result for a container whose wait returned: its status code, 1 when
      the response carries none, the output read as logs and no error. */
  function Finished(c: ContainerConfig, status: Option<int>, logs: string): (r: ContainerResult)
    ensures r.runId == c.runId && r.workspacePath == c.workspacePath
    ensures r.error.None? && r.logs == logs
    ensures status.Some? ==> r.exitCode == status.value
    ensures status.None? ==> r.exitCode == 1
  {
    ContainerResult(c.runId, status.GetOr(1), logs, c.workspacePath, None)
  }

  /** How a wait issued right after the start ends, as it is without a
      callback: a container that outlives the timeout makes it raise. */
  function EarlyWait(deadline: Deadline, wait: WaitStep): (w: WaitStep)
    ensures deadline.InTime? ==> w == wait
    ensures deadline.Overruns? ==> w == WaitFails(deadline.e)
  {
    match deadline
    case InTime => wait
    case Overruns(_, e) => WaitFails(e)
  }

  /** The wait `run` sees. With a callback the log stream follows the
      container until it exits, so the wait comes after the exit and the
      timeout never fires; without one the wait comes first. */
  function WaitSeen(sub: Subscriber, deadline: Deadline, wait: WaitStep): WaitStep {
    if sub.Subscriber? then wait else EarlyWait(deadline, wait)
  }

  /** The result once the wait has ended and the output `logs` has been read. */
  function Waited(c: ContainerConfig, w: WaitStep, logs: string): ContainerResult {
    match w
    case Exited(status) => Finished(c, status, logs)
    case WaitFails(e) => Fault(c, e)
  }

  /** Everything one call of `run` did. */
  datatype RunTrace = RunTrace(
    result: Result<ContainerResult>,
    backend: Backend,
    request: Option<Request>,
    delivered: seq<string>)

  /** The activity calls made while streaming: every activity line in order,
      or only the first one when the callback raises on it. */
  function Delivered(sub: Subscriber, chunks: seq<string>): (d: seq<string>)
    ensures sub.NoSubscriber? ==> d == []
    ensures sub.Subscriber? && !Raising(sub) ==> d == ActivityEvents(chunks)
    ensures |d| <= |ActivityEvents(chunks)|
  {
    var events := ActivityEvents(chunks);
    if sub.NoSubscriber? then []
    else if Raising(sub) && |events| > 0 then events[..1]
    else events
  }

  /** The outcome of a started container. With a callback the output is
      streamed until the container exits and every activity line is passed
      on; a raising callback ends the run there. Then the wait ends the run. */
  function Outcome(c: ContainerConfig, sub: Subscriber, chunks: seq<string>, deadline: Deadline, wait: WaitStep): ContainerResult {
    if Raising(sub) && |ActivityEvents(chunks)| > 0 then Fault(c, sub.raises.value)
    else Waited(c, WaitSeen(sub, deadline, wait), Concat(chunks))
  }

  /** The outcome of a started container whose output cannot be read chunk
      by chunk. With a callback the readable chunks are streamed first (a
      raising callback ends the run at its first activity) and the read
      failure ends the run; without one the wait comes first, then the whole
      output is read at once. */
  function BrokenOutcome(c: ContainerConfig, sub: Subscriber, before: seq<string>, e: Exc, whole: Result<string>,
                         deadline: Deadline, wait: WaitStep): ContainerResult {
    if sub.Subscriber? then
      if Raising(sub) && |ActivityEvents(before)| > 0 then Fault(c, sub.raises.value) else Fault(c, e)
    else match EarlyWait(deadline, wait)
      case WaitFails(we) => Fault(c, we)
      case Exited(status) =>
        match whole
        case Ok(text) => Finished(c, status, text)
        case Err(re) => Fault(c, re)
  }

  /** `ContainerManager.run`. The image check sits before the `try`, so its
      failure is the only way the call raises; then the container is started
      and registered, its outcome classified, and the `finally` clause drops
      the run's registry entry whether or not the removal itself succeeded. */
  function Run(b: Backend, image: ImageStep, c: ContainerConfig, home: string, authExists: bool,
               sub: Subscriber, launch: Launch): (t: RunTrace)
    ensures t.result.Err? <==> !b.imageBuilt && image.ImageFails?
    ensures t.result.Err? ==> t.backend == b && t.request.None? && t.delivered == []
    ensures t.result.Ok? ==> t.backend == Backend(true, b.containers - {c.runId})
    ensures t.result.Ok? ==> t.request == Some(BuildRequest(c, home, authExists))
    ensures t.result.Ok? ==> t.result.value.runId == c.runId && t.result.value.workspacePath == c.workspacePath
  {
    match EnsureImage(b, image)
    case Err(e) => RunTrace(Err(e), b, None, [])
    case Ok(ready) =>
      var req := BuildRequest(c, home, authExists);
      match launch
      case LaunchFails(e) =>
        RunTrace(Ok(Fault(c, e)), ready.(containers := ready.containers - {c.runId}), Some(req), [])
      case Started(handle, chunks, deadline, wait) =>
        var live := ready.containers[c.runId := handle];
        RunTrace(Ok(Outcome(c, sub, chunks, deadline, wait)), ready.(containers := live - {c.runId}),
                 Some(req), Delivered(sub, chunks))
      case StreamFails(handle, before, e, whole, deadline, wait) =>
        var live := ready.containers[c.runId := handle];
        RunTrace(Ok(BrokenOutcome(c, sub, before, e, whole, deadline, wait)), ready.(containers := live - {c.runId}),
                 Some(req), Delivered(sub, before))
  }

  /** After `run` returns, every other run's registry entry is untouched. */
  lemma RunKeepsOtherContainers(b: Backend, image: ImageStep, c: ContainerConfig, home: string,
                                authExists: bool, sub: Subscriber, launch: Launch, other: string)
    requires other != c.runId && other in b.containers
    ensures var t := Run(b, image, c, home, authExists, sub, launch);
      other in t.backend.containers && t.backend.containers[other] == b.containers[other]
  {
  }

  /** A run's error is set exactly when a container call raised, the output
      could not be read, or a raising callback met an activity line, and then
      the exit code is 1; a run without error reports the status code of the
      wait it saw and the output it read. */
  lemma RunClassification(b: Backend, image: ImageStep, c: ContainerConfig, home: string,
                          authExists: bool, sub: Subscriber, launch: Launch)
    requires Run(b, image, c, home, authExists, sub, launch).result.Ok?
    ensures var r := Run(b, image, c, home, authExists, sub, launch).result.value;
      && (r.error.None? <==>
            || (&& launch.Started? && WaitSeen(sub, launch.deadline, launch.wait).Exited?
                && !(Raising(sub) && |ActivityEvents(launch.chunks)| > 0))
            || (&& launch.StreamFails? && sub.NoSubscriber? && launch.deadline.InTime?
                && launch.wait.Exited? && launch.whole.Ok?))
      && (r.error.Some? ==> r.exitCode == 1)
      && (r.error.None? && launch.Started? ==>
            && r.exitCode == WaitSeen(sub, launch.deadline, launch.wait).statusCode.GetOr(1)
            && r.logs == Concat(launch.chunks))
      && (r.error.None? && launch.StreamFails? ==>
            r.exitCode == launch.wait.statusCode.GetOr(1) && r.logs == launch.whole.value)
  {
  }

  /** For a container that exits in time and whose output decodes chunk by
      chunk, a callback that never raises changes nothing about the result,
      compared with no callback. Whatever the container does, the registry
      ends up the same and `run` raises in both or in neither. */
  lemma QuietSubscriberTransparent(b: Backend, image: ImageStep, c: ContainerConfig, home: string,
                                   authExists: bool, sub: Subscriber, launch: Launch)
    requires !Raising(sub)
    ensures launch.Started? && launch.deadline.InTime? ==>
              Run(b, image, c, home, authExists, sub, launch).result
              == Run(b, image, c, home, authExists, NoSubscriber, launch).result
    ensures Run(b, image, c, home, authExists, sub, launch).result.Ok?
         == Run(b, image, c, home, authExists, NoSubscriber, launch).result.Ok?
    ensures Run(b, image, c, home, authExists, sub, launch).backend
         == Run(b, image, c, home, authExists, NoSubscriber, launch).backend
  {
  }

  /** As written, the timeout holds only without a callback. A container
      that outlives it and then exits is a timeout failure when nobody
      streams; with a callback that never raises, the log stream has already
      followed the container to its exit, so the run returns the status code
      and the whole output. */
  lemma CallbackSkipsTimeout(b: Backend, image: ImageStep, c: ContainerConfig, home: string,
                             authExists: bool, handle: nat, chunks: seq<string>, written: nat,
                             e: Exc, status: Option<int>)
    requires b.imageBuilt || !image.ImageFails?
    ensures var launch := Started(handle, chunks, Overruns(written, e), Exited(status));
      && Run(b, image, c, home, authExists, Subscriber(None), launch).result == Ok(Finished(c, status, Concat(chunks)))
      && Run(b, image, c, home, authExists, NoSubscriber, launch).result == Ok(Fault(c, e))
  {
  }

  /** As written, output that decodes as a whole but not chunk by chunk (a
      character split across two chunks) fails a streamed run with the
      decoding error, while the same container run without a callback
      succeeds with the whole output. */
  lemma SplitCharacterFailsStream(b: Backend, image: ImageStep, c: ContainerConfig, home: string,
                                  authExists: bool, handle: nat, before: seq<string>, e: Exc,
                                  text: string, status: Option<int>)
    requires b.imageBuilt || !image.ImageFails?
    ensures var launch := StreamFails(handle, before, e, Ok(text), InTime, Exited(status));
      && Run(b, image, c, home, authExists, Subscriber(None), launch).result == Ok(Fault(c, e))
      && Run(b, image, c, home, authExists, NoSubscriber, launch).result == Ok(Finished(c, status, text))
  {
  }

  /** Output that cannot be read chunk by chunk fails a streamed run with
      exit code 1 and the read's exception, after the activities before the
      failure have been passed on, unless a raising callback met one of them
      first. Without a callback the wait comes first: a timeout or a failed
      wait ends the run, and otherwise the output read at once decides. */
  lemma BrokenStreamFailsRun(b: Backend, image: ImageStep, c: ContainerConfig, home: string,
                             authExists: bool, sub: Subscriber, handle: nat, before: seq<string>,
                             e: Exc, whole: Result<string>, deadline: Deadline, wait: WaitStep)
    requires b.imageBuilt || !image.ImageFails?
    ensures var t := Run(b, image, c, home, authExists, sub, StreamFails(handle, before, e, whole, deadline, wait));
      && t.result.Ok?
      && t.backend == Backend(true, b.containers - {c.runId})
      && t.delivered == Delivered(sub, before)
      && (sub.Subscriber? ==> t.result.value.exitCode == 1)
      && (sub.Subscriber? && !(Raising(sub) && |ActivityEvents(before)| > 0) ==> t.result.value == Fault(c, e))
      && (Raising(sub) && |ActivityEvents(before)| > 0 ==> t.result.value == Fault(c, sub.raises.value))
      && (sub.NoSubscriber? && deadline.Overruns? ==> t.result.value == Fault(c, deadline.e))
      && (sub.NoSubscriber? && deadline.InTime? && wait.WaitFails? ==> t.result.value == Fault(c, wait.e))
      && (sub.NoSubscriber? && deadline.InTime? && wait.Exited? && whole.Err? ==> t.result.value == Fault(c, whole.error))
      && (sub.NoSubscriber? && deadline.InTime? && wait.Exited? && whole.Ok? ==>
            t.result.value == Finished(c, wait.statusCode, whole.value))
  {
  }

  /** A callback that raises turns any run whose output contains an activity
      line into a failure carrying the callback's exception, whatever the
      container's exit status. */
  lemma RaisingSubscriberFailsRun(b: Backend, image: ImageStep, c: ContainerConfig, home: string,
                                  authExists: bool, e: Exc, handle: nat, chunks: seq<string>,
                                  deadline: Deadline, wait: WaitStep)
    requires b.imageBuilt || !image.ImageFails?
    requires |ActivityEvents(chunks)| > 0
    ensures var r := Run(b, image, c, home, authExists, Subscriber(Some(e)), Started(handle, chunks, deadline, wait)).result;
      r.Ok? && r.value.exitCode == 1 && r.value.error == Some(Describe(e))
  {
    RaisingOutcome(c, e, chunks, deadline, wait);
  }

  /** Output with a tool-call line in any chunk has an activity to deliver. */
  lemma HasActivity(chunks: seq<string>, k: nat)
    requires k < |chunks| && ParseActivityLine(chunks[k]).Some?
    ensures |ActivityEvents(chunks)| > 0
  {
    ActivityEventsExact(chunks, ParseActivityLine(chunks[k]).value);
  }

  lemma RaisingOutcome(c: ContainerConfig, e: Exc, chunks: seq<string>, deadline: Deadline, wait: WaitStep)
    requires |ActivityEvents(chunks)| > 0
    ensures Outcome(c, Subscriber(Some(e)), chunks, deadline, wait) == Fault(c, e)
  {
  }

  // ---------------------------------------------------------------------------
  // The timeout enforced

  /** The chunks written before the timeout expires: all of them for a
      container that exits in time. */
  function BeforeDeadline(chunks: seq<string>, deadline: Deadline): (s: seq<string>)
    ensures s <= chunks
    ensures deadline.InTime? ==> s == chunks
    ensures deadline.Overruns? ==> |s| == if deadline.written < |chunks| then deadline.written else |chunks|
  {
    match deadline
    case InTime => chunks
    case Overruns(n, _) => if n < |chunks| then chunks[..n] else chunks
  }

  /** The evidently intended outcome of a started container: the stream is
      read only until the timeout expires, so an overrunning container is a
      timeout failure with or without a callback, unless a raising callback
      met an activity line before that. A container that exits in time is
      unaffected. */
  function DeadlineOutcome(c: ContainerConfig, sub: Subscriber, chunks: seq<string>, deadline: Deadline,
                           wait: WaitStep): (r: ContainerResult)
    ensures Raising(sub) && |ActivityEvents(BeforeDeadline(chunks, deadline))| > 0 ==> r == Fault(c, sub.raises.value)
    ensures deadline.Overruns? && !(Raising(sub) && |ActivityEvents(BeforeDeadline(chunks, deadline))| > 0) ==>
              r == Fault(c, deadline.e)
    ensures deadline.InTime? ==> r == Outcome(c, sub, chunks, deadline, wait)
  {
    if Raising(sub) && |ActivityEvents(BeforeDeadline(chunks, deadline))| > 0 then Fault(c, sub.raises.value)
    else Waited(c, EarlyWait(deadline, wait), Concat(chunks))
  }

  /** With the timeout enforced, a callback that never raises leaves the
      result of every started container as it is without a callback, in time
      or not. */
  lemma DeadlineTransparent(c: ContainerConfig, sub: Subscriber, chunks: seq<string>, deadline: Deadline, wait: WaitStep)
    requires !Raising(sub)
    ensures DeadlineOutcome(c, sub, chunks, deadline, wait) == Outcome(c, NoSubscriber, chunks, deadline, wait)
  {
  }

  // ---------------------------------------------------------------------------
  // Cleanup

  /** Appending an element not yet present keeps a list duplicate-free. */
  lemma AppendFresh<T>(s: seq<T>, x: T)
    requires Distinct(s) && x !in ToSet(s)
    ensures Distinct(s + [x]) && ToSet(s + [x]) == ToSet(s) + {x}
  {
  }

  /** `ContainerManager.cleanup`: every registered container is removed (a
      failed removal is only logged) and its entry dropped. Returns the run
      ids in the order they were handled. */
  method Cleanup(b: Backend) returns (after: Backend, handled: seq<string>)
    ensures after == b.(containers := map[])
    ensures Distinct(handled) && ToSet(handled) == b.containers.Keys
  {
    var remaining := b.containers;
    handled := [];
    while remaining != map[]
      invariant remaining.Keys <= b.containers.Keys
      invariant ToSet(handled) !! remaining.Keys
      invariant ToSet(handled) + remaining.Keys == b.containers.Keys
      invariant Distinct(handled)
      decreases |remaining|
    {
      var id :| id in remaining;
      AppendFresh(handled, id);
      remaining := remaining - {id};
      handled := handled + [id];
    }
    after := b.(containers := map[]);
  }
}

=== FILE: diffstat.dfy ===
/** The parser of `git diff --stat` output. Only the summary line, the last
    line of the stripped output, is read; the leftmost match of the pattern
    `(\d+) files? changed(, (\d+) insertions?\(\+\))?(, (\d+) deletions?\(-\))?`
    in it gives the three counts, and an absent clause counts 0. */
module DiffStat {
  import opened Util

  datatype GitDiffStats = GitDiffStats(filesChanged: int, insertions: int, deletions: int)

  const NoStats: GitDiffStats := GitDiffStats(0, 0, 0)

  /** A text without a newline character. */
  predicate OneLine(s: string) {
    forall i :: 0 <= i < |s| ==> s[i] != '\n'
  }

  /** `s.split("\n")[-1]`: the text after the last newline. */
  function LastLine(s: string): (r: string)
    ensures |r| <= |s|
    decreases |s|
  {
    if |s| == 0 || s[|s| - 1] == '\n' then ""
    else LastLine(s[..|s| - 1]) + [s[|s| - 1]]
  }

  /** The last line is a suffix without a newline, preceded by a newline
      unless it is the whole text. */
  lemma {:induction false} LastLineIsSuffix(s: string)
    ensures var r := LastLine(s);
      && r == s[|s| - |r|..]
      && OneLine(r)
      && (|r| == |s| || s[|s| - |r| - 1] == '\n')
    decreases |s|
  {
    if |s| > 0 && s[|s| - 1] != '\n' {
      var init := s[..|s| - 1];
      LastLineIsSuffix(init);
      var r0 := LastLine(init);
      var r := r0 + [s[|s| - 1]];
      assert LastLine(s) == r;
      var m := |s| - |r|;
      assert r0 == init[m..];
      assert r == s[m..] by {
        assert init[m..] + [s[|s| - 1]] == s[m..];
      }
      assert OneLine(r) by {
        assert forall i :: 0 <= i < |r0| ==> r[i] == r0[i];
      }
      if m > 0 {
        assert s[m - 1] == init[m - 1];
      }
    }
  }

  // ---------------------------------------------------------------------------
  // The pattern, piece by piece. Each matcher answers the value of its digit
  // group and the length of the text it consumes at the start of its input.

  /** A match of a count and its noun: the digits of the count and the
      length of the text matched. */
  datatype Hit = Hit(digits: string, length: nat)

  /** `int()` of a matched group, or 0 for an optional group that did not
      take part in the match. */
  function CountOf(h: Option<Hit>): nat
    requires h.Some? ==> AllDigits(h.value.digits)
  {
    if h.Some? then DigitsValue(h.value.digits) else 0
  }

  const FilesPlural: string := " files changed"
  const FilesSingle: string := " file changed"
  const InsPlural: string := " insertions(+)"
  const InsSingle: string := " insertion(+)"
  const DelPlural: string := " deletions(-)"
  const DelSingle: string := " deletion(-)"

  /** The noun after a count, `s?` included: the plural is tried first, as
      the regular expression's greedy `s?` does. Answers the length matched. */
  function Noun(rest: string, plural: string, single: string): (n: Option<nat>)
    ensures n.Some? ==> n.value <= |rest|
  {
    if StartsWith(rest, plural) then Some(|plural|)
    else if StartsWith(rest, single) then Some(|single|)
    else None
  }

  /** A count at the start of `s` followed by its noun. The digit run is
      taken whole, since the noun starts with a space. */
  function CountAt(s: string, plural: string, single: string): (h: Option<Hit>)
    ensures h.Some? ==> h.value.length <= |s| && AllDigits(h.value.digits)
  {
    var k := DigitRun(s);
    if k == 0 then None
    else match Noun(s[k..], plural, single)
      case None => None
      case Some(n) => Some(Hit(s[..k], k + n))
  }

  /** `(\d+) files? changed` at the start of `s`. */
  function FilesAt(s: string): (h: Option<Hit>)
    ensures h.Some? ==> h.value.length <= |s| && AllDigits(h.value.digits)
  {
    CountAt(s, FilesPlural, FilesSingle)
  }

  /** `, (\d+) <noun>` at the start of `s`, for the insertion and the
      deletion clause. */
  function ClauseAt(s: string, plural: string, single: string): (h: Option<Hit>)
    ensures h.Some? ==> h.value.length <= |s| && AllDigits(h.value.digits)
  {
    if !StartsWith(s, ", ") then None
    else match CountAt(s[2..], plural, single)
      case None => None
      case Some(h) => Some(Hit(h.digits, 2 + h.length))
  }

  /** The counts read from one line: the optional clauses are tried in order
      right after the files clause; a clause that does not match counts 0. */
  function ParseSummaryLine(line: string): (r: GitDiffStats)
    ensures FirstMatch(line, 0, FilesAt).None? ==> r == NoStats
  {
    match FirstMatch(line, 0, FilesAt)
    case None => NoStats
    case Some(i) => ReadFrom(line, i, FilesAt)
  }

  /** The counts of the files clause the matcher `m` finds at position `i`
      of `line` and of the clauses after it. */
  function ReadFrom(line: string, i: nat, m: string -> Option<Hit>): GitDiffStats
    requires i <= |line| && m(line[i..]).Some?
    requires AllDigits(m(line[i..]).value.digits) && i + m(line[i..]).value.length <= |line|
  {
    var files := m(line[i..]).value;
    ReadClauses(files, line[i + files.length..])
  }

  /** The counts of a files clause `files` followed by the text `rest`. */
  function ReadClauses(files: Hit, rest: string): GitDiffStats
    requires AllDigits(files.digits)
  {
    var ins := ClauseAt(rest, InsPlural, InsSingle);
    var rest2 := if ins.Some? then rest[ins.value.length..] else rest;
    var del := ClauseAt(rest2, DelPlural, DelSingle);
    GitDiffStats(DigitsValue(files.digits), CountOf(ins), CountOf(del))
  }

  /** `parse_diff_stat`: the summary line is the last line of the stripped
      output. */
  function ParseDiffStat(output: string): (r: GitDiffStats)
    ensures r.filesChanged >= 0 && r.insertions >= 0 && r.deletions >= 0
  {
    ParseSummaryLine(LastLine(Strip(output)))
  }

  // ---------------------------------------------------------------------------
  // The summary line git prints, and reading it back

  /** The noun git prints after a count: singular for exactly one. */
  function NounFor(n: nat, plural: string, single: string): string {
    if n == 1 then single else plural
  }

  function FilesClause(f: nat): string {
    NatToString(f) + NounFor(f, FilesPlural, FilesSingle)
  }

  function OptClause(n: Option<nat>, plural: string, single: string): string {
    match n
    case None => ""
    case Some(v) => ", " + (NatToString(v) + NounFor(v, plural, single))
  }

  /** A summary line: the files count, then the insertion and deletion
      clauses when present, each with its singular or plural noun. */
  function SummaryLine(f: nat, ins: Option<nat>, del: Option<nat>): string {
    " " + (FilesClause(f) + (OptClause(ins, InsPlural, InsSingle) + OptClause(del, DelPlural, DelSingle)))
  }

  lemma PrefixStartsWith(a: string, b: string)
    ensures StartsWith(a + b, a)
  {
    assert (a + b)[..|a|] == a;
  }

  /** A text that differs from `p` at position `j` does not start with `p`. */
  lemma DiffersAt(s: string, p: string, j: nat)
    requires j < |s| && j < |p| && s[j] != p[j]
    ensures !StartsWith(s, p)
  {
    if |p| <= |s| {
      assert s[..|p|][j] != p[j];
    }
  }

  /** Either noun is matched whole; the singular needs a position where it
      differs from the plural, which is tried first. */
  predicate NounChoice(noun: string, plural: string, single: string, j: nat) {
    && |noun| > 0 && noun[0] == ' '
    && (noun == plural || (noun == single && j < |single| && j < |plural| && single[j] != plural[j]))
  }

  lemma NounAt(noun: string, plural: string, single: string, tail: string, j: nat)
    requires NounChoice(noun, plural, single, j)
    ensures Noun(noun + tail, plural, single) == Some(|noun|)
  {
    PrefixStartsWith(noun, tail);
    if noun != plural {
      DiffersAt(noun + tail, plural, j);
    }
  }

  /** Digits followed by a noun are matched whole, and the value is that of
      the digits. */
  lemma CountAtDigits(d: string, noun: string, plural: string, single: string, tail: string, j: nat)
    requires |d| > 0 && AllDigits(d)
    requires NounChoice(noun, plural, single, j)
    ensures CountAt(d + (noun + tail), plural, single) == Some(Hit(d, |d| + |noun|))
  {
    var s := d + (noun + tail);
    assert DigitRun(s) == |d| && s[..|d|] == d by {
      DigitRunOfDigits(d, noun + tail);
    }
    assert s[|d|..] == noun + tail;
    assert Noun(noun + tail, plural, single) == Some(|noun|) by {
      NounAt(noun, plural, single, tail, j);
    }
  }

  /** A clause `, <digits><noun>` is matched whole. */
  lemma ClauseAtDigits(d: string, noun: string, plural: string, single: string, tail: string, j: nat)
    requires |d| > 0 && AllDigits(d)
    requires NounChoice(noun, plural, single, j)
    ensures ClauseAt(", " + (d + noun) + tail, plural, single) == Some(Hit(d, 2 + |d| + |noun|))
  {
    var body := d + (noun + tail);
    assert ", " + (d + noun) + tail == ", " + body;
    PrefixStartsWith(", ", body);
    assert (", " + body)[2..] == body;
    CountAtDigits(d, noun, plural, single, tail, j);
  }

  /** A deletion clause, or nothing, is not an insertion clause. */
  lemma NoInsertionBeforeDeletion(del: Option<nat>)
    ensures ClauseAt(OptClause(del, DelPlural, DelSingle), InsPlural, InsSingle).None?
  {
    if del.Some? {
      var d := NatToString(del.value);
      var noun := NounFor(del.value, DelPlural, DelSingle);
      assert noun[1] == 'd';
      var body := d + noun;
      assert (", " + body)[2..] == body;
      DigitRunOfDigits(d, noun);
      assert body[|d|..] == noun;
      DiffersAt(noun, InsPlural, 1);
      DiffersAt(noun, InsSingle, 1);
    }
  }

  /** The value read from a printed count is the count. */
  lemma ClauseRoundTrip(v: nat, plural: string, single: string, tail: string, j: nat)
    requires NounChoice(plural, plural, single, j) && NounChoice(single, plural, single, j)
    ensures ClauseAt(OptClause(Some(v), plural, single) + tail, plural, single)
      == Some(Hit(NatToString(v), |OptClause(Some(v), plural, single)|))
  {
    var d := NatToString(v);
    var noun := NounFor(v, plural, single);
    assert NounChoice(noun, plural, single, j);
    assert OptClause(Some(v), plural, single) == ", " + (d + noun);
    ClauseAtDigits(d, noun, plural, single, tail, j);
  }

  /** The files clause is matched whole, with its count. */
  lemma FilesRoundTrip(f: nat, tail: string)
    ensures FilesAt(FilesClause(f) + tail) == Some(Hit(NatToString(f), |FilesClause(f)|))
  {
    var d := NatToString(f);
    var noun := NounFor(f, FilesPlural, FilesSingle);
    assert FilesSingle[5] != FilesPlural[5];
    assert FilesClause(f) + tail == d + (noun + tail);
    CountAtDigits(d, noun, FilesPlural, FilesSingle, tail, 5);
  }

  /** The first match in a summary line is right after its leading space. */
  lemma SummaryMatchesAtOne(f: nat, rest: string)
    ensures FirstMatch(" " + (FilesClause(f) + rest), 0, FilesAt) == Some(1)
  {
    var line := " " + (FilesClause(f) + rest);
    assert line[0..] == line;
    assert DigitRun(line) == 0;
    assert line[1..] == FilesClause(f) + rest;
    FilesRoundTrip(f, rest);
  }

  /** The leftmost match is the one read. */
  lemma ParseAtMatch(line: string, i: nat)
    requires FirstMatch(line, 0, FilesAt) == Some(i)
    ensures ParseSummaryLine(line) == ReadFrom(line, i, FilesAt)
  {
  }

  /** A files clause is read, then the text after it. */
  lemma ReadAfter(line: string, i: nat, m: string -> Option<Hit>, files: Hit, rest: string)
    requires i <= |line| && m(line[i..]) == Some(files) && AllDigits(files.digits)
    requires i + files.length <= |line| && rest == line[i + files.length..]
    ensures ReadFrom(line, i, m) == ReadClauses(files, rest)
  {
  }

  /** The files clause of a summary line is found and read whole; reading
      goes on right after it. */
  lemma SummaryFiles(f: nat, rest: string)
    ensures AllDigits(NatToString(f))
    ensures ParseSummaryLine(" " + (FilesClause(f) + rest)) == ReadClauses(Hit(NatToString(f), |FilesClause(f)|), rest)
  {
    var line := " " + (FilesClause(f) + rest);
    SummaryMatchesAtOne(f, rest);
    assert line[1..] == FilesClause(f) + rest;
    FilesRoundTrip(f, rest);
    assert line[1 + |FilesClause(f)|..] == rest;
    ParseAtMatch(line, 1);
    ReadAfter(line, 1, FilesAt, Hit(NatToString(f), |FilesClause(f)|), rest);
  }

  /** The insertion clause is read when present, and is absent otherwise. */
  lemma SummaryInsertions(ins: Option<nat>, delC: string, del: Option<nat>)
    requires delC == OptClause(del, DelPlural, DelSingle)
    ensures var insC := OptClause(ins, InsPlural, InsSingle);
      ClauseAt(insC + delC, InsPlural, InsSingle)
        == if ins.Some? then Some(Hit(NatToString(ins.value), |insC|)) else None
  {
    var insC := OptClause(ins, InsPlural, InsSingle);
    if ins.Some? {
      assert InsSingle[10] != InsPlural[10];
      ClauseRoundTrip(ins.value, InsPlural, InsSingle, delC, 10);
    } else {
      assert insC + delC == delC;
      NoInsertionBeforeDeletion(del);
    }
  }

  /** The deletion clause is read when present, and is absent otherwise. */
  lemma SummaryDeletions(del: Option<nat>)
    ensures var delC := OptClause(del, DelPlural, DelSingle);
      ClauseAt(delC, DelPlural, DelSingle)
        == if del.Some? then Some(Hit(NatToString(del.value), |delC|)) else None
  {
    if del.Some? {
      var delC := OptClause(del, DelPlural, DelSingle);
      assert DelSingle[9] != DelPlural[9];
      assert delC + "" == delC;
      ClauseRoundTrip(del.value, DelPlural, DelSingle, "", 9);
    }
  }

  /** The value of an optional clause read back is its count, 0 when absent. */
  lemma CountOfClause(n: Option<nat>, h: Option<Hit>, len: nat)
    requires h == if n.Some? then Some(Hit(NatToString(n.value), len)) else None
    ensures h.Some? ==> AllDigits(h.value.digits)
    ensures CountOf(h) == n.GetOr(0)
  {
    if n.Some? {
      DigitsValueOfNatToString(n.value);
    }
  }

  /** The clauses after the files clause of a summary line are read back. */
  lemma SummaryClauses(files: Hit, f: nat, ins: Option<nat>, del: Option<nat>)
    requires AllDigits(files.digits) && DigitsValue(files.digits) == f
    ensures ReadClauses(files, OptClause(ins, InsPlural, InsSingle) + OptClause(del, DelPlural, DelSingle))
         == GitDiffStats(f, ins.GetOr(0), del.GetOr(0))
  {
    var insC := OptClause(ins, InsPlural, InsSingle);
    var delC := OptClause(del, DelPlural, DelSingle);
    var rest := insC + delC;
    var insH := ClauseAt(rest, InsPlural, InsSingle);
    SummaryInsertions(ins, delC, del);
    var rest2 := if insH.Some? then rest[insH.value.length..] else rest;
    assert rest2 == delC;
    SummaryDeletions(del);
    CountOfClause(ins, insH, |insC|);
    CountOfClause(del, ClauseAt(rest2, DelPlural, DelSingle), |delC|);
  }

  /** Reading a summary line gives back its counts, with 0 for an absent clause. */
  lemma SummaryRoundTrip(f: nat, ins: Option<nat>, del: Option<nat>)
    ensures ParseSummaryLine(SummaryLine(f, ins, del)) == GitDiffStats(f, ins.GetOr(0), del.GetOr(0))
  {
    var rest := OptClause(ins, InsPlural, InsSingle) + OptClause(del, DelPlural, DelSingle);
    var line := SummaryLine(f, ins, del);
    var files := Hit(NatToString(f), |FilesClause(f)|);
    assert line == " " + (FilesClause(f) + rest);
    SummaryFiles(f, rest);
    DigitsValueOfNatToString(f);
    SummaryClauses(files, f, ins, del);
  }

  // ---------------------------------------------------------------------------
  // Only the last line counts

  /** Leading whitespace is stripped only up to the first visible character. */
  lemma {:induction false} LStripKeepsTail(a: string, z: string, k: nat)
    requires k < |a| && !IsSpace(a[k])
    ensures LStrip(a + z) == LStrip(a) + z
    decreases |a|
  {
    if IsSpace(a[0]) {
      assert (a + z)[1..] == a[1..] + z;
      LStripKeepsTail(a[1..], z, k - 1);
    }
  }

  /** The summary line is found after any stat lines, whatever they say, as
      long as there is one, and before any trailing whitespace such as git's
      final newline: the parser reads the last line only. */
  lemma ParseDiffStatLastLine(body: string, k: nat, f: nat, ins: Option<nat>, del: Option<nat>, trail: string)
    requires k < |body| && !IsSpace(body[k])
    requires AllSpace(trail)
    ensures ParseDiffStat(body + "\n" + SummaryLine(f, ins, del) + trail) == GitDiffStats(f, ins.GetOr(0), del.GetOr(0))
  {
    var line := SummaryLine(f, ins, del);
    OneLineSummary(f, ins, del);
    LastCharOfSummary(f, ins, del);
    LastLineOfOutput(body, k, line, trail);
    SummaryRoundTrip(f, ins, del);
  }

  /** The line before trailing whitespace is the last line of the stripped
      output, whatever visible text precedes it. */
  lemma LastLineOfOutput(body: string, k: nat, line: string, trail: string)
    requires k < |body| && !IsSpace(body[k])
    requires OneLine(line) && |line| > 0 && !IsSpace(line[|line| - 1])
    requires AllSpace(trail)
    ensures LastLine(Strip(body + "\n" + line + trail)) == line
  {
    StripOutput(body, k, line, trail);
    LastLineAfterNewline(LStrip(body), line);
  }

  /** Stripping the output removes the leading whitespace of the text before
      the line and the trailing whitespace after it. */
  lemma StripOutput(body: string, k: nat, line: string, trail: string)
    requires k < |body| && !IsSpace(body[k])
    requires |line| > 0 && !IsSpace(line[|line| - 1])
    requires AllSpace(trail)
    ensures Strip(body + "\n" + line + trail) == LStrip(body) + ("\n" + line)
  {
    var out := body + "\n" + line + trail;
    var left := LStrip(body) + ("\n" + line);
    assert out == body + ("\n" + line + trail) by {
      ConcatAssoc(body, "\n", line);
      ConcatAssoc(body, "\n" + line, trail);
    }
    LStripKeepsTail(body, "\n" + line + trail, k);
    ConcatAssoc(LStrip(body), "\n" + line, trail);
    RStripPadded(left, trail);
  }

  lemma LastCharOfSummary(f: nat, ins: Option<nat>, del: Option<nat>)
    ensures var line := SummaryLine(f, ins, del); |line| > 0 && !IsSpace(line[|line| - 1])
  {
    var delC := OptClause(del, DelPlural, DelSingle);
    var insC := OptClause(ins, InsPlural, InsSingle);
    var tail := FilesClause(f) + (insC + delC);
    if |delC| > 0 {
      assert tail[|tail| - 1] == delC[|delC| - 1];
    } else if |insC| > 0 {
      assert tail[|tail| - 1] == insC[|insC| - 1];
    } else {
      assert tail[|tail| - 1] == FilesClause(f)[|FilesClause(f)| - 1];
    }
  }

  lemma OneLineConcat(a: string, b: string)
    requires OneLine(a) && OneLine(b)
    ensures OneLine(a + b)
  {
  }

  lemma OneLineClause(n: nat, plural: string, single: string)
    requires OneLine(plural) && OneLine(single)
    ensures OneLine(NatToString(n) + NounFor(n, plural, single))
  {
    OneLineConcat(NatToString(n), NounFor(n, plural, single));
  }

  lemma OneLineSummary(f: nat, ins: Option<nat>, del: Option<nat>)
    ensures OneLine(SummaryLine(f, ins, del))
  {
    var insC := OptClause(ins, InsPlural, InsSingle);
    var delC := OptClause(del, DelPlural, DelSingle);
    assert OneLine(FilesClause(f)) by {
      OneLineClause(f, FilesPlural, FilesSingle);
    }
    assert OneLine(insC) by {
      if ins.Some? {
        OneLineClause(ins.value, InsPlural, InsSingle);
        OneLineConcat(", ", NatToString(ins.value) + NounFor(ins.value, InsPlural, InsSingle));
      }
    }
    assert OneLine(delC) by {
      if del.Some? {
        OneLineClause(del.value, DelPlural, DelSingle);
        OneLineConcat(", ", NatToString(del.value) + NounFor(del.value, DelPlural, DelSingle));
      }
    }
    OneLineConcat(insC, delC);
    OneLineConcat(FilesClause(f), insC + delC);
    OneLineConcat(" ", FilesClause(f) + (insC + delC));
  }

  /** The last line of `x + "\n" + line` is `line` when `line` has no newline. */
  lemma {:induction false} LastLineAfterNewline(x: string, line: string)
    requires OneLine(line)
    ensures LastLine(x + ("\n" + line)) == line
    decreases |line|
  {
    var s := x + ("\n" + line);
    if |line| > 0 {
      var init := line[..|line| - 1];
      assert s[|s| - 1] == line[|line| - 1] != '\n';
      assert LastLine(s) == LastLine(s[..|s| - 1]) + [s[|s| - 1]];
      assert s[..|s| - 1] == x + ("\n" + init);
      LastLineAfterNewline(x, init);
      assert line == init + [line[|line| - 1]];
    } else {
      assert s[|s| - 1] == '\n';
    }
  }
}

=== FILE: display.dfy ===
/** The progress display's state machine: the experiment state it keeps, the
    transitions `start`, `add_run`, `update_run` and `stop`, and the counters
    the panel and the summary show. Rendering is not modelled. */
module Display {
  import opened Util

  datatype RunStatus = Pending | Running | Completed | Failed | Timeout

  /** One run as the display knows it. Durations are whole seconds here. */
  datatype RunState = RunState(
    runId: string,
    agentId: string,
    runNumber: int,
    status: RunStatus,
    duration: int,
    error: Option<string>)

  datatype ExperimentState = ExperimentState(name: string, totalRuns: int, runs: map<string, RunState>)

  /** The display: its experiment state once started, and whether the live
      view is running. */
  datatype Display = Display(state: Option<ExperimentState>, live: bool)

  const NotStarted: Display := Display(None, false)
  const NotStartedError: string := "Display not started"

  /** `start`: a fresh experiment state with no runs, and a live view. */
  function Start(d: Display, name: string, totalRuns: int): (r: Display)
    ensures r.state == Some(ExperimentState(name, totalRuns, map[])) && r.live
  {
    Display(Some(ExperimentState(name, totalRuns, map[])), true)
  }

  /** `add_run`: registers a pending run (replacing any run with the same id),
      or raises when the display has not been started. */
  function AddRun(d: Display, runId: string, agentId: string, runNumber: int): (r: Result<Display>)
    ensures r.Err? <==> d.state.None?
    ensures r.Err? ==> r.error == RuntimeError(NotStartedError)
    ensures r.Ok? ==> r.value.live == d.live && r.value.state.Some?
    ensures r.Ok? ==> var s := d.state.value; var s' := r.value.state.value;
      && s'.name == s.name && s'.totalRuns == s.totalRuns
      && s'.runs.Keys == s.runs.Keys + {runId}
      && s'.runs[runId] == RunState(runId, agentId, runNumber, Pending, 0, None)
      && forall id :: id in s.runs && id != runId ==> s'.runs[id] == s.runs[id]
  {
    match d.state
    case None => Err(RuntimeError(NotStartedError))
    case Some(s) =>
      var run := RunState(runId, agentId, runNumber, Pending, 0, None);
      Ok(d.(state := Some(s.(runs := s.runs[runId := run]))))
  }

  /** `update_run`: sets the status, duration and error of a registered run;
      nothing happens before `start` or for an unknown run id. */
  function UpdateRun(d: Display, runId: string, status: RunStatus, duration: int, error: Option<string>): (r: Display)
    ensures d.state.None? || runId !in d.state.value.runs ==> r == d
    ensures d.state.Some? && runId in d.state.value.runs ==>
      var s := d.state.value;
      && r.live == d.live && r.state.Some?
      && var s' := r.state.value;
      && s'.name == s.name && s'.totalRuns == s.totalRuns
      && s'.runs.Keys == s.runs.Keys
      && s'.runs[runId] == s.runs[runId].(status := status, duration := duration, error := error)
      && forall id :: id in s.runs && id != runId ==> s'.runs[id] == s.runs[id]
  {
    match d.state
    case None => d
    case Some(s) =>
      if runId !in s.runs then d
      else
        var run := s.runs[runId].(status := status, duration := duration, error := error);
        d.(state := Some(s.(runs := s.runs[runId := run])))
  }

  /** `stop`: the live view ends; the state is kept for the summary. */
  function Stop(d: Display): (r: Display)
    ensures r.state == d.state && !r.live
  {
    d.(live := false)
  }

  // ---------------------------------------------------------------------------
  // Counters

  /** The statuses the panel counts as finished: TIMEOUT is not among them. */
  predicate Finished(st: RunStatus) {
    st == Completed || st == Failed
  }

  /** The statuses the summary lists as failed: TIMEOUT is among them. */
  predicate SummaryFailed(st: RunStatus) {
    st == Failed || st == Timeout
  }

  function FinishedIds(s: ExperimentState): set<string> {
    set id | id in s.runs && Finished(s.runs[id].status)
  }

  function SuccessfulIds(s: ExperimentState): set<string> {
    set id | id in s.runs && s.runs[id].status == Completed
  }

  function FailedIds(s: ExperimentState): set<string> {
    set id | id in s.runs && SummaryFailed(s.runs[id].status)
  }

  /** `completed_runs`. */
  function CompletedRuns(s: ExperimentState): nat {
    |FinishedIds(s)|
  }

  /** `successful_runs`. */
  function SuccessfulRuns(s: ExperimentState): nat {
    |SuccessfulIds(s)|
  }

  /** The panel's counters are ordered: successful runs are finished runs,
      and finished runs are registered runs. */
  lemma CounterBounds(s: ExperimentState)
    ensures SuccessfulRuns(s) <= CompletedRuns(s) <= |s.runs|
  {
    SubsetCard(SuccessfulIds(s), FinishedIds(s));
    SubsetCard(FinishedIds(s), s.runs.Keys);
  }

  /** The summary's successful and failed lists are disjoint and together no
      longer than the run map; a run that timed out is a failure for the
      summary but not a finished run for the panel. */
  lemma SummaryPartition(s: ExperimentState)
    ensures SuccessfulIds(s) !! FailedIds(s)
    ensures |SuccessfulIds(s)| + |FailedIds(s)| <= |s.runs|
    ensures forall id :: id in s.runs && s.runs[id].status == Timeout ==> id in FailedIds(s) && id !in FinishedIds(s)
  {
    SubsetCard(SuccessfulIds(s) + FailedIds(s), s.runs.Keys);
  }

  /** Registering a run leaves it unfinished, so the counters can only keep
      or lose the run it replaces. */
  lemma AddRunCounters(d: Display, runId: string, agentId: string, runNumber: int)
    requires d.state.Some?
    ensures var s' := AddRun(d, runId, agentId, runNumber).value.state.value;
      && FinishedIds(s') == FinishedIds(d.state.value) - {runId}
      && SuccessfulIds(s') == SuccessfulIds(d.state.value) - {runId}
  {
  }

  /** Updating a run changes only that run's contribution to the counters:
      it counts as finished exactly when its new status is COMPLETED or
      FAILED, and as successful exactly when it is COMPLETED. */
  lemma UpdateRunCounters(d: Display, runId: string, status: RunStatus, duration: int, error: Option<string>)
    requires d.state.Some? && runId in d.state.value.runs
    ensures var s' := UpdateRun(d, runId, status, duration, error).state.value;
      && FinishedIds(s') - {runId} == FinishedIds(d.state.value) - {runId}
      && (runId in FinishedIds(s') <==> Finished(status))
      && (runId in SuccessfulIds(s') <==> status == Completed)
  {
  }
}

=== FILE: expansion.dfy ===
/** Expanding an experiment into its runs: every agent is run
    `runs_per_agent` times, agent by agent, and every run gets an id of the
    form `<agent>-<n>`, a workspace and a container configuration. Both
    runners expand the same way. */
module Expansion {
  import opened Util
  import opened Config
  import Container
  import Workspace

  /** `f"{agent.id}-{run_num}"`. */
  function RunId(agentId: string, n: nat): (id: string)
    ensures EndsWith(id, "-" + NatToString(n))
  {
    var id := agentId + "-" + NatToString(n);
    assert id[|id| - |"-" + NatToString(n)|..] == "-" + NatToString(n);
    id
  }

  /** The length of the run of digits at the end of `s`. */
  function TrailingDigits(s: string): (k: nat)
    ensures k <= |s|
  {
    if |s| > 0 && IsDigit(s[|s| - 1]) then 1 + TrailingDigits(s[..|s| - 1]) else 0
  }

  lemma {:induction false} TrailingDigitsAfterDash(p: string, d: string)
    requires |p| > 0 && p[|p| - 1] == '-' && AllDigits(d)
    ensures TrailingDigits(p + d) == |d|
    decreases |d|
  {
    if |d| == 0 {
      assert p + d == p;
    } else {
      assert (p + d)[..|p + d| - 1] == p + d[..|d| - 1];
      assert AllDigits(d[..|d| - 1]);
      TrailingDigitsAfterDash(p, d[..|d| - 1]);
    }
  }

  /** A run id names its agent and its run number: the run number is the
      digits after the last `-`. */
  lemma RunIdInjective(a: string, n: nat, b: string, m: nat)
    requires RunId(a, n) == RunId(b, m)
    ensures a == b && n == m
  {
    var s := RunId(a, n);
    var d1, d2 := NatToString(n), NatToString(m);
    assert s == (a + "-") + d1 && s == (b + "-") + d2;
    TrailingDigitsAfterDash(a + "-", d1);
    TrailingDigitsAfterDash(b + "-", d2);
    assert d1 == s[|s| - |d1|..] == d2;
    NatToStringInjective(n, m);
    assert a == s[..|a|] == b;
  }

  /** One expanded run: its id, its agent, its number and its container. */
  datatype RunConfig = RunConfig(runId: string, agentId: string, runNumber: nat, container: Container.ContainerConfig)

  /** `range(1, runs_per_agent + 1)` has this many elements. */
  function RunsPerAgent(c: BenchmarkConfig): nat {
    if c.settings.runsPerAgent > 0 then c.settings.runsPerAgent else 0
  }

  /** Run `n` of `agent`, its workspace below `base`. */
  function Entry(c: BenchmarkConfig, base: string, agent: AgentConfig, n: nat): (r: RunConfig)
    ensures r.runId == RunId(agent.id, n) && r.agentId == agent.id && r.runNumber == n
    ensures r.container.runId == r.runId && r.container.workspacePath == Workspace.PathFor(base, r.runId)
    ensures r.container.timeoutSeconds == c.settings.timeoutMinutes * 60
  {
    var id := RunId(agent.id, n);
    RunConfig(id, agent.id, n, Container.ContainerConfig(
      id, c.target.repo, c.target.commit, c.prompt.file, c.prompt.text,
      agent.model, agent.extraArgs, c.settings.timeoutMinutes * 60, Workspace.PathFor(base, id)))
  }

  /** Runs `1..count` of one agent. */
  function Block(c: BenchmarkConfig, base: string, agent: AgentConfig, count: nat): (b: seq<RunConfig>)
    ensures |b| == count
    ensures forall k :: 0 <= k < count ==> b[k] == Entry(c, base, agent, k + 1)
  {
    seq(count, k requires 0 <= k < count => Entry(c, base, agent, k + 1))
  }

  /** The expansion, agent by agent. */
  function Expand(c: BenchmarkConfig, base: string, agents: seq<AgentConfig>): seq<RunConfig> {
    if |agents| == 0 then []
    else Expand(c, base, agents[..|agents| - 1]) + Block(c, base, agents[|agents| - 1], RunsPerAgent(c))
  }

  /** There are exactly `len(agents) * runs_per_agent` runs. */
  lemma {:induction false} ExpandLength(c: BenchmarkConfig, base: string, agents: seq<AgentConfig>)
    ensures |Expand(c, base, agents)| == |agents| * RunsPerAgent(c)
    decreases |agents|
  {
    if |agents| > 0 {
      ExpandLength(c, base, agents[..|agents| - 1]);
      var r := RunsPerAgent(c);
      assert (|agents| - 1) * r + r == |agents| * r;
    }
  }

  /** Run `k + 1` of agent `a` sits at position `a * R + k`: the runs are
      ordered agent-major, and each agent's runs are numbered from 1. */
  lemma {:induction false} ExpandAt(c: BenchmarkConfig, base: string, agents: seq<AgentConfig>, a: nat, k: nat)
    requires a < |agents| && k < RunsPerAgent(c)
    ensures a * RunsPerAgent(c) + k < |Expand(c, base, agents)|
    ensures Expand(c, base, agents)[a * RunsPerAgent(c) + k] == Entry(c, base, agents[a], k + 1)
    decreases |agents|
  {
    var r := RunsPerAgent(c);
    var init := agents[..|agents| - 1];
    ExpandLength(c, base, init);
    ExpandLength(c, base, agents);
    if a == |agents| - 1 {
      assert a * r + k == |Expand(c, base, init)| + k;
    } else {
      ExpandAt(c, base, init, a, k);
      assert init[a] == agents[a];
    }
  }

  /** Every run is some agent's run `n`, with `1 <= n <= R`. */
  lemma {:induction false} ExpandMembers(c: BenchmarkConfig, base: string, agents: seq<AgentConfig>)
    ensures forall i :: 0 <= i < |Expand(c, base, agents)| ==>
      var x := Expand(c, base, agents)[i];
      && 1 <= x.runNumber <= RunsPerAgent(c)
      && exists a :: 0 <= a < |agents| && x == Entry(c, base, agents[a], x.runNumber)
    decreases |agents|
  {
    if |agents| > 0 {
      var init := agents[..|agents| - 1];
      ExpandMembers(c, base, init);
      var e := Expand(c, base, agents);
      var p := Expand(c, base, init);
      forall i | 0 <= i < |e|
        ensures 1 <= e[i].runNumber <= RunsPerAgent(c)
        ensures exists a :: 0 <= a < |agents| && e[i] == Entry(c, base, agents[a], e[i].runNumber)
      {
        if i < |p| {
          var a :| 0 <= a < |init| && p[i] == Entry(c, base, init[a], p[i].runNumber);
          assert e[i] == p[i] && init[a] == agents[a];
        } else {
          assert e[i] == Entry(c, base, agents[|agents| - 1], i - |p| + 1);
        }
      }
    }
  }

  /** With pairwise different agent ids, the run ids are pairwise different. */
  lemma {:induction false} ExpandIdsDistinct(c: BenchmarkConfig, base: string, agents: seq<AgentConfig>)
    requires Distinct(AgentIds(agents))
    ensures forall i, j :: 0 <= i < j < |Expand(c, base, agents)| ==>
      Expand(c, base, agents)[i].runId != Expand(c, base, agents)[j].runId
    decreases |agents|
  {
    if |agents| > 0 {
      var init := agents[..|agents| - 1];
      var last := agents[|agents| - 1];
      assert AgentIds(init) == AgentIds(agents)[..|agents| - 1];
      ExpandIdsDistinct(c, base, init);
      ExpandMembers(c, base, init);
      var e := Expand(c, base, agents);
      var p := Expand(c, base, init);
      forall i, j | 0 <= i < j < |e|
        ensures e[i].runId != e[j].runId
      {
        if j < |p| {
          assert e[i] == p[i] && e[j] == p[j];
        } else if i < |p| {
          var a :| 0 <= a < |init| && p[i] == Entry(c, base, init[a], p[i].runNumber);
          assert AgentIds(agents)[a] == init[a].id && AgentIds(agents)[|agents| - 1] == last.id;
          if e[i].runId == e[j].runId {
            RunIdInjective(init[a].id, p[i].runNumber, last.id, j - |p| + 1);
          }
        } else {
          if e[i].runId == e[j].runId {
            RunIdInjective(last.id, i - |p| + 1, last.id, j - |p| + 1);
          }
        }
      }
    }
  }

  /** The run ids of a list of runs. */
  function IdSet(rs: seq<RunConfig>): set<string> {
    set x | x in rs :: x.runId
  }

  /** The registry after registering runs: their workspaces added, every
      other entry as it was. */
  predicate Registered(before: Workspace.Workspaces, after: Workspace.Workspaces, rs: seq<RunConfig>) {
    && after.base == before.base
    && after.registry.Keys == before.registry.Keys + IdSet(rs)
    && (forall id :: id in IdSet(rs) ==> after.registry[id] == Workspace.PathFor(before.base, id))
    && (forall id :: id in before.registry && id !in IdSet(rs) ==> after.registry[id] == before.registry[id])
  }

  lemma RegisterOne(w0: Workspace.Workspaces, w: Workspace.Workspaces, rs: seq<RunConfig>, x: RunConfig)
    requires Registered(w0, w, rs)
    ensures Registered(w0, Workspace.Create(w, x.runId).0, rs + [x])
  {
    assert IdSet(rs + [x]) == IdSet(rs) + {x.runId};
  }

  /** The inner loop of `_create_run_configs`: runs `1..R` of one agent. */
  method AddAgentRuns(c: BenchmarkConfig, w0: Workspace.Workspaces, agent: AgentConfig,
    configs0: seq<RunConfig>, w1: Workspace.Workspaces) returns (configs: seq<RunConfig>, w': Workspace.Workspaces)
    requires Registered(w0, w1, configs0)
    ensures configs == configs0 + Block(c, w0.base, agent, RunsPerAgent(c))
    ensures Registered(w0, w', configs)
  {
    var r := RunsPerAgent(c);
    configs := configs0;
    w' := w1;
    var n := 1;
    while n <= r
      invariant 1 <= n <= r + 1
      invariant configs == configs0 + Block(c, w0.base, agent, n - 1)
      invariant Registered(w0, w', configs)
    {
      var runId := RunId(agent.id, n);
      var created := Workspace.Create(w', runId);
      var x := RunConfig(runId, agent.id, n, Container.ContainerConfig(
        runId, c.target.repo, c.target.commit, c.prompt.file, c.prompt.text,
        agent.model, agent.extraArgs, c.settings.timeoutMinutes * 60, created.1));
      assert x == Entry(c, w0.base, agent, n);
      RegisterOne(w0, w', configs, x);
      configs := configs + [x];
      w' := created.0;
      assert Block(c, w0.base, agent, n) == Block(c, w0.base, agent, n - 1) + [x];
      n := n + 1;
    }
  }

  /** Every run's workspace is its id below the base directory. */
  lemma ExpandPaths(c: BenchmarkConfig, base: string, agents: seq<AgentConfig>)
    ensures forall x :: x in Expand(c, base, agents) ==> x.container.workspacePath == Workspace.PathFor(base, x.runId)
  {
    ExpandMembers(c, base, agents);
    forall x | x in Expand(c, base, agents)
      ensures x.container.workspacePath == Workspace.PathFor(base, x.runId)
    {
      var i :| 0 <= i < |Expand(c, base, agents)| && Expand(c, base, agents)[i] == x;
    }
  }

  /** `_create_run_configs`: the runs in expansion order, each workspace
      created and registered as it goes. */
  method CreateRunConfigs(c: BenchmarkConfig, w: Workspace.Workspaces) returns (configs: seq<RunConfig>, w': Workspace.Workspaces)
    ensures configs == Expand(c, w.base, c.agents)
    ensures Registered(w, w', configs)
    ensures forall i :: 0 <= i < |configs| ==>
      configs[i].runId in w'.registry && w'.registry[configs[i].runId] == configs[i].container.workspacePath
  {
    var agents := c.agents;
    configs := [];
    w' := w;
    var a := 0;
    while a < |agents|
      invariant 0 <= a <= |agents|
      invariant configs == Expand(c, w.base, agents[..a])
      invariant Registered(w, w', configs)
    {
      configs, w' := AddAgentRuns(c, w, agents[a], configs, w');
      assert agents[..a + 1][..a] == agents[..a];
      a := a + 1;
    }
    assert agents[..a] == agents;
    ExpandPaths(c, w.base, agents);
    forall i | 0 <= i < |configs|
      ensures configs[i].runId in w'.registry && w'.registry[configs[i].runId] == configs[i].container.workspacePath
    {
      assert configs[i] in configs;
    }
  }

  /** For a valid configuration, every timeout lies in 60..10800 seconds and
      there are at most ten runs per agent, all with different ids. */
  lemma ValidExpansion(c: BenchmarkConfig, base: string)
    requires Valid(c)
    ensures |Expand(c, base, c.agents)| <= MaxRunsPerAgent * |c.agents|
    ensures forall i :: 0 <= i < |Expand(c, base, c.agents)| ==>
      60 <= Expand(c, base, c.agents)[i].container.timeoutSeconds <= 10800
    ensures forall i, j :: 0 <= i < j < |Expand(c, base, c.agents)| ==>
      Expand(c, base, c.agents)[i].runId != Expand(c, base, c.agents)[j].runId
  {
    ValidBounds(c);
    ExpandLength(c, base, c.agents);
    ExpandMembers(c, base, c.agents);
    ExpandIdsDistinct(c, base, c.agents);
  }
}

=== FILE: experiment.dfy ===
/** The experiment runners' frame around the fan-in: a single run and what
    it does to the display, the collection of metrics for every result, and
    the teardown in the `finally` clause of `run`, for both runners. */
module Experiment {
  import opened Util
  import opened Json
  import Display
  import Activity
  import Container
  import Workspace
  import BenchMetrics
  import ActMetrics
  import Expansion
  import FanIn
  import opened Collecting

  // ---------------------------------------------------------------------------
  // A single run

  /** The display, the container backend and the run's outcome after
      `_run_single`. */
  datatype Single = Single(display: Display.Display, backend: Container.Backend, attempt: FanIn.Attempt)

  /** `_run_single`: the run is shown as running, the container runs with
      the activity callback `sub`, and the run is shown as completed when it
      exits with 0, as failed when it exits otherwise or raises. The clock is
      reduced to the `duration` it reports. */
  function RunSingle(d: Display.Display, b: Container.Backend, image: Container.ImageStep,
                     c: Container.ContainerConfig, home: string, authExists: bool,
                     sub: Container.Subscriber, launch: Container.Launch, duration: int): (s: Single)
    ensures var t := Container.Run(b, image, c, home, authExists, sub, launch);
      && s.backend == t.backend
      && (s.attempt.Returned? <==> t.result.Ok?)
      && (t.result.Ok? ==> s.attempt.result == t.result.value)
      && (t.result.Err? ==> s.attempt.e == t.result.error)
  {
    var running := Display.UpdateRun(d, c.runId, Display.Running, 0, None);
    var t := Container.Run(b, image, c, home, authExists, sub, launch);
    match t.result
    case Ok(r) =>
      var status := if r.exitCode == 0 then Display.Completed else Display.Failed;
      Single(Display.UpdateRun(running, c.runId, status, duration, r.error), t.backend, FanIn.Returned(r))
    case Err(e) =>
      Single(Display.UpdateRun(running, c.runId, Display.Failed, duration, Some(Describe(e))), t.backend, FanIn.Raised(e))
  }

  /** The status a finished run is shown with. */
  function StatusOf(a: FanIn.Attempt): Display.RunStatus {
    if a.Returned? && a.result.exitCode == 0 then Display.Completed else Display.Failed
  }

  /** A registered run ends up finished on the display: completed exactly
      when the container returned with exit code 0, with the run's error or
      the exception's text; the other runs are left as they were. */
  lemma RunSingleShowsOutcome(d: Display.Display, b: Container.Backend, image: Container.ImageStep,
                              c: Container.ContainerConfig, home: string, authExists: bool,
                              sub: Container.Subscriber, launch: Container.Launch, duration: int)
    requires d.state.Some? && c.runId in d.state.value.runs
    ensures var s := RunSingle(d, b, image, c, home, authExists, sub, launch, duration);
      && s.display.state.Some?
      && s.display.state.value.runs.Keys == d.state.value.runs.Keys
      && var run := s.display.state.value.runs[c.runId];
      && run.status == StatusOf(s.attempt)
      && Display.Finished(run.status)
      && (run.status == Display.Completed <==> s.attempt.Returned? && s.attempt.result.exitCode == 0)
      && run.error == (if s.attempt.Returned? then s.attempt.result.error else Some(Describe(s.attempt.e)))
      && run.duration == duration
      && forall id :: id in d.state.value.runs && id != c.runId ==> s.display.state.value.runs[id] == d.state.value.runs[id]
  {
  }

  /** The activity callback of the agent-benchmark runner as written: it
      calls a method its display does not have, so every call raises. */
  const MissingActivity: Exc := AttributeError("'ProgressDisplay' object has no attribute 'update_activity'")

  /** A callback that raises on the first activity fails the run: it returns
      with exit code 1 and the exception's text, and is shown as failed. */
  lemma RaisingActivityFailsRun(d: Display.Display, b: Container.Backend, image: Container.ImageStep,
                                c: Container.ContainerConfig, home: string, authExists: bool, e: Exc,
                                handle: nat, chunks: seq<string>, deadline: Container.Deadline, wait: Container.WaitStep,
                                duration: int)
    requires b.imageBuilt || !image.ImageFails?
    requires |Activity.ActivityEvents(chunks)| > 0
    ensures var s := RunSingle(d, b, image, c, home, authExists, Container.Subscriber(Some(e)),
                               Container.Started(handle, chunks, deadline, wait), duration);
      && s.attempt == FanIn.Returned(Container.Fault(c, e))
      && StatusOf(s.attempt) == Display.Failed
  {
    Container.RaisingOutcome(c, e, chunks, deadline, wait);
  }

  /** As written, any container output holding an activity line fails the
      run: exit code 1 and the attribute error, whatever the container did. */
  lemma MissingActivityFailsRun(d: Display.Display, b: Container.Backend, image: Container.ImageStep,
                                c: Container.ContainerConfig, home: string, authExists: bool,
                                handle: nat, chunks: seq<string>, deadline: Container.Deadline, wait: Container.WaitStep,
                                duration: int, k: nat)
    requires b.imageBuilt || !image.ImageFails?
    requires k < |chunks| && Activity.ParseActivityLine(chunks[k]).Some?
    ensures var s := RunSingle(d, b, image, c, home, authExists, Container.Subscriber(Some(MissingActivity)),
                               Container.Started(handle, chunks, deadline, wait), duration);
      && s.attempt == FanIn.Returned(Container.Fault(c, MissingActivity))
      && StatusOf(s.attempt) == Display.Failed
  {
    Container.HasActivity(chunks, k);
    RaisingActivityFailsRun(d, b, image, c, home, authExists, MissingActivity, handle, chunks, deadline, wait, duration);
  }

  /** For a container that exits in time and whose output decodes chunk by
      chunk, a callback that accepts every activity leaves the run exactly as
      it is with no callback at all. Whatever the container does, the
      registry agrees and the run returns in both or in neither. */
  lemma QuietActivityTransparent(d: Display.Display, b: Container.Backend, image: Container.ImageStep,
                                 c: Container.ContainerConfig, home: string, authExists: bool,
                                 launch: Container.Launch, duration: int)
    ensures launch.Started? && launch.deadline.InTime? ==>
              RunSingle(d, b, image, c, home, authExists, Container.Subscriber(None), launch, duration)
              == RunSingle(d, b, image, c, home, authExists, Container.NoSubscriber, launch, duration)
    ensures var s := RunSingle(d, b, image, c, home, authExists, Container.Subscriber(None), launch, duration);
      var q := RunSingle(d, b, image, c, home, authExists, Container.NoSubscriber, launch, duration);
      s.backend == q.backend && s.attempt.Returned? == q.attempt.Returned?
  {
    Container.QuietSubscriberTransparent(b, image, c, home, authExists, Container.Subscriber(None), launch);
  }

  /** As written, a container that outlives its timeout and then exits with
      0 is shown as completed when the callback accepts every activity, and
      as failed by the timeout when there is no callback. */
  lemma OverrunShownCompleted(d: Display.Display, b: Container.Backend, image: Container.ImageStep,
                              c: Container.ContainerConfig, home: string, authExists: bool,
                              handle: nat, chunks: seq<string>, written: nat, e: Exc, duration: int)
    requires b.imageBuilt || !image.ImageFails?
    ensures var launch := Container.Started(handle, chunks, Container.Overruns(written, e), Container.Exited(Some(0)));
      && StatusOf(RunSingle(d, b, image, c, home, authExists, Container.Subscriber(None), launch, duration).attempt)
         == Display.Completed
      && RunSingle(d, b, image, c, home, authExists, Container.NoSubscriber, launch, duration).attempt
         == FanIn.Returned(Container.Fault(c, e))
      && StatusOf(RunSingle(d, b, image, c, home, authExists, Container.NoSubscriber, launch, duration).attempt)
         == Display.Failed
  {
    Container.CallbackSkipsTimeout(b, image, c, home, authExists, handle, chunks, written, e, Some(0));
  }

  // ---------------------------------------------------------------------------
  // Showing the runs

  /** `run` before the fan-in: the display is started for all runs and each
      one is added as pending. */
  method ShowRuns(d: Display.Display, name: string, configs: seq<Expansion.RunConfig>) returns (d': Display.Display)
    ensures d'.live && d'.state.Some?
    ensures d'.state.value.name == name && d'.state.value.totalRuns == |configs|
    ensures d'.state.value.runs.Keys == Expansion.IdSet(configs)
    ensures forall i :: 0 <= i < |configs| ==> d'.state.value.runs[configs[i].runId].status == Display.Pending
  {
    d' := Display.Start(d, name, |configs|);
    var i := 0;
    while i < |configs|
      invariant 0 <= i <= |configs|
      invariant d'.live && d'.state.Some?
      invariant d'.state.value.name == name && d'.state.value.totalRuns == |configs|
      invariant d'.state.value.runs.Keys == Expansion.IdSet(configs[..i])
      invariant forall p :: 0 <= p < i ==> d'.state.value.runs[configs[p].runId].status == Display.Pending
    {
      var rc := configs[i];
      var added := Display.AddRun(d', rc.runId, rc.agentId, rc.runNumber);
      d' := added.value;
      assert configs[..i + 1] == configs[..i] + [rc];
      i := i + 1;
    }
    assert configs[..i] == configs;
  }

  // ---------------------------------------------------------------------------
  // Collecting metrics

  /** The metrics of one result in the agent-benchmark runner; `traces` says
      what each run left on disk. */
  function BenchMetricsOf(traces: string -> BenchMetrics.RunTraces): FanIn.Collected -> Result<Value> {
    (x: FanIn.Collected) =>
      match BenchMetrics.CollectRunMetrics(x.runId, x.agentId, traces(x.runId), x.result.logs, x.result.exitCode, x.result.error)
      case Ok(m) => Ok(BenchMetrics.ToDict(m))
      case Err(e) => Err(e)
  }

  /** What each run left on disk in the other runner: its container metrics
      file and its session export. */
  datatype ActTrace = ActTrace(metricsFile: BenchMetrics.MetricsFile, session: Option<Value>)

  const UnexpectedLogs: Exc := TypeError("collect_run_metrics() got an unexpected keyword argument 'logs'")

  /** The metrics of one result in the other runner, as written: the call
      passes `logs`, a parameter the collector does not have, so it raises
      before collecting anything. */
  function ActMetricsAsWritten(files: string -> ActTrace): FanIn.Collected -> Result<Value> {
    (x: FanIn.Collected) => Err(UnexpectedLogs)
  }

  /** The metrics of one result in the other runner, with the call matching
      the collector's parameters and the collector tolerating files of an
      unexpected shape. */
  function ActMetricsOf(files: string -> ActTrace): FanIn.Collected -> Result<Value> {
    Total(ActRecordOf(files))
  }

  /** `ActRecord` for the given files, as a function of the result. */
  function ActRecordOf(files: string -> ActTrace): FanIn.Collected -> Value {
    (x: FanIn.Collected) => ActRecord(files, x)
  }

  /** The metrics document of one result: the record the collector builds
      from the run's files, the result's exit code and error. */
  function ActRecord(files: string -> ActTrace, x: FanIn.Collected): Value {
    var f := files(x.runId);
    ActMetrics.ToDict(ActMetrics.CollectRunMetricsGuarded(x.runId, x.agentId, f.metricsFile, f.session, x.result.exitCode, x.result.error))
  }

  /** As written, the first result already makes the collection raise: no
      metrics file is written at all. */
  lemma ActCollectRaises(results: seq<FanIn.Collected>, files: string -> ActTrace)
    requires |results| > 0
    ensures Collect(results, ActMetricsAsWritten(files), |results|) == Collection(map[], 0, Some(UnexpectedLogs))
  {
    CollectFirstRaises(results, ActMetricsAsWritten(files), |results|);
  }

  /** With the call corrected, collection never raises and every result gets
      its metrics file. */
  lemma ActCollectWritesAll(results: seq<FanIn.Collected>, files: string -> ActTrace)
    ensures var c := Collect(results, ActMetricsOf(files), |results|);
      c.error.None? && c.written.Keys == FanIn.ResultIds(results)
  {
    CollectTotalKeys(results, ActRecordOf(files));
  }

  // ---------------------------------------------------------------------------
  // Teardown

  /** What the `finally` clause acts on: the display, the container backend,
      the workspaces and the paths on disk. The workspaces' base directory is
      the temporary directory the run created. */
  datatype Env = Env(display: Display.Display, backend: Container.Backend, workspaces: Workspace.Workspaces,
                     onDisk: set<string>)

  /** The disk after the workspaces and then the temporary directory that
      holds them are removed, each with `rmtree` and errors ignored: every
      other path stays, and of the removed ones only what the removal could
      not delete, `stuck`, is left. */
  function Sweep(w: Workspace.Workspaces, onDisk: set<string>, stuck: set<string>): (after: set<string>)
    ensures after <= onDisk
    ensures forall p :: p in onDisk && !Workspace.Within(p, w.base) && !Workspace.Swept(w, onDisk, p) ==> p in after
    ensures forall p :: p in after && Workspace.Swept(w, onDisk, p) ==> p in stuck
    ensures w.base in onDisk ==> forall p :: p in after && Workspace.Within(p, w.base) ==> p in stuck
  {
    var cleaned := Workspace.Cleanup(w, onDisk, stuck).1;
    var after := Workspace.RemoveTree(cleaned, w.base, stuck);
    forall p | p in after && Workspace.Within(p, w.base) && w.base in onDisk
      ensures p in stuck
    {
      if w.base !in cleaned {
        var id :| id in w.registry && w.registry[id] in onDisk && Workspace.Within(w.base, w.registry[id]);
        WithinTrans(p, w.base, w.registry[id]);
      }
    }
    after
  }

  /** A path below a path below a directory is below that directory. */
  lemma WithinTrans(p: string, q: string, dir: string)
    requires Workspace.Within(p, q) && Workspace.Within(q, dir)
    ensures Workspace.Within(p, dir)
  {
    if p != q && q != dir {
      assert (dir + "/") <= q;
      assert q[..|dir + "/"|] == dir + "/";
      assert p[..|dir + "/"|] == q[..|dir + "/"|];
    }
  }

  /** When no removal fails and the temporary directory exists, exactly the
      paths outside it and outside every registered workspace are left. */
  lemma SweepComplete(w: Workspace.Workspaces, onDisk: set<string>)
    requires w.base in onDisk
    ensures forall p :: p in Sweep(w, onDisk, {}) <==>
      p in onDisk && !Workspace.Within(p, w.base) && !Workspace.Swept(w, onDisk, p)
  {
  }

  /** How the fan-in ended: normally, or by an interrupt that is raised again. */
  datatype Ending = Normal | Interrupted | Raised(e: Exc)

  datatype Finish = Finish(env: Env, written: map<string, Value>, ending: Ending)

  /** The `finally` clause of the other runner's `run`: collect the metrics;
      then stop the display, remove every container, and sweep the workspaces
      and the temporary directory from disk, leaving only the paths `stuck`
      that `rmtree` could not delete. An exception raised by the collection
      replaces how the fan-in ended and skips the rest. */
  method ActFinally(env: Env, results: seq<FanIn.Collected>, fanIn: Ending, metricsOf: FanIn.Collected -> Result<Value>,
                    stuck: set<string>)
    returns (f: Finish)
    ensures var c := Collect(results, metricsOf, |results|);
      && f.written == c.written
      && (c.error.Some? ==> f.env == env && f.ending == Raised(c.error.value))
      && (c.error.None? ==>
            && f.ending == fanIn
            && f.env.display == Display.Stop(env.display)
            && f.env.backend.containers == map[]
            && f.env.workspaces == Workspace.Empty(env.workspaces.base)
            && f.env.onDisk == Sweep(env.workspaces, env.onDisk, stuck))
  {
    var c := Collect(results, metricsOf, |results|);
    if c.error.Some? {
      return Finish(env, c.written, Raised(c.error.value));
    }
    var display := Display.Stop(env.display);
    var backend, _ := Container.Cleanup(env.backend);
    var cleaned := Workspace.Cleanup(env.workspaces, env.onDisk, stuck);
    var after := Workspace.RemoveTree(cleaned.1, env.workspaces.base, stuck);
    f := Finish(Env(display, backend, cleaned.0, after), c.written, fanIn);
  }

  /** The `finally` clause of the agent-benchmark runner's `run`: collect the
      metrics and stop the display; containers and workspaces are left to
      `cleanup`. */
  function BenchFinally(env: Env, results: seq<FanIn.Collected>, fanIn: Ending, metricsOf: FanIn.Collected -> Result<Value>)
    : (f: Finish)
    ensures var c := Collect(results, metricsOf, |results|);
      && f.written == c.written
      && f.env.backend == env.backend && f.env.workspaces == env.workspaces && f.env.onDisk == env.onDisk
      && (c.error.Some? ==> f.env == env && f.ending == Raised(c.error.value))
      && (c.error.None? ==> f.ending == fanIn && !f.env.display.live && f.env.display.state == env.display.state)
  {
    var c := Collect(results, metricsOf, |results|);
    if c.error.Some? then Finish(env, c.written, Raised(c.error.value))
    else Finish(env.(display := Display.Stop(env.display)), c.written, fanIn)
  }

  /** The agent-benchmark runner's `cleanup`: every container and every
      workspace registration is removed, and the workspaces and the temporary
      directory are swept from disk except for the paths `stuck`. */
  method BenchCleanup(env: Env, stuck: set<string>) returns (env': Env)
    ensures env'.display == env.display
    ensures env'.backend.containers == map[] && env'.backend.imageBuilt == env.backend.imageBuilt
    ensures env'.workspaces == Workspace.Empty(env.workspaces.base)
    ensures env'.onDisk == Sweep(env.workspaces, env.onDisk, stuck)
  {
    var backend, _ := Container.Cleanup(env.backend);
    var cleaned := Workspace.Cleanup(env.workspaces, env.onDisk, stuck);
    env' := Env(env.display, backend, cleaned.0, Workspace.RemoveTree(cleaned.1, env.workspaces.base, stuck));
  }

  /** The other runner's `cleanup`: only the containers are removed. */
  method ActCleanup(env: Env) returns (env': Env)
    ensures env' == env.(backend := env.backend.(containers := map[]))
  {
    var backend, _ := Container.Cleanup(env.backend);
    env' := env.(backend := backend);
  }
}

=== FILE: fanin.dfy ===
/** Turning the expanded runs into results, one way or another: one after
    the other, or all at once with the results taken in the order the runs
    complete and, on an interrupt, the runs that are already done picked up
    afterwards.

    A run of `_run_single` is reduced to its outcome, given as input: the
    result it returned or the exception it raised. The thread pool is reduced
    to the order in which the runs complete, the number of results taken
    before an interrupt arrives, and the set of runs done at that moment. */
module FanIn {
  import opened Util
  import Container
  import Workspace
  import opened Expansion

  datatype Attempt = Returned(result: Container.ContainerResult) | Raised(e: Exc)

  /** An entry of the results list: run id, agent id and result. */
  datatype Collected = Collected(runId: string, agentId: string, result: Container.ContainerResult)

  /** The result recorded for a run whose call raised. */
  function Failure(rc: RunConfig, e: Exc): Container.ContainerResult {
    Container.ContainerResult(rc.runId, 1, "", rc.container.workspacePath, Some(Describe(e)))
  }

  /** The entry recorded for a run: its result, or the failure result when
      it raised. */
  function Settle(rc: RunConfig, a: Attempt): (x: Collected)
    ensures x.runId == rc.runId && x.agentId == rc.agentId
  {
    match a
    case Returned(r) => Collected(rc.runId, rc.agentId, r)
    case Raised(e) => Collected(rc.runId, rc.agentId, Failure(rc, e))
  }

  function ResultIds(rs: seq<Collected>): set<string> {
    set x | x in rs :: x.runId
  }

  function RunIdsOf(rs: seq<Collected>): (ids: seq<string>)
    ensures |ids| == |rs| && forall i :: 0 <= i < |rs| ==> ids[i] == rs[i].runId
  {
    seq(|rs|, i requires 0 <= i < |rs| => rs[i].runId)
  }

  /** The run ids of the configurations, in order: the projection
      `RunIdsOf` takes of results, taken of configurations. */
  function ConfigIds(configs: seq<RunConfig>): (ids: seq<string>)
    ensures |ids| == |configs| && forall i :: 0 <= i < |configs| ==> ids[i] == configs[i].runId
  {
    seq(|configs|, i requires 0 <= i < |configs| => configs[i].runId)
  }

  // ---------------------------------------------------------------------------
  // One after the other

  /** `_run_sequential`: one entry per run, in run order; a run that raises
      is recorded as a failure and the next run still goes ahead. Only
      `Exception` is caught, so an interrupt during run `i` ends the loop
      with the entries of the runs before it and propagates. */
  method RunSequential(configs: seq<RunConfig>, attempts: seq<Attempt>, interrupt: Option<nat>)
    returns (results: seq<Collected>, interrupted: bool)
    requires |attempts| == |configs|
    requires interrupt.Some? ==> interrupt.value < |configs|
    ensures interrupted <==> interrupt.Some?
    ensures |results| == (if interrupted then interrupt.value else |configs|)
    ensures forall i :: 0 <= i < |results| ==> results[i] == Settle(configs[i], attempts[i])
  {
    var stop := if interrupt.Some? then interrupt.value else |configs|;
    results := [];
    var i := 0;
    while i < stop
      invariant 0 <= i <= stop && |results| == i
      invariant forall k :: 0 <= k < i ==> results[k] == Settle(configs[k], attempts[k])
    {
      var entry := match attempts[i]
        case Returned(r) => Collected(configs[i].runId, configs[i].agentId, r)
        case Raised(e) => Collected(configs[i].runId, configs[i].agentId,
          Container.ContainerResult(configs[i].runId, 1, "", configs[i].container.workspacePath, Some(Describe(e))));
      results := results + [entry];
      i := i + 1;
    }
    interrupted := interrupt.Some?;
  }

  /** A failed run is recorded with exit code 1, no logs, its workspace and
      the exception's text, and the runs after it are still recorded. */
  lemma SequentialFailure(configs: seq<RunConfig>, attempts: seq<Attempt>, results: seq<Collected>, i: nat)
    requires |attempts| == |configs| == |results| && i < |configs| && attempts[i].Raised?
    requires forall k :: 0 <= k < |configs| ==> results[k] == Settle(configs[k], attempts[k])
    ensures results[i].runId == configs[i].runId && results[i].result.exitCode == 1 && results[i].result.logs == ""
    ensures results[i].result.workspacePath == configs[i].container.workspacePath
    ensures results[i].result.error == Some(Describe(attempts[i].e))
    ensures forall k :: i < k < |configs| ==> results[k].runId == configs[k].runId
  {
  }

  // ---------------------------------------------------------------------------
  // All at once

  /** `as_completed` hands out every run exactly once. */
  predicate Permutation(order: seq<nat>, n: nat) {
    && |order| == n
    && Distinct(order)
    && (forall i :: 0 <= i < n ==> order[i] < n)
    && (forall j :: 0 <= j < n ==> j in order)
  }

  /** The results taken from the first `k` completions. */
  method TakeCompleted(configs: seq<RunConfig>, attempts: seq<Attempt>, order: seq<nat>, k: nat) returns (results: seq<Collected>)
    requires |attempts| == |configs| && Permutation(order, |configs|) && k <= |order|
    ensures |results| == k
    ensures forall i :: 0 <= i < k ==> results[i] == Settle(configs[order[i]], attempts[order[i]])
  {
    results := [];
    var i := 0;
    while i < k
      invariant 0 <= i <= k && |results| == i
      invariant forall p :: 0 <= p < i ==> results[p] == Settle(configs[order[p]], attempts[order[p]])
    {
      var j := order[i];
      results := results + [Settle(configs[j], attempts[j])];
      i := i + 1;
    }
  }

  /** What `_drain_completed_futures` adds, scanning the runs in order up to
      `n`: every run that is done and whose id was not collected before the
      scan started. */
  function DrainScan(configs: seq<RunConfig>, attempts: seq<Attempt>, collected: set<string>, done: set<nat>, n: nat): seq<Collected>
    requires n <= |configs| == |attempts|
  {
    if n == 0 then []
    else
      var j := n - 1;
      DrainScan(configs, attempts, collected, done, j)
        + (if configs[j].runId !in collected && j in done then [Settle(configs[j], attempts[j])] else [])
  }

  /** `_drain_completed_futures`: a run that raised is recorded as a failure,
      like in the main loop. */
  function Drain(configs: seq<RunConfig>, attempts: seq<Attempt>, results: seq<Collected>, done: set<nat>): seq<Collected>
    requires |configs| == |attempts|
  {
    results + DrainScan(configs, attempts, ResultIds(results), done, |configs|)
  }

  /** The drain adds exactly the runs that are done and not yet collected. */
  lemma {:induction false} DrainScanExact(configs: seq<RunConfig>, attempts: seq<Attempt>, collected: set<string>, done: set<nat>, n: nat)
    requires n <= |configs| == |attempts|
    ensures var added := DrainScan(configs, attempts, collected, done, n);
      && (forall x :: x in added ==> exists j :: 0 <= j < n && j in done && configs[j].runId !in collected && x == Settle(configs[j], attempts[j]))
      && (forall j :: 0 <= j < n && j in done && configs[j].runId !in collected ==> Settle(configs[j], attempts[j]) in added)
    decreases n
  {
    if n > 0 {
      DrainScanExact(configs, attempts, collected, done, n - 1);
    }
  }

  /** Each run the drain adds comes from a run that is done and was not
      collected before. */
  lemma {:induction false} DrainScanSource(configs: seq<RunConfig>, attempts: seq<Attempt>, collected: set<string>, done: set<nat>, n: nat, x: Collected)
    returns (j: nat)
    requires n <= |configs| == |attempts|
    requires x in DrainScan(configs, attempts, collected, done, n)
    ensures j < n && j in done && configs[j].runId !in collected && x == Settle(configs[j], attempts[j])
    decreases n
  {
    var prev := DrainScan(configs, attempts, collected, done, n - 1);
    if x in prev {
      j := DrainScanSource(configs, attempts, collected, done, n - 1, x);
    } else {
      j := n - 1;
    }
  }

  /** With pairwise different run ids, nothing the drain adds repeats an id. */
  lemma {:induction false} DrainScanDistinct(configs: seq<RunConfig>, attempts: seq<Attempt>, collected: set<string>, done: set<nat>, n: nat)
    requires n <= |configs| == |attempts|
    requires Distinct(ConfigIds(configs))
    ensures var added := DrainScan(configs, attempts, collected, done, n);
      && Distinct(RunIdsOf(added))
      && (forall x :: x in added ==> x.runId !in collected)
      && (forall x :: x in added ==> exists j :: 0 <= j < n && x.runId == configs[j].runId)
    decreases n
  {
    if n > 0 {
      var j := n - 1;
      DrainScanDistinct(configs, attempts, collected, done, j);
      var prev := DrainScan(configs, attempts, collected, done, j);
      if configs[j].runId !in collected && j in done {
        var x := Settle(configs[j], attempts[j]);
        var added := prev + [x];
        forall p | 0 <= p < |prev|
          ensures prev[p].runId != x.runId
        {
          var q := DrainScanSource(configs, attempts, collected, done, j, prev[p]);
          assert ConfigIds(configs)[q] != ConfigIds(configs)[j];
        }
        assert RunIdsOf(added) == RunIdsOf(prev) + [x.runId];
      }
    }
  }

  /** `_run_parallel` and, on an interrupt, the drain. Without an interrupt
      every completion is taken; with one after `k` completions, the first
      `k` are taken and then the drain adds the runs done by then. Returns
      whether the interrupt arrived (it is raised again afterwards). */
  method RunParallel(configs: seq<RunConfig>, attempts: seq<Attempt>, order: seq<nat>, interrupt: Option<nat>, done: set<nat>)
    returns (results: seq<Collected>, interrupted: bool)
    requires |attempts| == |configs| && Permutation(order, |configs|)
    requires interrupt.Some? ==> interrupt.value <= |configs|
    ensures interrupted <==> interrupt.Some?
    ensures !interrupted ==>
      (&& |results| == |configs|
       && forall i :: 0 <= i < |configs| ==> results[i] == Settle(configs[order[i]], attempts[order[i]]))
    ensures interrupted ==>
      exists taken ::
        (&& |taken| == interrupt.value
         && results == Drain(configs, attempts, taken, done)
         && forall i :: 0 <= i < |taken| ==> taken[i] == Settle(configs[order[i]], attempts[order[i]]))
  {
    if interrupt.None? {
      results := TakeCompleted(configs, attempts, order, |configs|);
      interrupted := false;
    } else {
      var taken := TakeCompleted(configs, attempts, order, interrupt.value);
      results := Drain(configs, attempts, taken, done);
      interrupted := true;
    }
  }

  /** Without an interrupt there is one entry per run: every run is there,
      and with pairwise different run ids no id repeats. */
  lemma ParallelComplete(configs: seq<RunConfig>, attempts: seq<Attempt>, order: seq<nat>, results: seq<Collected>)
    requires |attempts| == |configs| && Permutation(order, |configs|) && |results| == |configs|
    requires forall i :: 0 <= i < |configs| ==> results[i] == Settle(configs[order[i]], attempts[order[i]])
    ensures forall j :: 0 <= j < |configs| ==> Settle(configs[j], attempts[j]) in results
    ensures Distinct(ConfigIds(configs)) ==> Distinct(RunIdsOf(results))
  {
    forall j | 0 <= j < |configs|
      ensures Settle(configs[j], attempts[j]) in results
    {
      assert j in order;
      var i :| 0 <= i < |order| && order[i] == j;
      assert results[i] == Settle(configs[j], attempts[j]);
    }
    if Distinct(ConfigIds(configs)) {
      forall p, q | 0 <= p < q < |results|
        ensures RunIdsOf(results)[p] != RunIdsOf(results)[q]
      {
        if order[p] < order[q] {
          assert ConfigIds(configs)[order[p]] != ConfigIds(configs)[order[q]];
        } else {
          assert ConfigIds(configs)[order[q]] != ConfigIds(configs)[order[p]];
        }
      }
    }
  }

  /** The entries taken before an interrupt: no id repeats, and a run was
      collected exactly when it was among the first `k` completions. */
  lemma TakenIds(configs: seq<RunConfig>, attempts: seq<Attempt>, order: seq<nat>, k: nat, taken: seq<Collected>)
    requires |attempts| == |configs| && Permutation(order, |configs|) && k <= |configs| && |taken| == k
    requires forall i :: 0 <= i < k ==> taken[i] == Settle(configs[order[i]], attempts[order[i]])
    requires Distinct(ConfigIds(configs))
    ensures Distinct(RunIdsOf(taken))
    ensures forall j :: 0 <= j < |configs| ==> (configs[j].runId in ResultIds(taken) <==> j in order[..k])
    ensures forall j :: 0 <= j < |configs| ==> (Settle(configs[j], attempts[j]) in taken <==> j in order[..k])
  {
    forall p, q | 0 <= p < q < k
      ensures RunIdsOf(taken)[p] != RunIdsOf(taken)[q]
    {
      assert ConfigIds(configs)[order[p]] != ConfigIds(configs)[order[q]];
    }
    forall j | 0 <= j < |configs|
      ensures configs[j].runId in ResultIds(taken) ==> j in order[..k]
    {
      if configs[j].runId in ResultIds(taken) {
        var y :| y in taken && y.runId == configs[j].runId;
        var p :| 0 <= p < k && taken[p] == y;
        assert ConfigIds(configs)[order[p]] == ConfigIds(configs)[j];
        assert order[..k][p] == j;
      }
    }
    forall j | 0 <= j < |configs| && j in order[..k]
      ensures Settle(configs[j], attempts[j]) in taken
    {
      var p :| 0 <= p < k && order[..k][p] == j;
      assert taken[p] == Settle(configs[j], attempts[j]);
    }
  }

  /** After an interrupt no run id appears twice. */
  lemma InterruptedDistinct(configs: seq<RunConfig>, attempts: seq<Attempt>, order: seq<nat>, k: nat, taken: seq<Collected>, done: set<nat>)
    requires |attempts| == |configs| && Permutation(order, |configs|) && k <= |configs| && |taken| == k
    requires forall i :: 0 <= i < k ==> taken[i] == Settle(configs[order[i]], attempts[order[i]])
    requires Distinct(ConfigIds(configs))
    ensures Distinct(RunIdsOf(Drain(configs, attempts, taken, done)))
  {
    var collected := ResultIds(taken);
    var added := DrainScan(configs, attempts, collected, done, |configs|);
    TakenIds(configs, attempts, order, k, taken);
    DrainScanDistinct(configs, attempts, collected, done, |configs|);
    DistinctConcat(taken, added);
  }

  lemma DistinctConcat(a: seq<Collected>, b: seq<Collected>)
    requires Distinct(RunIdsOf(a)) && Distinct(RunIdsOf(b))
    requires forall x :: x in b ==> x.runId !in ResultIds(a)
    ensures Distinct(RunIdsOf(a + b))
  {
    assert RunIdsOf(a + b) == RunIdsOf(a) + RunIdsOf(b);
    forall p, q | 0 <= p < |a| && 0 <= q < |b|
      ensures a[p].runId != b[q].runId
    {
      assert a[p] in a && b[q] in b;
    }
  }

  /** After an interrupt every entry is the entry of one of the runs. */
  lemma InterruptedMembers(configs: seq<RunConfig>, attempts: seq<Attempt>, order: seq<nat>, k: nat, taken: seq<Collected>, done: set<nat>)
    requires |attempts| == |configs| && Permutation(order, |configs|) && k <= |configs| && |taken| == k
    requires forall i :: 0 <= i < k ==> taken[i] == Settle(configs[order[i]], attempts[order[i]])
    ensures forall x :: x in Drain(configs, attempts, taken, done) ==>
      exists j :: 0 <= j < |configs| && x == Settle(configs[j], attempts[j])
  {
    var added := DrainScan(configs, attempts, ResultIds(taken), done, |configs|);
    DrainScanExact(configs, attempts, ResultIds(taken), done, |configs|);
    forall x | x in taken
      ensures exists j :: 0 <= j < |configs| && x == Settle(configs[j], attempts[j])
    {
      var p :| 0 <= p < k && taken[p] == x;
    }
    assert forall x :: x in taken + added ==> x in taken || x in added;
  }

  /** After an interrupt the runs recorded are exactly the ones taken before
      the interrupt and the ones done when it arrived. */
  lemma InterruptedExact(configs: seq<RunConfig>, attempts: seq<Attempt>, order: seq<nat>, k: nat, taken: seq<Collected>, done: set<nat>, j: nat)
    requires |attempts| == |configs| && Permutation(order, |configs|) && k <= |configs| && |taken| == k
    requires forall i :: 0 <= i < k ==> taken[i] == Settle(configs[order[i]], attempts[order[i]])
    requires Distinct(ConfigIds(configs))
    requires j < |configs|
    ensures Settle(configs[j], attempts[j]) in Drain(configs, attempts, taken, done) <==> j in order[..k] || j in done
  {
    var collected := ResultIds(taken);
    var added := DrainScan(configs, attempts, collected, done, |configs|);
    var x := Settle(configs[j], attempts[j]);
    TakenIds(configs, attempts, order, k, taken);
    assert x in taken <==> j in order[..k];
    assert configs[j].runId in collected <==> j in order[..k];
    assert x in added <==> j in done && j !in order[..k] by {
      DrainScanExact(configs, attempts, collected, done, |configs|);
      if x in added {
        var q := DrainScanSource(configs, attempts, collected, done, |configs|, x);
        assert ConfigIds(configs)[q] == ConfigIds(configs)[j];
      }
    }
    assert x in taken + added <==> x in taken || x in added;
  }

  // ---------------------------------------------------------------------------
  // The variant of the agent-benchmark runner

  /** The parallel fallback of the agent-benchmark runner: a run that raised
      is recorded with the workspace registered for it, and a run without
      one raises `RuntimeError`. */
  function RegistrySettle(rc: RunConfig, a: Attempt, w: Workspace.Workspaces): (r: Result<Collected>)
    ensures r.Err? <==> a.Raised? && Workspace.Get(w, rc.runId).None?
  {
    match a
    case Returned(res) => Ok(Collected(rc.runId, rc.agentId, res))
    case Raised(e) =>
      match Workspace.Get(w, rc.runId)
      case None => Err(RuntimeError("No workspace for run " + rc.runId))
      case Some(path) => Ok(Collected(rc.runId, rc.agentId, Container.ContainerResult(rc.runId, 1, "", path, Some(Describe(e)))))
  }

  /** Every run `_create_run_configs` produced has its workspace registered,
      so the fallback never raises and records what the other runner
      records. */
  lemma RegistryFallbackUnreachable(configs: seq<RunConfig>, w: Workspace.Workspaces, i: nat, a: Attempt)
    requires i < |configs|
    requires forall k :: 0 <= k < |configs| ==>
      configs[k].runId in w.registry && w.registry[configs[k].runId] == configs[k].container.workspacePath
    ensures RegistrySettle(configs[i], a, w) == Ok(Settle(configs[i], a))
  {
  }

  /** The main loop of the agent-benchmark runner's `_run_parallel`: results
      are taken in completion order until a fallback finds no workspace, and
      that `RuntimeError` ends the loop with the results taken so far. */
  method RegistryTakeCompleted(configs: seq<RunConfig>, attempts: seq<Attempt>, order: seq<nat>, k: nat, w: Workspace.Workspaces)
    returns (results: seq<Collected>, raised: Option<Exc>)
    requires |attempts| == |configs| && Permutation(order, |configs|) && k <= |order|
    ensures |results| <= k
    ensures forall p :: 0 <= p < |results| ==> RegistrySettle(configs[order[p]], attempts[order[p]], w) == Ok(results[p])
    ensures raised.None? <==> forall i :: 0 <= i < k ==> RegistrySettle(configs[order[i]], attempts[order[i]], w).Ok?
    ensures raised.None? ==> |results| == k
    ensures raised.Some? ==>
      (&& raised.value.RuntimeError?
       && |results| < k
       && RegistrySettle(configs[order[|results|]], attempts[order[|results|]], w).Err?)
  {
    results := [];
    raised := None;
    var i := 0;
    while i < k
      invariant 0 <= i <= k && |results| == i
      invariant forall p :: 0 <= p < i ==> RegistrySettle(configs[order[p]], attempts[order[p]], w) == Ok(results[p])
    {
      var j := order[i];
      match RegistrySettle(configs[j], attempts[j], w)
      case Err(e) =>
        raised := Some(e);
        return;
      case Ok(x) =>
        results := results + [x];
      i := i + 1;
    }
  }

  /** The drain of the agent-benchmark runner, as written: a run that is
      done but raised is passed over. */
  function DropScan(configs: seq<RunConfig>, attempts: seq<Attempt>, collected: set<string>, done: set<nat>, n: nat): seq<Collected>
    requires n <= |configs| == |attempts|
  {
    if n == 0 then []
    else
      var j := n - 1;
      DropScan(configs, attempts, collected, done, j)
        + (if configs[j].runId !in collected && j in done && attempts[j].Returned?
           then [Settle(configs[j], attempts[j])] else [])
  }

  function DropDrain(configs: seq<RunConfig>, attempts: seq<Attempt>, results: seq<Collected>, done: set<nat>): seq<Collected>
    requires |configs| == |attempts|
  {
    results + DropScan(configs, attempts, ResultIds(results), done, |configs|)
  }

  /** A run that failed before the interrupt but was not yet taken is lost:
      neither a result nor a failure is recorded for it. */
  lemma DropDrainLosesFailure(rc: RunConfig, e: Exc)
    ensures DropDrain([rc], [Raised(e)], [], {0}) == []
    ensures Drain([rc], [Raised(e)], [], {0}) == [Settle(rc, Raised(e))]
  {
    assert ResultIds([]) == {};
    assert DropScan([rc], [Raised(e)], {}, {0}, 1) == DropScan([rc], [Raised(e)], {}, {0}, 0) + [];
    assert DrainScan([rc], [Raised(e)], {}, {0}, 1) == DrainScan([rc], [Raised(e)], {}, {0}, 0) + [Settle(rc, Raised(e))];
  }

  /** The variant's drain keeps exactly the runs that are done, not yet
      collected and returned normally. */
  lemma {:induction false} DropScanExact(configs: seq<RunConfig>, attempts: seq<Attempt>, collected: set<string>, done: set<nat>, n: nat)
    requires n <= |configs| == |attempts|
    ensures var added := DropScan(configs, attempts, collected, done, n);
      && (forall x :: x in added ==> exists j :: 0 <= j < n && j in done && attempts[j].Returned? && configs[j].runId !in collected && x == Settle(configs[j], attempts[j]))
      && (forall j :: 0 <= j < n && j in done && attempts[j].Returned? && configs[j].runId !in collected ==> Settle(configs[j], attempts[j]) in added)
    decreases n
  {
    if n > 0 {
      DropScanExact(configs, attempts, collected, done, n - 1);
    }
  }

  /** With pairwise different run ids, nothing the variant's drain adds
      repeats an id or an id already collected. */
  lemma {:induction false} DropScanDistinct(configs: seq<RunConfig>, attempts: seq<Attempt>, collected: set<string>, done: set<nat>, n: nat)
    requires n <= |configs| == |attempts|
    requires Distinct(ConfigIds(configs))
    ensures var added := DropScan(configs, attempts, collected, done, n);
      && Distinct(RunIdsOf(added))
      && (forall x :: x in added ==> x.runId !in collected)
    decreases n
  {
    if n > 0 {
      var j := n - 1;
      DropScanDistinct(configs, attempts, collected, done, j);
      DropScanExact(configs, attempts, collected, done, j);
      var prev := DropScan(configs, attempts, collected, done, j);
      if configs[j].runId !in collected && j in done && attempts[j].Returned? {
        var x := Settle(configs[j], attempts[j]);
        forall p | 0 <= p < |prev|
          ensures prev[p].runId != x.runId
        {
          assert prev[p] in prev;
          var q :| 0 <= q < j && prev[p] == Settle(configs[q], attempts[q]);
          assert ConfigIds(configs)[q] != ConfigIds(configs)[j];
        }
        assert RunIdsOf(prev + [x]) == RunIdsOf(prev) + [x.runId];
      }
    }
  }

  /** After an interrupt the variant's drain repeats no run id either: the
      results it keeps are a duplicate-free selection of the runs. */
  lemma DropDrainDistinct(configs: seq<RunConfig>, attempts: seq<Attempt>, results: seq<Collected>, done: set<nat>)
    requires |configs| == |attempts|
    requires Distinct(ConfigIds(configs)) && Distinct(RunIdsOf(results))
    ensures Distinct(RunIdsOf(DropDrain(configs, attempts, results, done)))
  {
    DropScanDistinct(configs, attempts, ResultIds(results), done, |configs|);
    DistinctConcat(results, DropScan(configs, attempts, ResultIds(results), done, |configs|));
  }
}

=== FILE: json.dfy ===
/** JSON documents as `json.loads` hands them to the Python code, and the two
    dict/truthiness operations the metrics code applies to them. */
module Json {

  /** A parsed JSON value. Objects are dicts (a repeated key keeps its last
      value, so a map is faithful); numbers are integers in this model. */
  datatype Value =
    | Null
    | Bool(b: bool)
    | Int(i: int)
    | Str(s: string)
    | Arr(items: seq<Value>)
    | Obj(fields: map<string, Value>)

  /** Python's `bool(v)`: `None`, `False`, `0`, `""`, `[]` and `{}` are false. */
  predicate Truthy(v: Value) {
    match v
    case Null => false
    case Bool(b) => b
    case Int(i) => i != 0
    case Str(s) => |s| > 0
    case Arr(items) => |items| > 0
    case Obj(fields) => |fields| > 0
  }

  /** `d.get(key, default)` on a dict. */
  function Get(fields: map<string, Value>, key: string, default: Value): Value {
    if key in fields then fields[key] else default
  }

  /** The Python class name of the value, as it appears in error messages. */
  function TypeName(v: Value): string {
    match v
    case Null => "NoneType"
    case Bool(_) => "bool"
    case Int(_) => "int"
    case Str(_) => "str"
    case Arr(_) => "list"
    case Obj(_) => "dict"
  }

  const EmptyObj: Value := Obj(map[])
}

=== FILE: plan.dfy ===
/** Plan metrics: the plan files found in a run's repository and what is
    counted in them (lines, `#` headings, task check-boxes, back-quoted file
    names). A directory is reduced to its listing: each entry has a name and
    its text, or nothing when it cannot be read as text. */
module Plan {
  import opened Util

  datatype Entry = Entry(name: string, content: Option<string>)

  datatype PlanMetrics = PlanMetrics(totalLines: nat, sections: nat, tasks: nat, filesReferenced: seq<string>)

  const NoPlan: PlanMetrics := PlanMetrics(0, 0, 0, [])

  // ---------------------------------------------------------------------------
  // Lines

  function Newlines(s: string): nat {
    if |s| == 0 then 0 else (if s[0] == '\n' then 1 else 0) + Newlines(s[1..])
  }

  /** `len(content.split("\n"))`. */
  function LineCount(s: string): nat {
    Newlines(s) + 1
  }

  lemma {:induction false} NewlinesConcat(a: string, b: string)
    ensures Newlines(a + b) == Newlines(a) + Newlines(b)
    decreases |a|
  {
    if |a| > 0 {
      assert (a + b)[1..] == a[1..] + b;
      NewlinesConcat(a[1..], b);
    } else {
      assert a + b == b;
    }
  }

  /** Joining two texts with a newline adds their line counts. */
  lemma LineCountJoin(a: string, b: string)
    ensures LineCount(a + "\n" + b) == LineCount(a) + LineCount(b)
  {
    NewlinesConcat(a, "\n" + b);
    assert a + "\n" + b == a + ("\n" + b);
    assert ("\n" + b)[1..] == b;
  }

  // ---------------------------------------------------------------------------
  // Patterns anchored at the start of a line (`re.MULTILINE`)

  /** `^` in multi-line mode: the start of the text or just after a newline. */
  predicate LineStartAt(s: string, p: nat)
    requires p <= |s|
  {
    p == 0 || s[p - 1] == '\n'
  }

  /** The number of line starts at or after `p` where the pattern `m`
      matches: `len(re.findall(...))` for a pattern that begins with `^`
      and cannot reach past the next line start. */
  function MatchesFrom(s: string, p: nat, m: string -> bool): nat
    requires p <= |s|
    decreases |s| - p
  {
    (if p < |s| then MatchesFrom(s, p + 1, m) else 0)
    + (if LineStartAt(s, p) && m(s[p..]) then 1 else 0)
  }

  /** The positions counted, as a set. */
  function MatchSet(s: string, p: nat, m: string -> bool): set<nat>
    requires p <= |s|
  {
    set q: nat | p <= q <= |s| && LineStartAt(s, q) && m(s[q..])
  }

  /** The count is the number of line starts where the pattern matches. */
  lemma {:induction false} MatchesFromCounts(s: string, p: nat, m: string -> bool)
    requires p <= |s|
    ensures MatchesFrom(s, p, m) == |MatchSet(s, p, m)|
    decreases |s| - p
  {
    if p < |s| {
      MatchesFromCounts(s, p + 1, m);
      MatchSetSplit(s, p, m);
    } else {
      assert MatchSet(s, p, m) == if LineStartAt(s, p) && m(s[p..]) then {p} else {};
    }
  }

  /** The positions counted from `p` are `p`, when it counts, and those
      counted from `p + 1`. */
  lemma MatchSetSplit(s: string, p: nat, m: string -> bool)
    requires p < |s|
    ensures var here: set<nat> := if LineStartAt(s, p) && m(s[p..]) then {p} else {};
      && MatchSet(s, p, m) == here + MatchSet(s, p + 1, m)
      && |MatchSet(s, p, m)| == |here| + |MatchSet(s, p + 1, m)|
  {
    var here: set<nat> := if LineStartAt(s, p) && m(s[p..]) then {p} else {};
    var rest := MatchSet(s, p + 1, m);
    assert MatchSet(s, p, m) == here + rest;
    assert here !! rest;
  }

  /** Every line start counts once at most, so a count never exceeds the
      number of lines. */
  lemma {:induction false} MatchesAtMostLines(s: string, p: nat, m: string -> bool)
    requires p <= |s|
    ensures MatchesFrom(s, p, m) <= (if LineStartAt(s, p) then 1 else 0) + Newlines(s[p..])
    decreases |s| - p
  {
    if p < |s| {
      MatchesAtMostLines(s, p + 1, m);
      assert s[p..][1..] == s[p + 1..];
    }
  }

  /** The length of the run of `#` at the start of `s`. */
  function HashRun(s: string): (k: nat)
    ensures k <= |s| && forall i :: 0 <= i < k ==> s[i] == '#'
    ensures k == |s| || s[k] != '#'
    decreases |s|
  {
    if |s| > 0 && s[0] == '#' then 1 + HashRun(s[1..]) else 0
  }

  /** `#+\s` at the start of `s`: one or more `#` and then a whitespace
      character, which may be the newline ending the line. */
  predicate SectionAt(s: string) {
    var k := HashRun(s);
    1 <= k < |s| && IsSpace(s[k])
  }

  /** `[-*]\s\[[ x]\]` at the start of `s`. */
  predicate TaskAt(s: string) {
    && |s| >= 5
    && (s[0] == '-' || s[0] == '*')
    && IsSpace(s[1])
    && s[2] == '['
    && (s[3] == ' ' || s[3] == 'x')
    && s[4] == ']'
  }

  function Sections(s: string): nat {
    MatchesFrom(s, 0, SectionAt)
  }

  function Tasks(s: string): nat {
    MatchesFrom(s, 0, TaskAt)
  }

  /** Headings and tasks are counted per line: no more of either than the
      text has lines. */
  lemma CountsWithinLines(s: string)
    ensures Sections(s) <= LineCount(s) && Tasks(s) <= LineCount(s)
  {
    MatchesAtMostLines(s, 0, SectionAt);
    MatchesAtMostLines(s, 0, TaskAt);
    assert s[0..] == s;
  }

  // ---------------------------------------------------------------------------
  // Back-quoted file names: re.findall(r"`([^`]+\.[a-z]+)`", content)

  predicate NoTick(s: string) {
    forall i :: 0 <= i < |s| ==> s[i] != '`'
  }

  /** The first back-quote at or after `i`, or the end of the text. */
  function NextTick(s: string, i: nat): (j: nat)
    requires i <= |s|
    ensures i <= j <= |s| && (j == |s| || s[j] == '`')
    decreases |s| - i
  {
    if i == |s| || s[i] == '`' then i else NextTick(s, i + 1)
  }

  /** The next back-quote is the first one at or after `i`. */
  lemma {:induction false} NextTickAt(s: string, i: nat, j: nat)
    requires i <= j < |s| && s[j] == '`'
    requires forall k :: i <= k < j ==> s[k] != '`'
    ensures NextTick(s, i) == j
    decreases j - i
  {
    if i < j {
      NextTickAt(s, i + 1, j);
    }
  }

  /** The text skipped to reach the next back-quote has none. */
  lemma {:induction false} NextTickSkipsNone(s: string, i: nat)
    requires i <= |s|
    ensures NoTick(s[i..NextTick(s, i)])
    decreases |s| - i
  {
    if i < |s| && s[i] != '`' {
      NextTickSkipsNone(s, i + 1);
      assert s[i..NextTick(s, i)] == [s[i]] + s[i + 1..NextTick(s, i + 1)];
    }
  }

  /** The length of the longest suffix of lower-case ASCII letters. */
  function LowerSuffix(s: string): (k: nat)
    ensures k <= |s|
    decreases |s|
  {
    if |s| > 0 && IsLowerAscii(s[|s| - 1]) then 1 + LowerSuffix(s[..|s| - 1]) else 0
  }

  /** The suffix is all lower-case letters and cannot be extended. */
  lemma {:induction false} LowerSuffixLongest(s: string)
    ensures var k := LowerSuffix(s);
      && (forall i :: |s| - k <= i < |s| ==> IsLowerAscii(s[i]))
      && (k == |s| || !IsLowerAscii(s[|s| - k - 1]))
    decreases |s|
  {
    if |s| > 0 && IsLowerAscii(s[|s| - 1]) {
      var init := s[..|s| - 1];
      LowerSuffixLongest(init);
      assert forall i :: 0 <= i < |init| ==> init[i] == s[i];
    }
  }

  /** The text between two back-quotes is a reference when it ends in a dot
      and one or more lower-case letters, with something before the dot. */
  predicate IsRef(seg: string) {
    var k := LowerSuffix(seg);
    k >= 1 && |seg| >= k + 2 && seg[|seg| - k - 1] == '.'
  }

  predicate AllLower(s: string) {
    forall i :: 0 <= i < |s| ==> IsLowerAscii(s[i])
  }

  /** The regular expression's reading: the text splits as something, a
      dot, and lower-case letters. */
  lemma IsRefSplit(seg: string)
    ensures IsRef(seg) <==> exists q :: 1 <= q < |seg| - 1 && seg[q] == '.' && AllLower(seg[q + 1..])
  {
    var k := LowerSuffix(seg);
    LowerSuffixLongest(seg);
    if IsRef(seg) {
      var q := |seg| - k - 1;
      assert seg[q] == '.' && AllLower(seg[q + 1..]);
    }
    if exists q :: 1 <= q < |seg| - 1 && seg[q] == '.' && AllLower(seg[q + 1..]) {
      var q :| 1 <= q < |seg| - 1 && seg[q] == '.' && AllLower(seg[q + 1..]);
      assert !IsLowerAscii(seg[q]);
    }
  }

  /** The references found in `s`. A match starts at a back-quote and runs
      to the next one; the scan resumes after a match, or at the closing
      back-quote when the text between does not qualify. The pattern never
      looks behind, so the scan is written on the text still to be read. */
  function Refs(s: string): (r: seq<string>)
    decreases |s|
  {
    if |s| == 0 then []
    else if s[0] != '`' then Refs(s[1..])
    else
      var j := NextTick(s, 1);
      if j < |s| && IsRef(s[1..j]) then [s[1..j]] + Refs(s[j + 1..])
      else Refs(s[j..])
  }

  /** Every reference found qualifies and lies between two back-quotes. */
  lemma {:induction false} RefsAreRefs(s: string)
    ensures forall r :: r in Refs(s) ==> IsRef(r) && NoTick(r)
    decreases |s|
  {
    if |s| > 0 {
      if s[0] != '`' {
        RefsAreRefs(s[1..]);
      } else {
        var j := NextTick(s, 1);
        NextTickSkipsNone(s, 1);
        RefsAreRefs(s[j..]);
        if j < |s| {
          RefsAreRefs(s[j + 1..]);
        }
      }
    }
  }

  /** A back-quoted reference is found, and the scan goes on after it. */
  lemma QuotedRef(name: string, rest: string)
    requires IsRef(name) && NoTick(name)
    ensures Refs("`" + name + "`" + rest) == [name] + Refs(rest)
  {
    NextTickOver(name, rest);
    RefsAtTick("`" + name + "`" + rest, |name| + 1, name, rest);
  }

  /** At a back-quote the scan reads up to the next one, and a reference
      found there is followed by the references after it. */
  lemma RefsAtTick(s: string, j: nat, name: string, rest: string)
    requires |s| > 0 && s[0] == '`' && NextTick(s, 1) == j && j < |s|
    requires s[1..j] == name && s[j + 1..] == rest && IsRef(name)
    ensures Refs(s) == [name] + Refs(rest)
  {
  }

  /** The scan of a back-quoted name stops at the closing back-quote. */
  lemma NextTickOver(name: string, rest: string)
    requires NoTick(name)
    ensures var s := "`" + name + "`" + rest;
      && s[0] == '`' && |name| + 1 < |s|
      && NextTick(s, 1) == |name| + 1
      && s[1..|name| + 1] == name && s[|name| + 2..] == rest
  {
    var s := "`" + name + "`" + rest;
    assert s[|name| + 1] == '`';
    assert forall k :: 1 <= k < |name| + 1 ==> s[k] == name[k - 1];
    NextTickAt(s, 1, |name| + 1);
    assert s[1..|name| + 1] == name;
    assert s[|name| + 2..] == rest;
  }

  /** Text without back-quotes references nothing. */
  lemma {:induction false} NoTickNoRefs(s: string)
    requires NoTick(s)
    ensures Refs(s) == []
    decreases |s|
  {
    if |s| > 0 {
      NoTickNoRefs(s[1..]);
    }
  }

  // ---------------------------------------------------------------------------
  // The plan files and their metrics

  predicate IsPlanName(name: string) {
    EndsWith(name, ".md") || name == "plan.txt" || name == "PLAN.txt"
  }

  function Named(dir: seq<Entry>, name: string): (r: seq<Entry>)
    ensures forall e :: e in r <==> e in dir && e.name == name
  {
    if |dir| == 0 then []
    else Named(dir[..|dir| - 1], name) + (if dir[|dir| - 1].name == name then [dir[|dir| - 1]] else [])
  }

  function Markdown(dir: seq<Entry>): (r: seq<Entry>)
    ensures forall e :: e in r <==> e in dir && EndsWith(e.name, ".md")
  {
    if |dir| == 0 then []
    else Markdown(dir[..|dir| - 1]) + (if EndsWith(dir[|dir| - 1].name, ".md") then [dir[|dir| - 1]] else [])
  }

  /** The files read, as the four glob patterns `*.md`, `plan.txt`,
      `PLAN.md`, `PLAN.txt` are expanded one after the other. */
  function PlanFilesAsWritten(dir: seq<Entry>): seq<Entry> {
    Markdown(dir) + Named(dir, "plan.txt") + Named(dir, "PLAN.md") + Named(dir, "PLAN.txt")
  }

  /** The files read, each plan file once. */
  function PlanFiles(dir: seq<Entry>): (r: seq<Entry>)
    ensures forall e :: e in r <==> e in dir && IsPlanName(e.name)
    ensures |r| <= |dir|
  {
    if |dir| == 0 then []
    else PlanFiles(dir[..|dir| - 1]) + (if IsPlanName(dir[|dir| - 1].name) then [dir[|dir| - 1]] else [])
  }

  /** A listing names each entry once. */
  predicate Listing(dir: seq<Entry>) {
    forall i, j :: 0 <= i < j < |dir| ==> dir[i].name != dir[j].name
  }

  /** Every plan file of a listing is read exactly once. */
  lemma {:induction false} PlanFilesOnce(dir: seq<Entry>)
    requires Listing(dir)
    ensures Listing(PlanFiles(dir))
  {
    if |dir| > 0 {
      var init := dir[..|dir| - 1];
      assert Listing(init);
      PlanFilesOnce(init);
      var last := dir[|dir| - 1];
      forall e | e in PlanFiles(init)
        ensures e.name != last.name
      {
        var i :| 0 <= i < |init| && init[i] == e;
      }
    }
  }

  /** The metrics of the files read, in reading order; unreadable files are
      skipped. The references are kept as found. */
  function Accumulate(files: seq<Entry>): (m: PlanMetrics) {
    if |files| == 0 then NoPlan
    else
      var m := Accumulate(files[..|files| - 1]);
      match files[|files| - 1].content
      case None => m
      case Some(c) =>
        PlanMetrics(m.totalLines + LineCount(c), m.sections + Sections(c), m.tasks + Tasks(c), m.filesReferenced + Refs(c))
  }

  /** `collect_plan_metrics` as written: the counts accumulated over the
      files the four patterns produce, with every referenced file name once. */
  function CollectPlanMetricsAsWritten(dir: seq<Entry>): (m: PlanMetrics)
    ensures var a := Accumulate(PlanFilesAsWritten(dir));
      m.totalLines == a.totalLines && m.sections == a.sections && m.tasks == a.tasks
    ensures Distinct(m.filesReferenced)
    ensures ToSet(m.filesReferenced) == ToSet(Accumulate(PlanFilesAsWritten(dir)).filesReferenced)
    ensures PlanFilesAsWritten(dir) == [] ==> m == NoPlan
  {
    var m := Accumulate(PlanFilesAsWritten(dir));
    m.(filesReferenced := Dedupe(m.filesReferenced))
  }

  /** `collect_plan_metrics` with every plan file read once: the same
      metrics over the plan files of the listing. */
  function CollectPlanMetrics(dir: seq<Entry>): (m: PlanMetrics)
    ensures var a := Accumulate(PlanFiles(dir));
      m.totalLines == a.totalLines && m.sections == a.sections && m.tasks == a.tasks
    ensures Distinct(m.filesReferenced)
    ensures ToSet(m.filesReferenced) == ToSet(Accumulate(PlanFiles(dir)).filesReferenced)
    ensures PlanFiles(dir) == [] ==> m == NoPlan
  {
    var m := Accumulate(PlanFiles(dir));
    m.(filesReferenced := Dedupe(m.filesReferenced))
  }

  /** A name is referenced exactly when one of the readable files read
      references it. */
  lemma {:induction false} AccumulateRefs(files: seq<Entry>, r: string)
    ensures r in Accumulate(files).filesReferenced <==>
            exists e :: e in files && e.content.Some? && r in Refs(e.content.value)
    decreases |files|
  {
    if |files| > 0 {
      var init := files[..|files| - 1];
      var last := files[|files| - 1];
      AccumulateRefs(init, r);
      assert files == init + [last];
      assert forall e :: e in files <==> e in init || e == last;
    }
  }

  /** The four patterns and the plan-name filter read the same files, if
      not equally often. */
  lemma SamePlanFiles(dir: seq<Entry>)
    ensures forall e :: e in PlanFilesAsWritten(dir) <==> e in PlanFiles(dir)
  {
    assert EndsWith("PLAN.md", ".md") by {
      assert "PLAN.md"[|"PLAN.md"| - 3..] == ".md";
    }
  }

  /** Reading `PLAN.md` twice adds no referenced name: both readings report
      the same references. */
  lemma AsWrittenSameRefs(dir: seq<Entry>)
    ensures ToSet(CollectPlanMetricsAsWritten(dir).filesReferenced) == ToSet(CollectPlanMetrics(dir).filesReferenced)
  {
    SamePlanFiles(dir);
    forall r | true
      ensures r in ToSet(Accumulate(PlanFilesAsWritten(dir)).filesReferenced)
          <==> r in ToSet(Accumulate(PlanFiles(dir)).filesReferenced)
    {
      AccumulateRefs(PlanFilesAsWritten(dir), r);
      AccumulateRefs(PlanFiles(dir), r);
    }
  }

  /** The counts over several files are the sums of the counts per file. */
  lemma {:induction false} AccumulateConcat(a: seq<Entry>, b: seq<Entry>)
    ensures var m := Accumulate(a + b); var ma := Accumulate(a); var mb := Accumulate(b);
      && m.totalLines == ma.totalLines + mb.totalLines
      && m.sections == ma.sections + mb.sections
      && m.tasks == ma.tasks + mb.tasks
      && m.filesReferenced == ma.filesReferenced + mb.filesReferenced
    decreases |b|
  {
    if |b| > 0 {
      assert (a + b)[..|a + b| - 1] == a + b[..|b| - 1];
      AccumulateConcat(a, b[..|b| - 1]);
    } else {
      assert a + b == a;
    }
  }

  /** The counts over four lists read one after the other are the sums of
      their counts. */
  lemma AccumulateFour(a: seq<Entry>, b: seq<Entry>, c: seq<Entry>, d: seq<Entry>)
    ensures var m := Accumulate(a + b + c + d);
      var ma := Accumulate(a); var mb := Accumulate(b); var mc := Accumulate(c); var md := Accumulate(d);
      && m.totalLines == ma.totalLines + mb.totalLines + mc.totalLines + md.totalLines
      && m.sections == ma.sections + mb.sections + mc.sections + md.sections
      && m.tasks == ma.tasks + mb.tasks + mc.tasks + md.tasks
  {
    AccumulateConcat(a + b + c, d);
    AccumulateConcat(a + b, c);
    AccumulateConcat(a, b);
  }

  /** `[e]` when `b` holds, nothing otherwise. */
  function IfMatched(e: Entry, b: bool): seq<Entry> {
    if b then [e] else []
  }

  /** One entry is matched by the four patterns as often as it is a plan
      file, and once more when it is `PLAN.md`. */
  lemma MatchedOnce(x: Entry)
    ensures var w1 := Accumulate(IfMatched(x, EndsWith(x.name, ".md")));
      var w2 := Accumulate(IfMatched(x, x.name == "plan.txt"));
      var w3 := Accumulate(IfMatched(x, x.name == "PLAN.md"));
      var w4 := Accumulate(IfMatched(x, x.name == "PLAN.txt"));
      var p := Accumulate(IfMatched(x, IsPlanName(x.name)));
      && w1.totalLines + w2.totalLines + w3.totalLines + w4.totalLines == p.totalLines + w3.totalLines
      && w1.sections + w2.sections + w3.sections + w4.sections == p.sections + w3.sections
      && w1.tasks + w2.tasks + w3.tasks + w4.tasks == p.tasks + w3.tasks
  {
    assert Accumulate([]) == NoPlan;
    if x.name == "PLAN.md" {
      assert EndsWith(x.name, ".md") by {
        assert "PLAN.md"[|"PLAN.md"| - 3..] == ".md";
      }
    } else if x.name == "plan.txt" {
      assert !EndsWith(x.name, ".md") by {
        assert "plan.txt"[|"plan.txt"| - 3..] != ".md";
      }
    } else if x.name == "PLAN.txt" {
      assert !EndsWith(x.name, ".md") by {
        assert "PLAN.txt"[|"PLAN.txt"| - 3..] != ".md";
      }
    }
  }

  /** The four patterns read every plan file once and `PLAN.md` once more:
      each count is the count over the plan files plus that of `PLAN.md`. */
  lemma {:induction false} AsWrittenCounts(dir: seq<Entry>)
    ensures var w := Accumulate(PlanFilesAsWritten(dir));
      var p := Accumulate(PlanFiles(dir)); var d := Accumulate(Named(dir, "PLAN.md"));
      && w.totalLines == p.totalLines + d.totalLines
      && w.sections == p.sections + d.sections
      && w.tasks == p.tasks + d.tasks
    decreases |dir|
  {
    if |dir| == 0 {
      assert PlanFilesAsWritten(dir) == [] && PlanFiles(dir) == [] && Named(dir, "PLAN.md") == [];
    } else {
      var init := dir[..|dir| - 1];
      var x := dir[|dir| - 1];
      AsWrittenCounts(init);
      var o1 := IfMatched(x, EndsWith(x.name, ".md"));
      var o2 := IfMatched(x, x.name == "plan.txt");
      var o3 := IfMatched(x, x.name == "PLAN.md");
      var o4 := IfMatched(x, x.name == "PLAN.txt");
      var md, pt, pm, pT := Markdown(init), Named(init, "plan.txt"), Named(init, "PLAN.md"), Named(init, "PLAN.txt");
      assert PlanFilesAsWritten(dir) == (md + o1) + (pt + o2) + (pm + o3) + (pT + o4);
      assert PlanFilesAsWritten(init) == md + pt + pm + pT;
      assert Named(dir, "PLAN.md") == pm + o3;
      assert PlanFiles(dir) == PlanFiles(init) + IfMatched(x, IsPlanName(x.name));
      AccumulateFour(md + o1, pt + o2, pm + o3, pT + o4);
      AccumulateFour(md, pt, pm, pT);
      AccumulateConcat(md, o1);
      AccumulateConcat(pt, o2);
      AccumulateConcat(pm, o3);
      AccumulateConcat(pT, o4);
      AccumulateConcat(PlanFiles(init), IfMatched(x, IsPlanName(x.name)));
      MatchedOnce(x);
    }
  }

  /** Headings and tasks: never more than lines, over all plan files. */
  lemma {:induction false} AccumulateWithinLines(files: seq<Entry>)
    ensures var m := Accumulate(files); m.sections <= m.totalLines && m.tasks <= m.totalLines
    decreases |files|
  {
    if |files| > 0 {
      AccumulateWithinLines(files[..|files| - 1]);
      if files[|files| - 1].content.Some? {
        CountsWithinLines(files[|files| - 1].content.value);
      }
    }
  }

  /** A `PLAN.md` is matched by `*.md` and again by its own pattern, so its
      lines and headings count twice. */
  lemma PlanMdCountedTwice()
    ensures var dir := [Entry("PLAN.md", Some("# x"))];
      && CollectPlanMetricsAsWritten(dir).totalLines == 2
      && CollectPlanMetricsAsWritten(dir).sections == 2
      && CollectPlanMetrics(dir).totalLines == 1
      && CollectPlanMetrics(dir).sections == 1
  {
    var e := Entry("PLAN.md", Some("# x"));
    var dir := [e];
    assert PlanFilesAsWritten(dir) == [e] + [e] && PlanFiles(dir) == [e] by {
      assert dir[..0] == [];
      assert EndsWith(e.name, ".md") by {
        assert e.name[|e.name| - 3..] == ".md";
      }
    }
    assert Accumulate([e]).totalLines == 1 && Accumulate([e]).sections == 1 by {
      assert [e][..0] == [];
      OneHeadingLine();
    }
    AccumulateConcat([e], [e]);
  }

  lemma OneHeadingLine()
    ensures LineCount("# x") == 1 && Sections("# x") == 1
  {
    var s := "# x";
    assert !LineStartAt(s, 1) && !LineStartAt(s, 2) && !LineStartAt(s, 3);
    assert SectionAt(s[0..]) by {
      assert s[0..] == s && HashRun(s) == 1;
    }
  }
}

=== FILE: tokenlog.dfy ===
/** Token counts read from an agent's log. For each of `input`, `output` and
    `total`, the first match of `<word>[_\s]tokens?[:\s]+(\d+)`, compared
    without regard to case, gives the count under `<word>_tokens`; a word
    without a match leaves its key out. */
module TokenLog {
  import opened Util

  /** The pattern words and the keys they fill. */
  predicate Pattern(word: string, key: string) {
    || (word == "input" && key == "input_tokens")
    || (word == "output" && key == "output_tokens")
    || (word == "total" && key == "total_tokens")
  }

  const TokenKeys: set<string> := {"input_tokens", "output_tokens", "total_tokens"}

  /** `s` spells the lower-case text `lower` in any mixture of case. Only
      ASCII letters are folded. */
  predicate FoldsTo(s: string, lower: string) {
    |s| == |lower| && forall i :: 0 <= i < |s| ==> ToLower(s[i]) == lower[i]
  }

  predicate FoldPrefix(s: string, lower: string) {
    |lower| <= |s| && FoldsTo(s[..|lower|], lower)
  }

  predicate IsSep(c: char) {
    c == ':' || IsSpace(c)
  }

  /** The length of the run of `[:\s]` at the start of `s`. */
  function SepRun(s: string): (k: nat)
    ensures k <= |s| && forall i :: 0 <= i < k ==> IsSep(s[i])
    ensures k == |s| || !IsSep(s[k])
    decreases |s|
  {
    if |s| > 0 && IsSep(s[0]) then 1 + SepRun(s[1..]) else 0
  }

  /** `[:\s]+(\d+)` at the start of `s`: the digits of the count. Both runs
      are taken whole: a separator is not a digit. */
  function CountAt(s: string): (r: Option<string>)
    ensures r.Some? ==> |r.value| > 0 && AllDigits(r.value)
  {
    var k := SepRun(s);
    var t := s[k..];
    var d := DigitRun(t);
    if k == 0 || d == 0 then None else Some(t[..d])
  }

  /** `tokens?` and the rest, after the joining character. */
  function AfterJoin(s: string): (r: Option<string>)
    ensures r.Some? ==> |r.value| > 0 && AllDigits(r.value)
  {
    if !FoldPrefix(s, "token") then None
    else
      var t := s[5..];
      if |t| > 0 && ToLower(t[0]) == 's' then CountAt(t[1..]) else CountAt(t)
  }

  /** The whole pattern for `word` at the start of `s`. */
  function TokenAt(s: string, word: string): (r: Option<string>)
    ensures r.Some? ==> |r.value| > 0 && AllDigits(r.value)
  {
    if !FoldPrefix(s, word) || |s| == |word| then None
    else
      var c := s[|word|];
      if c == '_' || IsSpace(c) then AfterJoin(s[|word| + 1..]) else None
  }

  /** `TokenAt` for `word`, as the matcher a search tries at each position. */
  function Matcher(word: string): string -> Option<string> {
    s => TokenAt(s, word)
  }

  /** The log mentions a count for `word` somewhere. */
  predicate Mentions(log: string, word: string) {
    exists p :: 0 <= p <= |log| && TokenAt(log[p..], word).Some?
  }

  /** `re.search`: the count at the leftmost match. */
  function Find(log: string, word: string): (r: Option<nat>)
    ensures r.Some? <==> Mentions(log, word)
  {
    FirstMatchLeftmost(log, 0, Matcher(word));
    match FirstMatch(log, 0, Matcher(word))
    case None => None
    case Some(p) => Some(DigitsValue(TokenAt(log[p..], word).value))
  }

  /** The count recorded under `key`, if any. */
  function Lookup(usage: map<string, int>, key: string): Option<int> {
    if key in usage then Some(usage[key]) else None
  }

  function AddFound(usage: map<string, int>, log: string, word: string, key: string): (r: map<string, int>)
    ensures r.Keys <= usage.Keys + {key}
    ensures Lookup(r, key) == Find(log, word) || (Find(log, word).None? && Lookup(r, key) == Lookup(usage, key))
    ensures forall k :: k != key ==> Lookup(r, k) == Lookup(usage, k)
  {
    match Find(log, word)
    case None => usage
    case Some(n) => usage[key := n]
  }

  /** `extract_token_usage`: each key holds the count of the first match of
      its pattern, and is absent when the pattern matches nowhere. */
  function ExtractTokenUsage(log: string): (r: map<string, int>)
    ensures r.Keys <= TokenKeys
    ensures Lookup(r, "input_tokens") == Find(log, "input")
    ensures Lookup(r, "output_tokens") == Find(log, "output")
    ensures Lookup(r, "total_tokens") == Find(log, "total")
  {
    var u0: map<string, int> := map[];
    var u1 := AddFound(u0, log, "input", "input_tokens");
    var u2 := AddFound(u1, log, "output", "output_tokens");
    AddFound(u2, log, "total", "total_tokens")
  }

  /** The key of each pattern is present exactly when the log mentions a
      count for its word. */
  lemma KeyPresentIffMentioned(log: string, word: string, key: string)
    requires Pattern(word, key)
    ensures key in ExtractTokenUsage(log) <==> Mentions(log, word)
  {
    ExtractLookup(log, word, key);
  }

  lemma ExtractLookup(log: string, word: string, key: string)
    requires Pattern(word, key)
    ensures Lookup(ExtractTokenUsage(log), key) == Find(log, word)
  {
  }

  /** A log without any count mentioned yields an empty map. */
  lemma NothingMentioned(log: string)
    requires !Mentions(log, "input") && !Mentions(log, "output") && !Mentions(log, "total")
    ensures ExtractTokenUsage(log) == map[]
  {
    var r := ExtractTokenUsage(log);
    assert Lookup(r, "input_tokens").None? && Lookup(r, "output_tokens").None? && Lookup(r, "total_tokens").None?;
    assert forall k :: k in r ==> k in TokenKeys;
  }

  // ---------------------------------------------------------------------------
  // Reading back a printed count

  /** A line in the shape the patterns look for: the word and `tokens` in
      any case, joined by an underscore or whitespace, a colon and a space,
      then the count. */
  function TokenLine(w: string, join: char, t: string, n: nat): string {
    w + ([join] + (t + (": " + NatToString(n))))
  }

  predicate WellFormedLine(w: string, word: string, join: char, t: string) {
    && FoldsTo(w, word)
    && (join == '_' || IsSpace(join))
    && (FoldsTo(t, "tokens") || FoldsTo(t, "token"))
  }

  lemma CountAtNumber(n: nat, rest: string)
    requires |rest| == 0 || !IsDigit(rest[0])
    ensures CountAt(": " + (NatToString(n) + rest)) == Some(NatToString(n))
  {
    var s := ": " + (NatToString(n) + rest);
    assert SepRun(s) == 2 by {
      assert s[1..] == " " + (NatToString(n) + rest);
      assert s[2..] == NatToString(n) + rest;
      assert !IsSep(s[2]);
    }
    DigitRunOfNumber(n, rest);
  }

  /** After `tokens?` in any case, the rest is read for the count, provided
      it does not itself start with an `s`. */
  lemma AfterJoinTail(t: string, tail: string)
    requires FoldsTo(t, "tokens") || FoldsTo(t, "token")
    requires |tail| > 0 && ToLower(tail[0]) != 's'
    ensures AfterJoin(t + tail) == CountAt(tail)
  {
    var s := t + tail;
    assert FoldPrefix(s, "token") by {
      assert s[..5] == t[..5];
    }
    if FoldsTo(t, "tokens") {
      assert s[5..] == [t[5]] + tail;
      assert s[5..][1..] == tail;
    } else {
      assert s[5..] == tail;
    }
  }

  lemma AfterJoinNumber(t: string, n: nat, rest: string)
    requires FoldsTo(t, "tokens") || FoldsTo(t, "token")
    requires |rest| == 0 || !IsDigit(rest[0])
    ensures AfterJoin(t + (": " + (NatToString(n) + rest))) == Some(NatToString(n))
  {
    AfterJoinTail(t, ": " + (NatToString(n) + rest));
    CountAtNumber(n, rest);
  }

  /** A printed count is read back whole, whatever the case of the words. */
  lemma TokenAtLine(w: string, word: string, join: char, t: string, n: nat, rest: string)
    requires WellFormedLine(w, word, join, t)
    requires |rest| == 0 || !IsDigit(rest[0])
    ensures TokenAt(TokenLine(w, join, t, n) + rest, word) == Some(NatToString(n))
  {
    var after := t + (": " + (NatToString(n) + rest));
    var s := TokenLine(w, join, t, n) + rest;
    assert s == w + ([join] + after);
    assert s[..|w|] == w;
    assert s[|w|] == join;
    assert s[|w| + 1..] == after;
    AfterJoinNumber(t, n, rest);
  }

  /** A log that starts with a count line reports that count under the
      line's key, whatever follows. */
  lemma LeadingLineCounts(word: string, key: string, w: string, join: char, t: string, n: nat, rest: string)
    requires Pattern(word, key)
    requires WellFormedLine(w, word, join, t)
    requires |rest| == 0 || !IsDigit(rest[0])
    ensures var log := TokenLine(w, join, t, n) + rest;
      Lookup(ExtractTokenUsage(log), key) == Some(n)
  {
    var log := TokenLine(w, join, t, n) + rest;
    TokenAtLine(w, word, join, t, n, rest);
    assert log[0..] == log;
    assert FirstMatch(log, 0, Matcher(word)) == Some(0);
    DigitsValueOfNatToString(n);
    assert Find(log, word) == Some(n);
    ExtractLookup(log, word, key);
  }
}

=== FILE: util.dfy ===
/** Shared vocabulary of the model: optional values, the Python exceptions the
    code raises and catches, and the handful of `str` operations the source
    relies on (whitespace stripping, prefixes, decimal digits, de-duplication).
 */
module Util {

  /** `X | None` in the source. */
  datatype Option<+T> = None | Some(value: T) {
    function GetOr(default: T): T {
      match this
      case Some(v) => v
      case None => default
    }
  }

  /** A Python exception, reduced to what the code looks at: its class (only
      Docker's `ContainerError` is told apart, and it carries the container's
      stderr) and `str(e)`, the message. */
  datatype Exc =
    | ContainerError(message: string, stderr: Option<string>)
    | RuntimeError(message: string)
    | TypeError(message: string)
    | AttributeError(message: string)
    | OtherError(message: string)

  /** `str(e)`. */
  function Describe(e: Exc): string {
    e.message
  }

  /** A call that either returns a value or raises. */
  datatype Result<+T> = Ok(value: T) | Err(error: Exc)

  // ---------------------------------------------------------------------------
  // Characters

  /** Python's notion of whitespace: the characters for which `str.isspace()`
      holds, which are exactly the ones `str.strip()` removes and the regular
      expression class `\s` matches on `str` patterns. */
  predicate IsSpace(c: char) {
    || ('\U{9}' <= c <= '\U{D}')
    || ('\U{1C}' <= c <= '\U{20}')
    || c == '\U{85}' || c == '\U{A0}' || c == '\U{1680}'
    || ('\U{2000}' <= c <= '\U{200A}')
    || c == '\U{2028}' || c == '\U{2029}' || c == '\U{202F}' || c == '\U{205F}' || c == '\U{3000}'
  }

  predicate AllSpace(s: string) {
    forall i :: 0 <= i < |s| ==> IsSpace(s[i])
  }

  /** The ASCII decimal digits. */
  predicate IsDigit(c: char) {
    '0' <= c <= '9'
  }

  predicate AllDigits(s: string) {
    forall i :: 0 <= i < |s| ==> IsDigit(s[i])
  }

  predicate IsAsciiLetter(c: char) {
    ('a' <= c <= 'z') || ('A' <= c <= 'Z')
  }

  predicate IsLowerAscii(c: char) {
    'a' <= c <= 'z'
  }

  /** ASCII case folding, as an IGNORECASE match compares letters. */
  function ToLower(c: char): char {
    if 'A' <= c <= 'Z' then (c as int - 'A' as int + 'a' as int) as char else c
  }

  // ---------------------------------------------------------------------------
  // Strings

  predicate StartsWith(s: string, prefix: string) {
    |prefix| <= |s| && s[..|prefix|] == prefix
  }

  predicate EndsWith(s: string, suffix: string) {
    |suffix| <= |s| && s[|s| - |suffix|..] == suffix
  }

  /** No leading and no trailing whitespace. */
  predicate Stripped(s: string) {
    |s| == 0 || (!IsSpace(s[0]) && !IsSpace(s[|s| - 1]))
  }

  /** `s.lstrip()`: `s` without its leading whitespace. */
  function LStrip(s: string): (r: string)
    ensures |r| <= |s|
    decreases |s|
  {
    if |s| > 0 && IsSpace(s[0]) then LStrip(s[1..]) else s
  }

  /** What `lstrip` leaves is a suffix that starts with a visible character,
      and what it drops is whitespace. */
  lemma {:induction false} LStripSuffix(s: string)
    ensures var r := LStrip(s);
      && r == s[|s| - |r|..]
      && AllSpace(s[..|s| - |r|])
      && (|r| == 0 || !IsSpace(r[0]))
    decreases |s|
  {
    if |s| > 0 && IsSpace(s[0]) {
      LStripSuffix(s[1..]);
      var r := LStrip(s[1..]);
      assert LStrip(s) == r;
      assert s[..|s| - |r|] == [s[0]] + s[1..][..|s| - 1 - |r|];
      assert s[|s| - |r|..] == s[1..][|s| - 1 - |r|..];
    }
  }

  /** `s.rstrip()`: `s` without its trailing whitespace. */
  function RStrip(s: string): (r: string)
    ensures |r| <= |s|
    decreases |s|
  {
    if |s| > 0 && IsSpace(s[|s| - 1]) then RStrip(s[..|s| - 1]) else s
  }

  /** What `rstrip` leaves is a prefix that ends with a visible character,
      and what it drops is whitespace. */
  lemma {:induction false} RStripPrefix(s: string)
    ensures var r := RStrip(s);
      && r == s[..|r|]
      && AllSpace(s[|r|..])
      && (|r| == 0 || !IsSpace(r[|r| - 1]))
    decreases |s|
  {
    if |s| > 0 && IsSpace(s[|s| - 1]) {
      RStripPrefix(s[..|s| - 1]);
      var r := RStrip(s[..|s| - 1]);
      assert RStrip(s) == r;
      assert s[|r|..] == s[..|s| - 1][|r|..] + [s[|s| - 1]];
      assert s[..|r|] == s[..|s| - 1][..|r|];
    }
  }

  /** Concatenation is associative. */
  lemma ConcatAssoc<T>(a: seq<T>, b: seq<T>, c: seq<T>)
    ensures a + (b + c) == a + b + c
  {
  }

  /** `s.strip()`: the infix of `s` between its leading and trailing whitespace. */
  function Strip(s: string): (r: string)
    ensures Stripped(r)
    ensures |r| <= |s|
  {
    var l := LStrip(s);
    LStripSuffix(s);
    RStripPrefix(l);
    RStrip(l)
  }

  /** Stripping removes exactly surrounding whitespace: a stripped text padded
      with whitespace on both sides strips back to itself. */
  lemma {:induction false} StripPadded(lead: string, t: string, trail: string)
    requires AllSpace(lead) && AllSpace(trail) && Stripped(t) && |t| > 0
    ensures Strip(lead + t + trail) == t
  {
    assert lead + t + trail == lead + (t + trail);
    LStripPadded(lead, t + trail);
    assert LStrip(lead + t + trail) == t + trail;
    RStripPadded(t, trail);
  }

  lemma {:induction false} LStripPadded(lead: string, t: string)
    requires AllSpace(lead) && |t| > 0 && !IsSpace(t[0])
    ensures LStrip(lead + t) == t
    decreases |lead|
  {
    if |lead| > 0 {
      assert (lead + t)[1..] == lead[1..] + t;
      LStripPadded(lead[1..], t);
    } else {
      assert lead + t == t;
    }
  }

  lemma {:induction false} RStripPadded(t: string, trail: string)
    requires AllSpace(trail) && |t| > 0 && !IsSpace(t[|t| - 1])
    ensures RStrip(t + trail) == t
    decreases |trail|
  {
    if |trail| > 0 {
      assert (t + trail)[..|t + trail| - 1] == t + trail[..|trail| - 1];
      RStripPadded(t, trail[..|trail| - 1]);
    } else {
      assert t + trail == t;
    }
  }

  /** `sep.join(xs)`. */
  function Join(sep: string, xs: seq<string>): string
    decreases |xs|
  {
    if |xs| == 0 then ""
    else if |xs| == 1 then xs[0]
    else xs[0] + sep + Join(sep, xs[1..])
  }

  /** `"".join(xs)`. */
  function Concat(xs: seq<string>): string
    decreases |xs|
  {
    if |xs| == 0 then "" else xs[0] + Concat(xs[1..])
  }

  // ---------------------------------------------------------------------------
  // Decimal numbers

  function DigitChar(d: nat): (c: char)
    requires d < 10
    ensures IsDigit(c) && c as int - '0' as int == d
  {
    ('0' as int + d) as char
  }

  /** `str(n)` for a natural number: its decimal digits, without leading zeros. */
  function NatToString(n: nat): (r: string)
    ensures |r| >= 1 && AllDigits(r)
    ensures |r| > 1 ==> r[0] != '0'
    decreases n
  {
    if n < 10 then [DigitChar(n)] else NatToString(n / 10) + [DigitChar(n % 10)]
  }

  /** `int(s)` for a string of decimal digits. */
  function DigitsValue(s: string): nat
    requires AllDigits(s)
    decreases |s|
  {
    if |s| == 0 then 0 else DigitsValue(s[..|s| - 1]) * 10 + (s[|s| - 1] as int - '0' as int)
  }

  /** `int(str(n)) == n`. */
  lemma {:induction false} DigitsValueOfNatToString(n: nat)
    ensures DigitsValue(NatToString(n)) == n
    decreases n
  {
    var r := NatToString(n);
    if n >= 10 {
      DigitsValueOfNatToString(n / 10);
      assert r[..|r| - 1] == NatToString(n / 10);
    }
  }

  /** Different numbers print differently. */
  lemma NatToStringInjective(n: nat, m: nat)
    requires NatToString(n) == NatToString(m)
    ensures n == m
  {
    DigitsValueOfNatToString(n);
    DigitsValueOfNatToString(m);
  }

  /** The length of the run of digits `\d+` would consume at the start of `s`. */
  function DigitRun(s: string): (k: nat)
    ensures k <= |s| && AllDigits(s[..k])
    ensures k == |s| || !IsDigit(s[k])
    decreases |s|
  {
    if |s| > 0 && IsDigit(s[0]) then
      var k := 1 + DigitRun(s[1..]);
      assert s[..k] == [s[0]] + s[1..][..k - 1];
      k
    else 0
  }

  /** A printed number followed by a non-digit is read back whole. */
  lemma DigitRunOfNumber(n: nat, rest: string)
    requires |rest| == 0 || !IsDigit(rest[0])
    ensures DigitRun(NatToString(n) + rest) == |NatToString(n)|
    ensures (NatToString(n) + rest)[..|NatToString(n)|] == NatToString(n)
  {
    var d := NatToString(n);
    DigitRunOfDigits(d, rest);
  }

  lemma {:induction false} DigitRunOfDigits(d: string, rest: string)
    requires AllDigits(d)
    requires |rest| == 0 || !IsDigit(rest[0])
    ensures DigitRun(d + rest) == |d|
    ensures (d + rest)[..|d|] == d
    decreases |d|
  {
    if |d| > 0 {
      assert (d + rest)[1..] == d[1..] + rest;
      DigitRunOfDigits(d[1..], rest);
    } else {
      assert d + rest == rest;
    }
  }

  /** The leftmost position at or after `i` where the matcher `m` matches:
      a regular expression search tries every start position in order, the
      end of the text included. */
  function FirstMatch<T>(s: string, i: nat, m: string -> Option<T>): (r: Option<nat>)
    requires i <= |s|
    ensures r.Some? ==> i <= r.value <= |s| && m(s[r.value..]).Some?
    decreases |s| - i
  {
    if m(s[i..]).Some? then Some(i)
    else if i == |s| then None
    else FirstMatch(s, i + 1, m)
  }

  /** The match found is the leftmost one, and no match means no position
      matches. */
  lemma {:induction false} FirstMatchLeftmost<T>(s: string, i: nat, m: string -> Option<T>)
    requires i <= |s|
    ensures var r := FirstMatch(s, i, m);
      && (r.Some? ==> forall j :: i <= j < r.value ==> m(s[j..]).None?)
      && (r.None? ==> forall j :: i <= j <= |s| ==> m(s[j..]).None?)
    decreases |s| - i
  {
    if m(s[i..]).None? && i < |s| {
      FirstMatchLeftmost(s, i + 1, m);
    }
  }

  // ---------------------------------------------------------------------------
  // Collections

  /** No element occurs twice. */
  predicate Distinct<T(==)>(s: seq<T>) {
    forall i, j :: 0 <= i < j < |s| ==> s[i] != s[j]
  }

  function ToSet<T>(s: seq<T>): set<T> {
    set x | x in s
  }

  /** `len(set(s)) == len(s)` exactly when `s` has no repeated element. */
  lemma {:induction false} SetCardinality<T>(s: seq<T>)
    ensures |ToSet(s)| <= |s|
    ensures |ToSet(s)| == |s| <==> Distinct(s)
    decreases |s|
  {
    if |s| > 0 {
      var p := s[..|s| - 1];
      var x := s[|s| - 1];
      SetCardinality(p);
      assert s == p + [x];
      assert ToSet(s) == ToSet(p) + {x};
      if x in p {
        assert ToSet(s) == ToSet(p);
        var k :| 0 <= k < |p| && p[k] == x;
        assert s[k] == s[|s| - 1];
      } else {
        assert x !in ToSet(p);
        assert Distinct(s) <==> Distinct(p) by {
          if Distinct(p) {
            forall i, j | 0 <= i < j < |s| ensures s[i] != s[j] {
              if j == |s| - 1 {
                assert s[i] == p[i];
              } else {
                assert s[i] == p[i] && s[j] == p[j];
              }
            }
          }
          if Distinct(s) {
            forall i, j | 0 <= i < j < |p| ensures p[i] != p[j] {
              assert p[i] == s[i] && p[j] == s[j];
            }
          }
        }
      }
    } else {
      assert ToSet(s) == {};
    }
  }

  /** `list(set(s))` with a fixed order: every element once, first occurrence first. */
  function Dedupe<T(==)>(s: seq<T>): (r: seq<T>)
    ensures Distinct(r)
    ensures forall i :: 0 <= i < |r| ==> r[i] in s
    ensures forall i :: 0 <= i < |s| ==> s[i] in r
    ensures |r| <= |s|
    decreases |s|
  {
    if |s| == 0 then []
    else
      var r := Dedupe(s[..|s| - 1]);
      if s[|s| - 1] in r then r else r + [s[|s| - 1]]
  }

  /** A subset is no larger than its superset. */
  lemma {:induction false} SubsetCard<T>(a: set<T>, b: set<T>)
    requires a <= b
    ensures |a| <= |b|
    decreases |a|
  {
    if a != {} {
      var x :| x in a;
      SubsetCard(a - {x}, b - {x});
    }
  }

  function Sum(xs: seq<int>): int
    decreases |xs|
  {
    if |xs| == 0 then 0 else Sum(xs[..|xs| - 1]) + xs[|xs| - 1]
  }
}

=== FILE: workspace.dfy ===
/** The workspace registry: one directory per run below a base directory.
    The file system is reduced to the set of directories that exist. */
module Workspace {
  import opened Util

  /** The manager's state: the base directory and the registered workspaces
      by run id. */
  datatype Workspaces = Workspaces(base: string, registry: map<string, string>)

  function Empty(base: string): (w: Workspaces)
    ensures w.registry == map[]
  {
    Workspaces(base, map[])
  }

  /** `base_path / run_id`. */
  function PathFor(base: string, runId: string): string {
    base + "/" + runId
  }

  /** `create`: the workspace of a run is `base/run_id`, created if missing
      and registered under the run id. */
  function Create(w: Workspaces, runId: string): (r: (Workspaces, string))
    ensures r.1 == PathFor(w.base, runId)
    ensures r.0.base == w.base
    ensures runId in r.0.registry && r.0.registry[runId] == r.1
    ensures r.0.registry.Keys == w.registry.Keys + {runId}
    ensures forall id :: id in w.registry && id != runId ==> id in r.0.registry && r.0.registry[id] == w.registry[id]
  {
    var path := PathFor(w.base, runId);
    (w.(registry := w.registry[runId := path]), path)
  }

  /** Creating a workspace twice is the same as creating it once. */
  lemma CreateIdempotent(w: Workspaces, runId: string)
    ensures Create(Create(w, runId).0, runId) == Create(w, runId)
  {
    var p := PathFor(w.base, runId);
    assert w.registry[runId := p][runId := p] == w.registry[runId := p];
  }

  /** `get`: the registered path, or nothing for an unknown run. */
  function Get(w: Workspaces, runId: string): (r: Option<string>)
    ensures r.Some? <==> runId in w.registry
    ensures r.Some? ==> r.value == w.registry[runId]
  {
    if runId in w.registry then Some(w.registry[runId]) else None
  }

  /** After `create`, `get` answers the created path. */
  lemma GetAfterCreate(w: Workspaces, runId: string, other: string)
    ensures Get(Create(w, runId).0, runId) == Some(PathFor(w.base, runId))
    ensures other != runId ==> Get(Create(w, runId).0, other) == Get(w, other)
  {
  }

  /** `copy_results`: the directory copied into the destination, if any:
      the run's workspace when it is registered and exists on disk. */
  function CopySource(w: Workspaces, runId: string, onDisk: set<string>): (r: Option<string>)
    ensures r.Some? <==> runId in w.registry && w.registry[runId] in onDisk
    ensures r.Some? ==> r == Get(w, runId)
  {
    match Get(w, runId)
    case Some(p) => if p in onDisk then Some(p) else None
    case None => None
  }

  // ---------------------------------------------------------------------------
  // Removal

  /** A path at or below a directory. */
  predicate Within(p: string, dir: string) {
    p == dir || dir + "/" <= p
  }

  /** `shutil.rmtree(dir, ignore_errors=True)` behind an `exists()` check:
      the directory and everything below it is deleted. Errors are ignored,
      so the paths in `stuck` that the removal cannot delete (files the
      container wrote as another user, say) stay behind without a word. */
  function RemoveTree(onDisk: set<string>, dir: string, stuck: set<string>): (after: set<string>)
    ensures after <= onDisk
    ensures forall p :: p in onDisk && !Within(p, dir) ==> p in after
    ensures dir in onDisk ==> forall p :: p in after && Within(p, dir) ==> p in stuck
    ensures dir !in onDisk ==> after == onDisk
  {
    if dir in onDisk then set p | p in onDisk && (!Within(p, dir) || p in stuck) else onDisk
  }

  /** Whether the cleanup of `w` sweeps a path: it lies at or below a
      registered workspace that exists. */
  predicate Swept(w: Workspaces, onDisk: set<string>, p: string) {
    exists id :: id in w.registry && w.registry[id] in onDisk && Within(p, w.registry[id])
  }

  /** `cleanup`: every registered workspace that exists is removed with
      `rmtree`, errors ignored, and the registry is emptied. Returns the new
      state and the paths left on disk: everything outside the workspaces,
      and inside them only what the removal could not delete. */
  function Cleanup(w: Workspaces, onDisk: set<string>, stuck: set<string>): (r: (Workspaces, set<string>))
    ensures r.0 == Empty(w.base)
    ensures r.1 <= onDisk
    ensures forall p :: p in onDisk && (forall id :: id in w.registry ==> !Within(p, w.registry[id])) ==> p in r.1
    ensures forall p, id :: p in r.1 && id in w.registry && w.registry[id] in onDisk && Within(p, w.registry[id]) ==> p in stuck
  {
    (Empty(w.base), set p | p in onDisk && (!Swept(w, onDisk, p) || p in stuck))
  }

  /** When every removal succeeds, nothing at or below a registered
      workspace that existed is left, nested paths included, and every other
      path stays. */
  lemma CleanupComplete(w: Workspaces, onDisk: set<string>)
    ensures forall p :: p in Cleanup(w, onDisk, {}).1 <==> p in onDisk && !Swept(w, onDisk, p)
  {
  }

  /** Cleaning up twice touches nothing the second time. */
  lemma CleanupIdempotent(w: Workspaces, onDisk: set<string>, stuck: set<string>, later: set<string>, stuck': set<string>)
    ensures Cleanup(Cleanup(w, onDisk, stuck).0, later, stuck') == (Cleanup(w, onDisk, stuck).0, later)
  {
    var e := Cleanup(w, onDisk, stuck).0;
    assert e.registry == map[];
    assert Cleanup(e, later, stuck').1 == later by {
      forall p | p in later ensures p in Cleanup(e, later, stuck').1 {
        assert !Swept(e, later, p);
      }
    }
  }

  /** The cleanup of run `a-1`'s workspace `b/a-1` takes its `repo` directory
      with it and leaves `b/a-10`, whose name only starts the same. */
  lemma CleanupNested()
    ensures Cleanup(Workspaces("b", map["a-1" := "b/a-1"]), {"b/a-1", "b/a-1/repo", "b/a-10"}, {}).1 == {"b/a-10"}
  {
    var w := Workspaces("b", map["a-1" := "b/a-1"]);
    var onDisk: set<string> := {"b/a-1", "b/a-1/repo", "b/a-10"};
    assert Within("b/a-1", "b/a-1");
    assert Within("b/a-1/repo", "b/a-1") by { assert "b/a-1/" == "b/a-1/repo"[..6]; }
    assert !Within("b/a-10", "b/a-1") by { assert "b/a-10"[5] != ("b/a-1" + "/")[5]; }
    assert "a-1" in w.registry && w.registry["a-1"] == "b/a-1" && "b/a-1" in onDisk;
    assert Swept(w, onDisk, "b/a-1") && Swept(w, onDisk, "b/a-1/repo");
    assert !Swept(w, onDisk, "b/a-10");
  }
}
